=== FILE: README.md ===
# LevelUp in Dafny

LevelUp is a habit app written in React Native, with a small Flask backend. The player plans
goals in four skills: Mind, Body, Spirit and Accountability. Completing a goal earns
experience (XP) in its skill, and the skill levels gate a path of dungeon stages. The app
also keeps a daily streak, a calendar of planned and active days, and a journal whose
reflections are summarised either locally or by the backend.

This project models the core of that code as pure Dafny functions over immutable data and
proves what the code does with it. All state goes through key-value storage, and the model
treats that storage as a map. Each module below names the file it models:

- `Progress`: the progression context (`context/XPContext.tsx`).
  - State: per-skill XP and levels, the streak and its action flag, today mode, tomorrow's
    plan, the dungeon counter, the day's saved goal snapshot, and the midnight timer.
  - Loading: everything the context reads back on mount.
  - Writing: all values are written as JSON text. They are read back with JavaScript's
    `Boolean`, `Number` and `JSON.parse`, which are modelled in `Storage`, `Numerals` and `Json`.
- `LegacyProgress`: the older single-track context (`levelUp/context/XPContext.tsx`).
- `Planner`: the two home screens that draft, confirm, toggle, remove and save goals
  (`screens/HomeScreen.tsx` and `levelUp/screens/HomeScreen.tsx`), on top of `Goals`.
  - `Goals` covers goal records, toggling, removal, categories and their JSON form.
- `GoalScreen`: the older screen that shows yesterday's plan (`levelUp/screens/GoalScreen.tsx`).
- `Dungeon`: the stage path, its entry gate and its stored roster (`screens/DungeonScreen.tsx`).
- `LegacyDungeon`: the older counter screen and character sprite
  (`levelUp/screens/DungeonScreen.tsx`, `levelUp/utils/character.tsx`).
- `Dates`: the date keys (`utils/Date.tsx`) and the calendar's local keys.
- `Calendar`: the calendar screen's dots and per-day goal lists (`screens/Calendar.tsx`).
- `Journal`: the journal card's keyword summariser, day store and save flow (`utils/journalCard.tsx`).
- `Backend`: the `/summarize` endpoint with its per-IP rate limiter, validation, sentiment
  bands, keywords and topic (`backend/backend.py`).

Where the code departs from what it evidently means to do, the model follows the code. These
are the places:

- Levelling uses the threshold of the level the skill had before the call, for every step.
  25 XP at level 0 therefore gives level 2 with 5 XP.
- The streak check on load always fires. Both date keys read as NaN through `Number`, so the
  streak is reset on every launch.
- Date keys are UTC dates (`toISOString`). The calendar and the journal use local dates.
- The older home screen calls `changeStreak` and `changeGoals`, which its context does not
  provide. Confirming a goal there throws before the form is reset, and saving throws outright.
- The older sprite reads a `dungeonLevel` its context does not have, so it always shows the
  third stage.
- The older goal screen runs under the older context, which has no `changeGoals`. Pressing a
  goal there makes its awards and then throws, so the goal is never faded out or removed. The
  development reset throws the same way, before it removes the planner's draft key.
- Each `addXp` in one handler computes from the `xp` and `level` of the render the handler
  closes over. When several goals share the pressed id, their awards therefore overwrite one
  another, and the XP track gains a single award.
- Goal lengths on the home screens are JavaScript `.length`, which counts UTF-16 units, so an
  emoji counts as two characters in the hour and minute checks.
- On the calendar's first load both effects start from the same loaded marks. When today has
  planned goals, the sync effect's marks replace the action dot the action effect just added.
- A completed dungeon stage is marked in memory only and is not stored.
- A journal hook that throws after a successful save makes the catch branch save the
  reflection a second time.
- Requests answered 400, 413 or 500 still count toward the backend's rate limit.

## Model

| member | source | states |
|---|---|---|
| Storage.StoredBooleanIsTrue | context/XPContext.tsx:113-115 | the text `JSON.stringify` writes for either boolean reads back as true through `Boolean` |
| Storage.NumberOfIntText | context/XPContext.tsx:151-153 | `Number` reads back the decimal text of any integer as that integer |
| Storage.NumberOfQuoted | context/XPContext.tsx:162 | a quoted string, which is what `JSON.stringify` writes for text, is NaN under `Number` |
| Storage.EitherDiffers | context/XPContext.tsx:163 | `x !== a \|\| x !== b` holds unless `a` and `b` are the same non-NaN number |
| Json.ParseOfSerialize | context/XPContext.tsx:129-137 | `JSON.parse` of what `JSON.stringify` wrote gives back the same value |
| Dates.DaysInMonth | utils/Date.tsx:3 | months have 28 to 31 days, and 29 exactly for February of a leap year |
| Dates.Next | utils/Date.tsx:3 | the following day: a valid date after the given one, and no valid date lies between them |
| Dates.Prev | utils/Date.tsx:3 | the preceding day: a valid date before the given one, and no valid date lies between them |
| Dates.NextPrevInverse | utils/Date.tsx:3 | stepping a day forward and a day back, in either order, returns the date |
| Dates.AddDays | utils/Date.tsx:3 | `setDate(getDate() + n)` always lands on a valid date |
| Dates.AddDaysCompose | utils/Date.tsx:3 | moving `a` days and then `b` days is moving `a + b` days |
| Dates.IsoDateRoundTrip | utils/Date.tsx:4 | for years 0 to 9999 the date key is ten characters long and parses back to the date |
| Dates.IsoDateLength | utils/Date.tsx:4 | the key has ten characters exactly when the year is between 0 and 9999 |
| Dates.IsoDateInjective | utils/Date.tsx:4 | two valid dates with the same four-digit-year key are the same date |
| Dates.LocalYmdMatchesIso | screens/Calendar.tsx:19-24 | the local key format agrees with the ISO date part exactly for years 1000 to 9999 |
| Dates.NumberOfIsoDate | context/XPContext.tsx:162-163 | `Number` of any date key is NaN |
| Dates.YesterdayPrecedesToday | utils/Date.tsx:7-8 | yesterday's key differs from today's, and the date it names is followed by today's |
| Dates.TodayIsNextYesterday | utils/Date.tsx:7-8 | one UTC day later, yesterday's key is the earlier today's key |
| Dates.LocalAndUtcKeysDiffer | screens/Calendar.tsx:18-31 | when the local date is not the UTC date, the calendar's local key differs from the context's key |
| Dates.CalendarBoundaries | utils/Date.tsx:3 | day steps across leap days, month ends and the year end land on the right dates |
| Seqs.Filter | screens/HomeScreen.tsx:168-170 | `filter` keeps exactly the elements that pass the test, and each one passes it |
| Seqs.Dedupe | screens/Calendar.tsx:116 | `Array.from(new Set(s))` has no duplicates, holds exactly the elements of `s`, and is no longer than `s` |
| Seqs.DedupeKeepsBase | screens/Calendar.tsx:116 | merging into a duplicate-free list keeps that list first and in order |
| Seqs.DedupeAbsorbs | screens/Calendar.tsx:116 | merging only known elements into a duplicate-free list gives the list back |
| Seqs.SliceFront | utils/journalCard.tsx:162 | `slice(0, n)` is a prefix; for `n >= 0` it has `min(n, len)` elements, and a negative `n` drops that many from the back |
| Seqs.Take | backend/backend.py:165 | `s[:n]` for a non-negative `n` is the prefix of `min(n, len)` elements |
| Seqs.TakeLast | utils/journalCard.tsx:90 | `slice(-n)` is a suffix; it has `min(n, len)` elements for `n > 0`, and `slice(-0)` is the whole sequence |
| Text.Lower | utils/journalCard.tsx:55 | lower-casing keeps the length and maps each character on its own |
| Text.LowerIdempotent | utils/journalCard.tsx:55 | lower-casing twice is lower-casing once |
| Text.LowerConcat | utils/journalCard.tsx:55 | lower-casing distributes over concatenation |
| Text.Utf16Length | screens/HomeScreen.tsx:185 | JavaScript's `.length` lies between the character count and twice it, and equals the character count exactly when no character is astral |
| Text.ContainsExtend | utils/journalCard.tsx:58-59 | a word `includes` finds in a text is still found when more text is added on either side |
| Text.Strip | utils/journalCard.tsx:127 | `trim` is empty exactly when every character is white space; otherwise it is the middle slice, with non-space ends |
| Text.StripIdempotent | utils/journalCard.tsx:127 | trimming twice is trimming once |
| Goals.SkillIndex | screens/HomeScreen.tsx:116-121 | Mind, Body, Spirit and Accountability feed skills 0 to 3, and any other place feeds none |
| Goals.FromJsonOfToJson | screens/HomeScreen.tsx:142-151 | a goal written as its stored object reads back as the same goal |
| Goals.ListFromJsonOfListToJson | screens/HomeScreen.tsx:92-95 | a stored goal array reads back as the same list |
| Goals.ReadEncoded | screens/HomeScreen.tsx:64-78 | the stored text of a goal list is non-empty, parses, and reads back as that list |
| Goals.EncodeInjective | screens/HomeScreen.tsx:94 | different goal lists are stored as different texts |
| Goals.Toggle | screens/HomeScreen.tsx:110-127 | every goal with the id flips its completion and nothing else changes; each flip to completed asks for one award of 50 XP in the place's skill |
| Goals.ToggleTwice | screens/HomeScreen.tsx:113-115 | toggling the same id twice restores the list |
| Goals.PendingAfterToggle | screens/HomeScreen.tsx:112-125 | after a toggle, the open goals with the id are those that were completed |
| Goals.RecheckAwardsAgain | screens/HomeScreen.tsx:113-121 | with distinct ids, completing awards once, un-checking awards nothing, and re-completing awards again |
| Goals.Remove | screens/HomeScreen.tsx:164-166 | `removeGoal` drops exactly the goals with the id and keeps the rest in order |
| Goals.RemoveCount | screens/HomeScreen.tsx:164-166 | removal shortens the list by the number of goals with the id |
| Goals.RemoveLaws | screens/HomeScreen.tsx:165 | removing twice is removing once, and removal works piecewise on a concatenation |
| Goals.ToggleAbsent | screens/HomeScreen.tsx:112-124 | toggling an id no goal has changes nothing and asks for nothing |
| Goals.RemoveAfterToggle | levelUp/screens/GoalScreen.tsx:93-95 | removing an id after toggling it is the same as only removing it |
| Goals.ByCategory | screens/HomeScreen.tsx:168-170 | `getGoalByCategory` holds exactly the goals of that category |
| Goals.ByCategoryConcat | screens/HomeScreen.tsx:168-170 | the category's goals of a joined list are those of the first part followed by those of the second, so list order is kept |
| Goals.ByCategoryOne | screens/HomeScreen.tsx:168-170 | a single goal is kept exactly when it has the category |
| Goals.CategoriesPartition | levelUp/screens/GoalScreen.tsx:57-61 | the four category lists and the goals outside them account for every goal exactly once |
| Progress.DateKeyIsNotAppKey | context/XPContext.tsx:64-69 | no date key collides with one of the context's fixed storage keys |
| Progress.InitialWellFormed | context/XPContext.tsx:71-81 | the state on mount has four skills, non-negative levels, and a current date that is none of the fixed keys |
| Progress.IntsFromJsonOfIntsJson | context/XPContext.tsx:129-137 | a stored number array reads back element by element |
| Progress.RequiredXp | context/XPContext.tsx:194-202 | the threshold is `10 + 2 * lv` up to level 25 and never less than that above it, and it is positive exactly when the level is above -5 |
| Progress.RequiredXpShape | context/XPContext.tsx:194-202 | the threshold starts at 10, rises strictly, and each level adds 2, then 4 past level 25, then 5 past level 50 |
| Progress.AddXp | context/XPContext.tsx:204-221 | only skill `i` changes; at or above the old threshold the total becomes `total / t` levels and `total % t` XP; both arrays are stored |
| Progress.AddXpKeepsXpBelowThreshold | context/XPContext.tsx:204-221 | with a non-negative gain, XP below its threshold stays below the new level's threshold, and the level never drops |
| Progress.FixedThresholdExample | context/XPContext.tsx:210-214 | 25 XP at level 0 gives level 2 with 5 XP, because the threshold is not recomputed inside the loop |
| Progress.ChangeLevel | context/XPContext.tsx:223-226 | only the levels change, only the level key is written, and the stored array reads back as the new levels |
| Progress.ChangeXp | context/XPContext.tsx:228-231 | only the XP changes, only the XP key is written, and the stored array reads back as the new XP |
| Progress.ChangeTodayMode | context/XPContext.tsx:233-236 | only today mode changes, only its key is written, and the stored text reads back as true whatever the value |
| Progress.ChangeGoals | context/XPContext.tsx:238-240 | the in-memory state is untouched, only the current date's key is written, and it reads back as the list |
| Progress.ChangeYesterdayGoals | context/XPContext.tsx:242-244 | the in-memory state is untouched, only yesterday's key is written, and it reads back as the list |
| Progress.ChangeDungeon | context/XPContext.tsx:246-249 | only the dungeon counter changes, only its key is written, and `Number` reads the stored text back as the counter |
| Progress.ChangeAction | context/XPContext.tsx:261-265 | only the action flag changes; only the action key and the last active date are written; the flag reads back as true and the date is stored quoted, so `Number` reads it as NaN |
| Progress.ChangeTomorrowSaved | context/XPContext.tsx:267-270 | only the saved-plan flag changes, only its key is written, and the stored text reads back as true whatever the value |
| Progress.ChangeTomorrowGoals | context/XPContext.tsx:272-275 | only tomorrow's plan changes, only its key is written, and it reads back as the plan |
| Progress.Midnight | context/XPContext.tsx:89-94 | only the current date, which becomes today's key, and the saved-plan flag, which becomes false, change; only that flag's key is written, as "false" |
| Progress.LoadProgress | context/XPContext.tsx:99-188 | the load aborts exactly when one of its four JSON reads throws; an aborted load writes nothing; the current date is today's key |
| Progress.ChangeStreak | context/XPContext.tsx:251-259 | once an action is recorded nothing changes; before that the streak grows by the amount, is stored, the action is recorded with today's key, and no other key is written |
| Progress.StreakCountsOncePerSession | context/XPContext.tsx:251-259 | a second `changeStreak` in the same session changes nothing |
| Progress.ApplyCall | context/XPContext.tsx:223-275 | every context setter the screens call keeps the state well formed |
| Progress.ApplyAll | context/XPContext.tsx:223-275 | a run of screen calls keeps the state well formed |
| Progress.ApplyAllKeepsDate | context/XPContext.tsx:238-240 | no screen call moves the date key `changeGoals` writes under |
| Progress.StreakOnceAcrossCalls | context/XPContext.tsx:251-259 | however many streak calls a session makes, only the first one counts, and only if no action was recorded |
| Progress.StreakStaysAfterAction | context/XPContext.tsx:253 | once an action is recorded, no call changes the streak or clears the flag |
| Progress.LoadAbortsIff | context/XPContext.tsx:99-188 | the load runs to the end exactly when none of its four JSON reads throws, and an aborted load writes nothing |
| Progress.ReconcileAlwaysResets | context/XPContext.tsx:159-180 | with a stored streak, the captured `action` of false resets the streak to 0 and the flag to false, and stores both |
| Progress.LoadAlwaysResetsStreak | context/XPContext.tsx:159-180 | after a load with a stored streak, the streak is 0 and the action flag false, and those are the only writes |
| Progress.LoadRestStreak | context/XPContext.tsx:159-180 | the tail of the load leaves the streak at 0 whenever one was stored |
| Progress.LoadFields | context/XPContext.tsx:113-153 | a clean load sets each field from its key when the stored value is usable; otherwise the XP, level and dungeon counter keep their initial values and the goal lists are empty |
| Progress.LoadRestFields | context/XPContext.tsx:151-184 | the tail of the load changes only the dungeon counter, the flags and the streak |
| Progress.ReadEncodedInts | context/XPContext.tsx:129-132 | a stored number array is read back as written |
| Progress.ReadsIgnoreOtherKey | context/XPContext.tsx:102-111 | writing one key does not change what a read of another key sees |
| Progress.ReadEncodedGoals | context/XPContext.tsx:139-146 | a stored goal array is read back as written |
| Progress.TodayModeFalseReloadsTrue | context/XPContext.tsx:182-184 | today mode stored as false loads back as true |
| Progress.MidnightResetReloadsTrue | context/XPContext.tsx:89-94 | the midnight reset of `tomorrowSaved` loads back as true |
| Progress.ProgressSurvivesReload | context/XPContext.tsx:99-192 | XP and levels whose arrays are stored come back as they were |
| Progress.AddXpSurvivesReload | context/XPContext.tsx:219-220 | the arrays `addXp` wrote are exactly what the next load reads |
| Progress.PlanAndDungeonSurviveReload | context/XPContext.tsx:246-249 | tomorrow's plan and the dungeon counter come back as written |
| Progress.SavedGoalsReadNextDay | context/XPContext.tsx:238-240 | the list `changeGoals` stores today is the snapshot the next day's load reads |
| Progress.StreakLostOnReload | context/XPContext.tsx:159-180 | a streak counted in one session is 0 after the next launch |
| LegacyProgress.NumString | levelUp/context/XPContext.tsx:48-49 | `toString` never writes an empty text |
| LegacyProgress.NumberOfNumString | levelUp/context/XPContext.tsx:29-30 | `Number` reads back whatever `toString` wrote, NaN included |
| LegacyProgress.Load | levelUp/context/XPContext.tsx:25-33 | a present, non-empty stored value replaces the field through `Number`; otherwise the field stays |
| LegacyProgress.LoadOfSave | levelUp/context/XPContext.tsx:25-33 | loading what was saved gives the saved state, whatever state was there before |
| LegacyProgress.Gain | levelUp/context/XPContext.tsx:35-50 | the closed form of `addXp` stores exactly the state it produces |
| LegacyProgress.AddXp | levelUp/context/XPContext.tsx:35-50 | whole hundreds of the sum go to the level and the rest stays as XP; NaN XP stays NaN; both are stored |
| LegacyProgress.ChangeLevel | levelUp/context/XPContext.tsx:52-55 | sets and stores the level and leaves the XP alone |
| LegacyProgress.ChangeLevelSurvivesReload | levelUp/context/XPContext.tsx:52-55 | a level set after an XP gain comes back on the next launch, and so does that XP |
| LegacyProgress.AddXpSurvivesReload | levelUp/context/XPContext.tsx:35-50 | the next launch reads back exactly the state `addXp` left |
| LegacyProgress.HundredsExample | levelUp/context/XPContext.tsx:39-43 | 250 XP from a fresh start gives level 2 with 50 XP |
| LegacyProgress.Apply | levelUp/context/XPContext.tsx:57-58 | only `addXp` is defined, and it ignores the skill index |
| LegacyProgress.ApplyAll | levelUp/context/XPContext.tsx:57-58 | one handler's calls finish exactly when every call is `addXp`; one that starts with another call changes nothing |
| LegacyProgress.Run | levelUp/context/XPContext.tsx:35-58 | the calls from a point of the handler on finish exactly when every one is `addXp`; a first call of another kind throws and changes nothing |
| LegacyProgress.LastAwardWins | levelUp/context/XPContext.tsx:35-50 | every award of one handler reads the render's XP and level, so the context ends as the last award alone would leave it, in state and store |
| LegacyProgress.ThrowEndsRun | levelUp/context/XPContext.tsx:57-58 | a call the context lacks, after awards that went through, throws and keeps what the awards did |
| LegacyProgress.ApplyAllWritesProgressOnly | levelUp/context/XPContext.tsx:35-50 | one handler's calls write no key but the XP and level keys |
| LegacyProgress.RunWritesProgressOnly | levelUp/context/XPContext.tsx:35-50 | the calls from any point of a handler on write no key but the XP and level keys |
| LegacyProgress.AwardsShareOneTrack | levelUp/context/XPContext.tsx:35 | awards for different skills have the same effect |
| Planner.ConfirmAccepts | screens/HomeScreen.tsx:172-187 | a goal is accepted exactly when a template is chosen and the time is either left blank or has an hour of 1-2 UTF-16 units, minutes of 2 UTF-16 units and a meridiem |
| Planner.ConfirmCountsUtf16Units | screens/HomeScreen.tsx:185 | for text without astral characters the lengths are character counts; an emoji counts as two units, so `"7"` and an emoji pass as a time while `"1"` and an emoji fail as an hour |
| Planner.TimeLabel | screens/HomeScreen.tsx:133-140 | the time text is empty exactly when no hour was typed; otherwise it is hour, colon, minutes, space, meridiem |
| Planner.LegacyProvides | levelUp/context/XPContext.tsx:57-58 | the older context throws on exactly the calls the older screen's bindings lack |
| Planner.HandleConfirm | screens/HomeScreen.tsx:172-192 | a rejected form changes nothing; an accepted one appends the new goal at the end, calls `changeStreak(1)`, and resets the form only on the current screen |
| Planner.SaveGoals | screens/HomeScreen.tsx:157-162 | the draft always goes to `changeGoals`, and tomorrow is marked saved exactly on the current screen outside today mode |
| Planner.SaveGoalsStoresDraft | screens/HomeScreen.tsx:157-162 | through the current context the draft is stored under the context's date, and `tomorrowSaved` is set when today mode is off |
| Planner.LegacySaveThrows | levelUp/screens/HomeScreen.tsx:156-158 | through the older context saving throws at once and changes nothing |
| Planner.ToggleGoal | screens/HomeScreen.tsx:110-127 | the draft is toggled and mirrored to storage, and the form is untouched |
| Planner.ToggleAwardsSkill | screens/HomeScreen.tsx:110-127 | with distinct ids, completing an open goal asks for one 50 XP award, which lands in the skill its category names |
| Planner.OneAward | screens/HomeScreen.tsx:113-121 | with distinct ids, toggling an open goal yields exactly the award for its category |
| Planner.LegacyToggleAwards | levelUp/screens/HomeScreen.tsx:109-126 | through the older context every award goes to its single XP track |
| Planner.RemoveGoal | screens/HomeScreen.tsx:164-166 | the draft loses exactly the goals with the id, and it is mirrored to storage |
| Planner.MidnightClear | screens/HomeScreen.tsx:97-108 | the midnight timer empties the draft and mirrors the empty list |
| Planner.LoadDraft | screens/HomeScreen.tsx:64-90 | no stored draft, or an empty one, loads as the empty list |
| Planner.MirrorReloads | screens/HomeScreen.tsx:92-95 | the mirrored draft is exactly what the next load reads, the empty one included |
| Planner.ConfirmedGoalSurvivesReload | screens/HomeScreen.tsx:142-153 | a confirmed goal is still at the end of the draft after a restart |
| GoalScreen.Categorize | levelUp/screens/GoalScreen.tsx:57-61 | there is one bucket per category, holding that category's goals; for any split of the list, a bucket is the first part's goals of the category followed by the second part's, so list order is kept |
| GoalScreen.CategorizeAccounts | levelUp/screens/GoalScreen.tsx:57-61 | every goal of one of the four categories is in its own bucket and no other |
| GoalScreen.LoadGoals | levelUp/screens/GoalScreen.tsx:45-70 | yesterday's snapshot is split into the category buckets; without one there are no buckets |
| GoalScreen.MissingSnapshotShowsEmpty | levelUp/screens/GoalScreen.tsx:64-66 | without a snapshot for yesterday every box is empty |
| GoalScreen.PlannedYesterdayShownToday | levelUp/screens/GoalScreen.tsx:45-63 | goals saved through the current context one day are shown the next day, category by category and in order |
| GoalScreen.ToggleGoal | levelUp/screens/GoalScreen.tsx:72-91 | the working list is toggled, and `changeGoals` receives the list as it was before the toggle |
| GoalScreen.LegacyToggleThrows | levelUp/screens/GoalScreen.tsx:90 | through the older context the toggle's final `changeGoals` throws |
| GoalScreen.RemoveGoal | levelUp/screens/GoalScreen.tsx:93-95 | the working list loses the goals with the id, and the buckets are untouched |
| GoalScreen.FadeAndRemove | levelUp/screens/GoalScreen.tsx:97-115 | an id missing from the pressed-time list does nothing; a known one is removed |
| GoalScreen.Press | levelUp/screens/GoalScreen.tsx:154 | a press never changes the boxes on screen |
| GoalScreen.LegacyPressKeepsGoal | levelUp/screens/GoalScreen.tsx:72-115 | through the older context a press only toggles the working list, whose ids stay the same; one 50 XP award reaches the XP track when the toggle completes a goal, however many goals share the id; no key but the XP and level keys is written, and the goal is not removed |
| GoalScreen.DevReset | levelUp/screens/GoalScreen.tsx:179-186 | the reset empties the working list and keeps the boxes on screen |
| GoalScreen.LegacyDevResetKeepsDraftKey | levelUp/screens/GoalScreen.tsx:181-184 | through the older context the reset throws at `changeGoals([])`, so the context is unchanged and the `levelup_goals` draft key is not removed |
| Dungeon.InitRoster | screens/DungeonScreen.tsx:47-55 | the loop builds stages 0 to 49, none completed, the same roster as the initial state |
| Dungeon.CanEnter | screens/DungeonScreen.tsx:72-80 | the gate opens exactly when each of the four skills reaches `2 * (d + 1)`; NaN or a missing skill keeps it shut |
| Dungeon.GateMonotone | screens/DungeonScreen.tsx:72-80 | a player who may enter a stage may enter every earlier one |
| Dungeon.GateIsConjunctive | screens/DungeonScreen.tsx:72-80 | a high level in one skill does not make up for another |
| Dungeon.Advance | screens/DungeonScreen.tsx:65-70 | a closed gate changes nothing; an open one marks stage `d` completed and calls `changeDungeon(d + 1)`, and indexing past the roster throws |
| Dungeon.AdvanceThroughContext | screens/DungeonScreen.tsx:65-70 | advancing through the context moves its counter on by one, and the next gate asks for two more levels in every skill |
| Dungeon.LoadRoster | screens/DungeonScreen.tsx:40-61 | nothing stored sets and writes the fresh roster; a stored roster array is taken as it is; unparsable text or a non-array leaves the roster as it was; a stored value is never rewritten |
| Dungeon.RosterReloads | screens/DungeonScreen.tsx:40-57 | a stored roster is what the next load takes |
| Dungeon.FirstLoadThenReload | screens/DungeonScreen.tsx:47-56 | the first launch writes the fresh roster, and the second reads it back |
| Dungeon.CompletionForgottenOnReload | screens/DungeonScreen.tsx:65-70 | a completed stage is forgotten on the next launch, because the roster is not stored again |
| Dungeon.Classify | screens/DungeonScreen.tsx:97-109 | a stage is pressable exactly when its id is the counter plus one, completed exactly when below the counter, current exactly when equal to it, and locked exactly when above the counter plus one or when the counter is NaN |
| Dungeon.ClassifyOrdered | screens/DungeonScreen.tsx:97-109 | along increasing ids, stages run completed, current, pressable, locked, and never go back |
| Dungeon.OnePressableStage | screens/DungeonScreen.tsx:97-100 | in the fresh roster at most one stage is pressable, and one is exactly when stage `d + 1` exists |
| Dungeon.NaNLocksAll | screens/DungeonScreen.tsx:97-109 | a NaN counter draws every stage locked |
| LegacyDungeon.CanEnter | levelUp/screens/DungeonScreen.tsx:20-22 | the gate opens exactly when the level is a number of at least twice the counter |
| LegacyDungeon.Press | levelUp/screens/DungeonScreen.tsx:16-18 | a press moves the counter on by exactly one when the gate is open, and does nothing otherwise |
| LegacyDungeon.PressesStop | levelUp/screens/DungeonScreen.tsx:16-22 | presses climb one at a time and stop at `level / 2 + 1` |
| LegacyDungeon.FromFirstDungeon | levelUp/screens/DungeonScreen.tsx:13-22 | starting from dungeon 1, enough presses end exactly at `level / 2 + 1` |
| LegacyDungeon.NaNLevelNeverAdvances | levelUp/screens/DungeonScreen.tsx:22 | a NaN level keeps the counter where it is |
| LegacyDungeon.GateAfterReload | levelUp/screens/DungeonScreen.tsx:11-22 | the gate reads the same level after a restart as before it |
| LegacyDungeon.SpriteFor | levelUp/utils/character.tsx:19-27 | stage one up to 10, stage two from 11 to 25, stage three above 25 or for NaN |
| LegacyDungeon.SpriteMonotone | levelUp/utils/character.tsx:19-27 | higher dungeon levels never show an earlier sprite |
| LegacyDungeon.SpriteWithoutDungeonLevel | levelUp/utils/character.tsx:14 | without a dungeon level in the context, the sprite is the third stage |
| Calendar.KeysDiffer | screens/Calendar.tsx:30-31 | today's and tomorrow's local keys differ, and today's key is the ten-character ISO date for four-digit years |
| Calendar.MergeDot | screens/Calendar.tsx:55-61 | the date becomes marked, its dots gain the new dot only when its key is absent, and every other date is untouched |
| Calendar.MergeDotIdempotent | screens/Calendar.tsx:55-61 | merging the same dot twice is merging once |
| Calendar.MergeDotKeepsKeysDistinct | screens/Calendar.tsx:58-59 | dots with distinct keys keep distinct keys after a merge |
| Calendar.MergeDotUnchangedIff | screens/Calendar.tsx:55-61 | a merge changes nothing exactly when the date is already marked and has a dot with that key |
| Calendar.Normalize | screens/Calendar.tsx:33-39 | a falsy value gives no titles; an array gives one title per element, with strings kept; an object gives one per member; a string gives its characters |
| Calendar.NormalizeGoalTitles | screens/Calendar.tsx:36 | a stored goal list normalizes to its goals' titles |
| Calendar.Union | screens/Calendar.tsx:116 | the merged day list has no duplicates and holds exactly the old and new titles |
| Calendar.UnionKeepsExisting | screens/Calendar.tsx:116 | the day's existing list stays first and in order |
| Calendar.Load | screens/Calendar.tsx:63-77 | the screen is loaded, with the stored dots and the stored goal lists when present and empty maps otherwise |
| Calendar.ActionSync | screens/Calendar.tsx:89-97 | before the load, or without an action, nothing changes; otherwise today gets the action dot, persisted only when the marks changed |
| Calendar.ActionSyncIdempotent | screens/Calendar.tsx:90-97 | running the action effect twice is running it once |
| Calendar.Step | screens/Calendar.tsx:110-121 | a day with titles gets the planned dot and the union of its list with the titles; other days keep their lists |
| Calendar.StepStable | screens/Calendar.tsx:110-121 | a day that already has the planned dot and every title is left as it is |
| Calendar.Sync | screens/Calendar.tsx:99-142 | nothing happens before the load; each map is persisted exactly when it changed; the dots and goal lists of dates other than today and tomorrow are untouched |
| Calendar.SyncToday | screens/Calendar.tsx:110-121 | with titles for today, today carries the planned dot and every title |
| Calendar.PlannedDotPresent | screens/Calendar.tsx:111 | after the merge, the date is marked and has a planned dot |
| Calendar.StepSettles | screens/Calendar.tsx:110-121 | a second step with the same titles changes nothing |
| Calendar.StepFrame | screens/Calendar.tsx:123-134 | after tomorrow's step, today's step has nothing left to change: the other date's step does not undo it |
| Calendar.SyncIdempotent | screens/Calendar.tsx:99-142 | running the sync effect again with the same goals changes nothing |
| Calendar.Mount | screens/Calendar.tsx:89-142 | the first commit after the load leaves the screen loaded, with the stored dots and goal lists equal to those on screen |
| Calendar.MountWithoutPlans | screens/Calendar.tsx:89-97 | with no titles to sync, the first commit is the action effect alone |
| Calendar.MountLosesActionDot | screens/Calendar.tsx:89-142 | on a day not yet marked, with an action and titles for today, the action effect adds the action dot, but the commit ends with today marked without it, on screen and in the store |
| Journal.DayKeyInjective | utils/journalCard.tsx:15 | different days are stored under different keys |
| Journal.Hits | utils/journalCard.tsx:58-59 | the hit count is the length of the list filtered to the words that occur: at most the word count, 0 exactly when no word occurs, full exactly when every word occurs |
| Journal.HitsMonotone | utils/journalCard.tsx:58-59 | a text that contains every listed word another contains has at least as many hits |
| Journal.LocalSummarize | utils/journalCard.tsx:53-78 | Motivated exactly when positive hits outnumber negative ones, Stressed for the reverse, else Neutral; the summary depends on the emotion alone |
| Journal.SummaryOnlyByEmotion | utils/journalCard.tsx:68-73 | two reflections with the same emotion get the same summary, one of three fixed lines |
| Journal.SummarizeIgnoresCase | utils/journalCard.tsx:55 | lower-casing the reflection first does not change the result |
| Journal.AppendingAddsHits | utils/journalCard.tsx:55-59 | adding text never lowers the positive or negative hit count |
| Journal.SaveEntry | utils/journalCard.tsx:103-123 | the entry goes in front of the day's entries; other days are untouched; the day joins the index once, and only then are the recent dates updated to the last seven |
| Journal.Load | utils/journalCard.tsx:81-100 | the recent dates are the index's last seven, and today's entries are the stored ones; missing keys leave the card as it was |
| Journal.SaveThenLoad | utils/journalCard.tsx:103-123 | a fresh card loaded after a save shows the saved entries and recent dates |
| Journal.SaveTwice | utils/journalCard.tsx:111 | two saves on one day put the newer entry first and add the day to the index once |
| Journal.AnalyzeAndSave | utils/journalCard.tsx:125-160 | a blank reflection only sets the error; otherwise the text box is cleared and the card is no longer busy, the error is clear exactly when the summary arrives and the hook does not throw, and the hook runs only after a summary |
| Journal.BlankReflectionRefused | utils/journalCard.tsx:127-131 | a reflection of white space only sets the error and saves nothing |
| Journal.SummarySaved | utils/journalCard.tsx:133-144 | a summary that arrives is saved with the trimmed text, the text box is cleared, and the hook runs once |
| Journal.RejectionSavesFallback | utils/journalCard.tsx:145-156 | a summariser that fails saves the fallback entry, sets the error, and does not run the hook |
| Journal.ThrowingHookSavesTwice | utils/journalCard.tsx:142-156 | a hook that throws after the save makes the fallback entry go in front of the summarised one |
| Journal.IndexStaysDistinct | utils/journalCard.tsx:116-122 | the index of days never gains a duplicate |
| Journal.Shown | utils/journalCard.tsx:162 | the card shows a prefix of today's entries, `showLastN` of them when there are enough |
| Journal.NewestShownFirst | utils/journalCard.tsx:111 | right after a save, the saved entry is shown first |
| Backend.Recent | backend/backend.py:25 | keeps exactly the timestamps less than 60 seconds old, and never more than there were |
| Backend.RecentIsFilter | backend/backend.py:25 | the list comprehension: the timestamps less than 60 seconds old, in order and with their repeats |
| Backend.RateLimited | backend/backend.py:23-30 | a request is limited exactly when the IP has 60 recent requests; a limited one leaves the bucket alone, an accepted one stores its recent times plus now; other IPs are untouched |
| Backend.Serve | backend/backend.py:23-30 | a run of requests accepts at most as many as arrive |
| Backend.ServeKeepsBound | backend/backend.py:23-30 | while the stored times agree with the accepted ones, no 60-second window gains more than 60 accepted requests |
| Backend.AtMostSixtyPerWindow | backend/backend.py:13-30 | for a new IP and requests in time order, every 60-second window holds at most 60 accepted requests |
| Backend.ClientIp | backend/backend.py:18-21 | a forwarded header gives its first field, stripped, which has no comma; without the header the remote address when there is one, and "unknown" otherwise |
| Backend.ClientIpOfForwardedList | backend/backend.py:18-21 | a comma-joined forwarded list whose first entry is a bare address gives back that address, whatever follows and whatever the remote address |
| Backend.FirstField | backend/backend.py:21 | `split(",")[0]` is the longest comma-free prefix |
| Backend.FirstFieldOfJoin | backend/backend.py:21 | splitting a comma-joined text at the first comma gives back its comma-free first part |
| Backend.Band | backend/backend.py:34-38 | positive above 0.35, negative below -0.35, neutral in between |
| Backend.EmotionLabel | backend/backend.py:119-122 | Motivated above 0.35, Stressed below -0.35, Neutral in between |
| Backend.BandAndLabelAgree | backend/backend.py:119-125 | the emotion label is the label of the mood band |
| Backend.TimeGreeting | backend/backend.py:40-44 | Morning from 5 to 11, Afternoon from 12 to 17, Evening otherwise |
| Backend.GreetingChangesAt | backend/backend.py:40-44 | over a day the greeting changes exactly at 5, 12 and 18 o'clock, and is the same either side of midnight |
| Backend.Nouns | backend/backend.py:142 | every noun is a lower-cased word whose tag starts with NN |
| Backend.NounsInOrder | backend/backend.py:142 | the nouns are exactly the NN-tagged words, lower-cased, in text order, so every NN-tagged word is among them |
| Backend.Scrub | backend/backend.py:143 | scrubbing keeps only lower-case letters, digits, hyphens and spaces, and never lengthens the word |
| Backend.ScrubIsFilter | backend/backend.py:143 | scrubbing keeps exactly the allowed characters, in order, so a word of allowed characters only is returned unchanged |
| Backend.KeywordNounsEmpty | backend/backend.py:143 | no keyword nouns remain exactly when every noun is shorter than two characters |
| Backend.KeywordNounsInOrder | backend/backend.py:143 | the keyword nouns are the nouns of at least two characters, each scrubbed, in order |
| Backend.CollectDistinct | backend/backend.py:144-150 | the loop returns the first `max(n, 1)` distinct words in order of first occurrence |
| Backend.LongEnough | backend/backend.py:139 | no phrase is kept exactly when none has 2 to 40 characters |
| Backend.LongEnoughInOrder | backend/backend.py:139 | the kept phrases are exactly those of 2 to 40 characters, lower-cased, in order, so every such phrase is among them |
| Backend.TopKeywords | backend/backend.py:137-150 | with usable phrases the keywords are their first `n`, in order; without, they are the first `max(n, 1)` distinct keyword nouns in order, as the loop computes them |
| Backend.ChooseTopic | backend/backend.py:110-117 | the topic is the first keyword when there is one, else the first noun of the reflection, or "this" when there is none |
| Backend.TopicOfKeywords | backend/backend.py:110-117 | the topic is the first keyword when there is one; otherwise every noun is shorter than two characters and the topic is the first noun, or "this" |
| Backend.StyleFor | backend/backend.py:126 | a known style is kept and anything else becomes "coach" |
| Backend.FieldText | backend/backend.py:164-166 | a missing or falsy field gives the default, a non-empty string gives itself, and any other truthy value raises |
| Backend.ReadFields | backend/backend.py:163-166 | a missing or falsy body reads as no fields with the "coach" style; a truthy body that is not an object raises; an object raises exactly when a field is truthy and not text; the reflection and style come back stripped and the name at most 24 characters long |
| Backend.ReadFieldsOfText | backend/backend.py:163-166 | fields sent as text are read stripped, with the stripped name cut to its first 24 characters and an empty style replaced by "coach" |
| Backend.ReadFieldsRoundTrip | backend/backend.py:163-166 | stripped fields with a style and a name of at most 24 characters are read back exactly as sent |
| Backend.AppRequestFields | utils/summarizeWithFlask.tsx:10 | the app's body, which holds the reflection alone, is read as the stripped reflection, no name and the "coach" style |
| Backend.Respond | backend/backend.py:163-189 | a body that raises gives 500, then an empty reflection 400, then more than 1000 characters 413; otherwise the summary has the mood band, a known style, the name or "friend", the hour's greeting, the topic of the keywords, the top five keywords and the emotion label |
| Backend.Summarize | backend/backend.py:157-189 | the answer is 429 exactly when the limiter says so, and the bucket is always the limiter's |
| Backend.LimitedBeforeBody | backend/backend.py:159-163 | a limited request gets the same answer whatever its body, and leaves the bucket alone |
| Backend.InvalidRequestsCount | backend/backend.py:159-171 | every request that is not turned away with 429 is recorded, including 400, 413 and 500 answers |
| Backend.ValidationOrder | backend/backend.py:168-171 | an empty stripped reflection gives 400 however long the raw one was, and a non-empty one over 1000 characters gives 413 |
| Backend.SummaryShape | backend/backend.py:124-134 | a summary addresses a non-empty name of at most 24 characters, uses a known style, and its emotion matches its mood |

## Left out

- Rendering, layout, animation (`fadeAnim`, `scaleAnim`, the sprite frames), navigation and modal visibility are not modelled. The model stores goals without their animation handles. `JSON.stringify` writes `fadeAnim` and `scaleAnim` out with the goal; the model's goal reader looks its fields up by name and ignores any other member, and the screens rebuild the handles on every load.
- Asynchronous interleaving is not modelled: each `await` sequence runs to the end before the next event.
  - The stale write in `addNewGoal` (`screens/HomeScreen.tsx:154`) is therefore not modelled separately. The draft mirror effect overwrites it right after.
- The clock, `Date.now`, `Math.random`, generated ids and Python's `random.choice` are parameters. The two dates of a `Clock` are the UTC and local calendar dates. Time zones and daylight saving are not modelled.
- A stored goal array holding something that is not a goal record is treated as unreadable. The app would carry such elements along.
- Progress.LoadFields: a stored array that holds something other than integers or goal records is passed over, and the field keeps its value. The app sets the field to any array it parses. The state holds typed arrays only.
- Dungeon.LoadRoster: a stored array that is not an array of stages leaves the roster as it was. The app takes any array it parses. The roster holds stages only.
- Storage.NumberOfIntText: integers are unbounded in the model, and `Number` and `IntText` are exact for all of them. JavaScript numbers are doubles: integers past 2^53 are rounded, and from 10^21 on `toString` and `JSON.stringify` write exponent form. Neither is modelled. XP, levels, the streak and the dungeon counter grow by at most 50 or 1 per user action, so the app stays far below both bounds.
- Storage.Number: white space around a number, fractions, exponents and hexadecimal, which JavaScript's `Number` accepts, are read as NaN. The app stores none of these.
- The calendar and journal stores are modelled as values, not JSON text. A `JSON.parse` failure of those stores is not modelled.
- Calendar.Normalize: a title or name that is not a string is kept as text in the model. The app keeps the value itself. For an object, `Object.values` keeps one value per distinct key, the last duplicate winning, and puts integer-like keys first in numeric order; the model takes the members as stored. For a string, `Object.values` gives UTF-16 units, so an astral character becomes two halves; the model gives one text per character. The context only ever passes arrays here.
- The calendar's today and tomorrow keys are module-level constants, computed once when the module loads. They go stale after midnight; the model takes them as parameters and does not model that staleness.
- On the older goal screen, `savedGoals` is undefined, because its context never provides it. The effect at `levelUp/screens/GoalScreen.tsx:41-43` therefore sets `goals` to undefined, and the count at `levelUp/screens/GoalScreen.tsx:170` throws on the next render. The handlers are modelled on a given working list. What an uncaught error does to the running app is not modelled.
- Text.Lower: lower-cases ASCII letters only. `toLowerCase` and `lower` also fold other scripts.
- Backend.RateLimited: timestamps are reals. Python's float rounding is not modelled.
- TextBlob's polarity, subjectivity, noun phrases and tags are inputs (`Analysis`). The ±0.35 thresholds are compared on reals.
- The wording of the response templates is left out. `Filled` records the mood, style, random choice, name, greeting and topic a template is filled with.
- The journal summariser's `firstClause` and its white-space collapse are not modelled, because their results are never used.
- The `/health` route, CORS and Flask's request plumbing are not modelled.
- Progress.AddXp: requires a positive threshold or a total below it. At a level of -5 or lower the threshold is not positive, and `addXp` would loop forever.
- Backend.TimeGreeting: requires an hour from 0 to 23, which is the range `datetime.now().hour` returns.

=== FILE: backend.dfy ===
/** The Flask backend's pure parts (`backend/backend.py`): the per-IP sliding-window
    rate limiter, the sentiment band and emotion label, the greeting by hour, the
    keyword and topic choice, and the checks `/summarize` makes before it answers.
    TextBlob's sentiment, noun phrases and part-of-speech tags, the clock and the
    random template choice come in as parameters. */
module Backend {
  import opened Wrappers
  import opened Json
  import opened Seqs
  import opened Text

  // ---------------------------------------------------------------------
  // Rate limiting
  // ---------------------------------------------------------------------

  const WindowSec: real := 60.0
  const MaxPerWindow := 60

  /** `BUCKET`: the request times recorded per IP. */
  type Bucket = map<string, seq<real>>

  function TimesOf(b: Bucket, ip: string): seq<real> {
    if ip in b then b[ip] else []
  }

  /** The test of the list comprehension in `rate_limited`. */
  function Within(now: real): real -> bool {
    (t: real) => now - t < WindowSec
  }

  /** The times less than a window before `now`, in their order. */
  function Recent(now: real, ts: seq<real>): (r: seq<real>)
    ensures |r| <= |ts|
    ensures forall t :: t in r <==> t in ts && now - t < WindowSec
    decreases |ts|
  {
    if |ts| == 0 then []
    else
      var last := ts[|ts| - 1];
      assert forall t :: t in ts <==> t in ts[..|ts| - 1] || t == last;
      Recent(now, ts[..|ts| - 1]) + (if now - last < WindowSec then [last] else [])
  }

  /** `Recent` is the comprehension `[t for t in times if now - t < WINDOW_SEC]`: the
      recorded times within the window, in order, each as often as it was recorded. */
  lemma {:induction false} RecentIsFilter(now: real, ts: seq<real>)
    ensures Recent(now, ts) == Filter(Within(now), ts)
    decreases |ts|
  {
    if |ts| > 0 {
      var last := ts[|ts| - 1];
      RecentIsFilter(now, ts[..|ts| - 1]);
      assert ts == ts[..|ts| - 1] + [last];
      assert [last][1..] == [];
      FilterConcat(Within(now), ts[..|ts| - 1], [last]);
    }
  }

  /** `rate_limited(ip)` at time `now`: refused, with nothing recorded, when the window
      already holds 60 requests; otherwise accepted, and the IP's list becomes the
      times still in the window followed by `now`. Other IPs are untouched. */
  function RateLimited(b: Bucket, ip: string, now: real): (r: (bool, Bucket))
    ensures r.0 <==> |Recent(now, TimesOf(b, ip))| >= MaxPerWindow
    ensures r.0 ==> r.1 == b
    ensures !r.0 ==> ip in r.1 && r.1[ip] == Recent(now, TimesOf(b, ip)) + [now]
    ensures forall other :: other != ip ==> TimesOf(r.1, other) == TimesOf(b, other)
  {
    var times := Recent(now, TimesOf(b, ip));
    if |times| >= MaxPerWindow then (true, b) else (false, b[ip := times + [now]])
  }

  /** A run of requests from one IP at the times `nows`: the final bucket and the
      times of the requests that were let through. */
  function Serve(b: Bucket, ip: string, nows: seq<real>): (r: (Bucket, seq<real>))
    ensures |r.1| <= |nows|
    decreases |nows|
  {
    if |nows| == 0 then (b, [])
    else
      var step := RateLimited(b, ip, nows[0]);
      var rest := Serve(step.1, ip, nows[1..]);
      (rest.0, (if step.0 then [] else [nows[0]]) + rest.1)
  }

  /** How many of `ts` fall in the 60-second window that ends at `w`. */
  function Count(w: real, ts: seq<real>): nat
    decreases |ts|
  {
    if |ts| == 0 then 0
    else Count(w, ts[..|ts| - 1]) + (if w - WindowSec < ts[|ts| - 1] <= w then 1 else 0)
  }

  predicate Sorted(nows: seq<real>) {
    forall i, j :: 0 <= i < j < |nows| ==> nows[i] <= nows[j]
  }

  /** Filtering by a later window after an earlier one is filtering by the later one. */
  lemma {:induction false} RecentRecent(n: real, m: real, ts: seq<real>)
    requires n <= m
    ensures Recent(m, Recent(n, ts)) == Recent(m, ts)
    decreases |ts|
  {
    if |ts| > 0 {
      var front := ts[..|ts| - 1];
      var last := ts[|ts| - 1];
      RecentRecent(n, m, front);
      var tail := if n - last < WindowSec then [last] else [];
      RecentConcat(m, Recent(n, front), tail);
      if n - last < WindowSec {
        assert Recent(m, tail) == Recent(m, [] + [last]);
      }
    }
  }

  lemma RecentConcat(n: real, a: seq<real>, b: seq<real>)
    ensures Recent(n, a + b) == Recent(n, a) + Recent(n, b)
    decreases |b|
  {
    if |b| > 0 {
      assert (a + b)[..|a + b| - 1] == a + b[..|b| - 1];
      RecentConcat(n, a, b[..|b| - 1]);
    } else {
      assert a + b == a;
    }
  }

  /** When every time is at most `now` and `now <= w`, the window ending at `w` holds
      no more of them than the window ending at `now`. */
  lemma {:induction false} CountWithinRecent(w: real, now: real, ts: seq<real>)
    requires now <= w
    requires forall k :: 0 <= k < |ts| ==> ts[k] <= now
    ensures Count(w, ts) <= |Recent(now, ts)|
    decreases |ts|
  {
    if |ts| > 0 {
      CountWithinRecent(w, now, ts[..|ts| - 1]);
    }
  }

  lemma CountAppend(w: real, ts: seq<real>, t: real)
    ensures Count(w, ts + [t]) == Count(w, ts) + (if w - WindowSec < t <= w then 1 else 0)
  {
    assert (ts + [t])[..|ts|] == ts;
  }

  /** The stored list agrees with the accepted times on every window from `last` on. */
  ghost predicate Agrees(stored: seq<real>, accepted: seq<real>, last: real) {
    forall m :: m >= last ==> Recent(m, stored) == Recent(m, accepted)
  }

  /** One accepted request keeps the stored list in agreement with the accepted times. */
  lemma AcceptKeepsAgreement(stored: seq<real>, accepted: seq<real>, last: real, now: real)
    requires last <= now && Agrees(stored, accepted, last)
    ensures Agrees(Recent(now, stored) + [now], accepted + [now], now)
  {
    forall m | m >= now
      ensures Recent(m, Recent(now, stored) + [now]) == Recent(m, accepted + [now])
    {
      RecentConcat(m, Recent(now, stored), [now]);
      RecentConcat(m, accepted, [now]);
      RecentRecent(now, m, stored);
    }
  }

  /** One accepted request keeps every window within the limit, given that the
      window ending at `now` held fewer than 60 before it. */
  lemma AcceptStep(stored: seq<real>, accepted: seq<real>, last: real, now: real)
    requires last <= now && Agrees(stored, accepted, last)
    requires forall k :: 0 <= k < |accepted| ==> accepted[k] <= last
    requires forall w :: Count(w, accepted) <= MaxPerWindow
    requires |Recent(now, stored)| < MaxPerWindow
    ensures Agrees(Recent(now, stored) + [now], accepted + [now], now)
    ensures forall k :: 0 <= k < |accepted + [now]| ==> (accepted + [now])[k] <= now
    ensures forall w :: Count(w, accepted + [now]) <= MaxPerWindow
  {
    AcceptKeepsAgreement(stored, accepted, last, now);
    assert Recent(now, stored) == Recent(now, accepted);
    forall w
      ensures Count(w, accepted + [now]) <= MaxPerWindow
    {
      CountAppend(w, accepted, now);
      if w - WindowSec < now <= w {
        CountWithinRecent(w, now, accepted);
      }
    }
  }

  /** What the induction behind the window bound carries: requests still to come are in
      time order and not before `last`, the stored list agrees with the accepted times,
      and the accepted times, all at most `last`, keep every window within the limit. */
  ghost predicate ServeReady(b: Bucket, ip: string, nows: seq<real>, accepted: seq<real>, last: real) {
    && Sorted(nows) && (forall i :: 0 <= i < |nows| ==> last <= nows[i])
    && Agrees(TimesOf(b, ip), accepted, last)
    && (forall k :: 0 <= k < |accepted| ==> accepted[k] <= last)
    && (forall w :: Count(w, accepted) <= MaxPerWindow)
  }

  /** The induction behind the window bound: serving more requests keeps every
      60-second window at no more than 60 accepted requests. */
  lemma {:induction false} ServeKeepsBound(b: Bucket, ip: string, nows: seq<real>, accepted: seq<real>, last: real)
    requires ServeReady(b, ip, nows, accepted, last)
    ensures forall w :: Count(w, accepted + Serve(b, ip, nows).1) <= MaxPerWindow
    decreases |nows|, 1
  {
    if |nows| == 0 {
      assert accepted + Serve(b, ip, nows).1 == accepted;
    } else if RateLimited(b, ip, nows[0]).0 {
      ServeRefused(b, ip, nows, accepted, last);
    } else {
      ServeAccepted(b, ip, nows, accepted, last);
    }
  }

  lemma {:induction false} ServeRefused(b: Bucket, ip: string, nows: seq<real>, accepted: seq<real>, last: real)
    requires ServeReady(b, ip, nows, accepted, last)
    requires 0 < |nows| && RateLimited(b, ip, nows[0]).0
    ensures forall w :: Count(w, accepted + Serve(b, ip, nows).1) <= MaxPerWindow
    decreases |nows|, 0
  {
    var now := nows[0];
    SortedTail(nows);
    AgreesLater(TimesOf(b, ip), accepted, last, now);
    ServeKeepsBound(b, ip, nows[1..], accepted, now);
    assert Serve(b, ip, nows).1 == Serve(b, ip, nows[1..]).1;
  }

  lemma {:induction false} ServeAccepted(b: Bucket, ip: string, nows: seq<real>, accepted: seq<real>, last: real)
    requires ServeReady(b, ip, nows, accepted, last)
    requires 0 < |nows| && !RateLimited(b, ip, nows[0]).0
    ensures forall w :: Count(w, accepted + Serve(b, ip, nows).1) <= MaxPerWindow
    decreases |nows|, 0
  {
    var now := nows[0];
    var b' := RateLimited(b, ip, now).1;
    AcceptedReady(b, ip, nows, accepted, last);
    ServeKeepsBound(b', ip, nows[1..], accepted + [now], now);
    AcceptedServe(b, ip, nows, accepted);
  }

  lemma AcceptedReady(b: Bucket, ip: string, nows: seq<real>, accepted: seq<real>, last: real)
    requires ServeReady(b, ip, nows, accepted, last)
    requires 0 < |nows| && !RateLimited(b, ip, nows[0]).0
    ensures ServeReady(RateLimited(b, ip, nows[0]).1, ip, nows[1..], accepted + [nows[0]], nows[0])
  {
    var now := nows[0];
    SortedTail(nows);
    AcceptStep(TimesOf(b, ip), accepted, last, now);
    assert TimesOf(RateLimited(b, ip, now).1, ip) == Recent(now, TimesOf(b, ip)) + [now];
  }

  lemma AcceptedServe(b: Bucket, ip: string, nows: seq<real>, accepted: seq<real>)
    requires 0 < |nows| && !RateLimited(b, ip, nows[0]).0
    ensures accepted + Serve(b, ip, nows).1
         == (accepted + [nows[0]]) + Serve(RateLimited(b, ip, nows[0]).1, ip, nows[1..]).1
  {
    assert Serve(b, ip, nows).1 == [nows[0]] + Serve(RateLimited(b, ip, nows[0]).1, ip, nows[1..]).1;
  }

  lemma SortedTail(nows: seq<real>)
    requires Sorted(nows) && 0 < |nows|
    ensures Sorted(nows[1..]) && forall i :: 0 <= i < |nows[1..]| ==> nows[0] <= nows[1..][i]
  {
  }

  /** Agreement from `last` on implies agreement from any later time. */
  lemma AgreesLater(stored: seq<real>, accepted: seq<real>, last: real, now: real)
    requires last <= now && Agrees(stored, accepted, last)
    ensures Agrees(stored, accepted, now)
  {
  }

  /** From an IP with nothing recorded, requests arriving in time order get at most
      60 through in any 60-second window. */
  lemma AtMostSixtyPerWindow(b: Bucket, ip: string, nows: seq<real>, w: real)
    requires ip !in b && Sorted(nows)
    ensures Count(w, Serve(b, ip, nows).1) <= MaxPerWindow
  {
    if |nows| > 0 {
      ServeKeepsBound(b, ip, nows, [], nows[0]);
      assert [] + Serve(b, ip, nows).1 == Serve(b, ip, nows).1;
    }
  }

  /** `client_ip()`: the first address of `X-Forwarded-For`, stripped; without that
      header the peer address, and "unknown" without either. */
  function ClientIp(forwarded: string, remote: Option<string>): (ip: string)
    ensures forwarded != "" ==> ',' !in ip && ip == Strip(PySpace, FirstField(forwarded))
    ensures forwarded == "" && remote.Some? && remote.value != "" ==> ip == remote.value
    ensures forwarded == "" && (remote.None? || remote.value == "") ==> ip == "unknown"
  {
    if forwarded != "" then Strip(PySpace, FirstField(forwarded))
    else if remote.Some? && remote.value != "" then remote.value
    else "unknown"
  }

  /** A proxy's `X-Forwarded-For` list whose first entry is a bare address gives back
      that address, whatever follows it and whatever the peer address is. */
  lemma ClientIpOfForwardedList(first: string, rest: string, remote: Option<string>)
    requires first != "" && ',' !in first && Strip(PySpace, first) == first
    ensures ClientIp(first + "," + rest, remote) == first
  {
    FirstFieldOfJoin(first, rest);
  }

  /** Splitting a comma-joined text at its first comma gives back the first part. */
  lemma {:induction false} FirstFieldOfJoin(first: string, rest: string)
    requires ',' !in first
    ensures FirstField(first + "," + rest) == first
    decreases |first|
  {
    if |first| > 0 {
      assert first[0] in first;
      assert (first + "," + rest)[1..] == first[1..] + "," + rest;
      assert forall c :: c in first[1..] ==> c in first;
      FirstFieldOfJoin(first[1..], rest);
      assert first == [first[0]] + first[1..];
    }
  }

  /** `s.split(",")[0]`. */
  function FirstField(s: string): (r: string)
    ensures |r| <= |s|
    ensures ',' !in r
    ensures r == s[..|r|]
    ensures |r| < |s| ==> s[|r|] == ','
  {
    if |s| == 0 || s[0] == ',' then "" else [s[0]] + FirstField(s[1..])
  }

  // ---------------------------------------------------------------------
  // Sentiment and greeting
  // ---------------------------------------------------------------------

  /** `band(p)`: strictly above 0.35 is positive, strictly below -0.35 negative. */
  function Band(p: real): (mood: string)
    ensures mood == "positive" <==> p > 0.35
    ensures mood == "negative" <==> p < -0.35
    ensures mood == "neutral" <==> -0.35 <= p <= 0.35
  {
    if p > 0.35 then "positive" else if p < -0.35 then "negative" else "neutral"
  }

  /** `friendly_emotion_label(p)`, with the same two thresholds. */
  function EmotionLabel(p: real): (l: string)
    ensures l == "Motivated" <==> p > 0.35
    ensures l == "Stressed" <==> p < -0.35
    ensures l == "Neutral" <==> -0.35 <= p <= 0.35
  {
    if p > 0.35 then "Motivated" else if p < -0.35 then "Stressed" else "Neutral"
  }

  function LabelOfBand(mood: string): string {
    if mood == "positive" then "Motivated" else if mood == "negative" then "Stressed" else "Neutral"
  }

  /** The label the app shows always names the mood the summary was written in. */
  lemma BandAndLabelAgree(p: real)
    ensures EmotionLabel(p) == LabelOfBand(Band(p))
  {
  }

  /** `time_greeting()` for the hour of the server's clock. */
  function TimeGreeting(hour: int): (g: string)
    requires 0 <= hour < 24
    ensures g == "Morning" <==> 5 <= hour <= 11
    ensures g == "Afternoon" <==> 12 <= hour <= 17
    ensures g == "Evening" <==> hour <= 4 || hour >= 18
  {
    if 5 <= hour < 12 then "Morning" else if 12 <= hour < 18 then "Afternoon" else "Evening"
  }

  /** Over a day the greeting changes exactly three times, at 5, 12 and 18 o'clock,
      and it is the same on both sides of midnight. */
  lemma GreetingChangesAt(hour: int)
    requires 0 < hour < 24
    ensures TimeGreeting(hour) != TimeGreeting(hour - 1) <==> hour == 5 || hour == 12 || hour == 18
    ensures TimeGreeting(23) == TimeGreeting(0)
  {
  }

  // ---------------------------------------------------------------------
  // Keywords and topic
  // ---------------------------------------------------------------------

  /** A word and its part-of-speech tag, as TextBlob gives them. */
  datatype Tag = Tag(word: string, pos: string)

  function StartsWith(s: string, p: string): bool {
    |p| <= |s| && s[..|p|] == p
  }

  /** A tag of the noun family (`NN`, `NNS`, `NNP`, ...). */
  predicate NounTag(t: Tag) {
    StartsWith(t.pos, "NN")
  }

  function LowerWord(t: Tag): string {
    Lower(t.word)
  }

  /** The lower-cased words tagged as nouns, in the order of the text: the
      comprehension `[w.lower() for (w, pos) in tags if pos.startswith("NN")]`. */
  function Nouns(tags: seq<Tag>): (r: seq<string>)
    ensures |r| <= |tags|
    ensures forall w :: w in r ==> exists k :: 0 <= k < |tags| && NounTag(tags[k]) && w == Lower(tags[k].word)
    decreases |tags|
  {
    if |tags| == 0 then []
    else (if NounTag(tags[0]) then [Lower(tags[0].word)] else []) + Nouns(tags[1..])
  }

  /** The nouns are the noun-tagged words, lower-cased, each in its place in the text;
      so every noun-tagged word is among them. */
  lemma NounsInOrder(tags: seq<Tag>)
    ensures Nouns(tags) == Map(LowerWord, Filter(NounTag, tags))
    ensures forall k :: 0 <= k < |tags| && NounTag(tags[k]) ==> Lower(tags[k].word) in Nouns(tags)
  {
    NounsAreMappedFilter(tags);
    MapFilterKeeps(LowerWord, NounTag, tags);
  }

  lemma {:induction false} NounsAreMappedFilter(tags: seq<Tag>)
    ensures Nouns(tags) == Map(LowerWord, Filter(NounTag, tags))
    decreases |tags|
  {
    if |tags| > 0 {
      NounsAreMappedFilter(tags[1..]);
      var head := if NounTag(tags[0]) then [tags[0]] else [];
      assert [tags[0]][1..] == [];
      MapConcat(LowerWord, head, Filter(NounTag, tags[1..]));
    }
  }

  predicate KeptChar(c: char) {
    ('a' <= c <= 'z') || ('0' <= c <= '9') || c == '-' || c == ' '
  }

  /** `re.sub(r"[^a-z0-9\- ]", "", w)`. */
  function Scrub(w: string): (r: string)
    ensures |r| <= |w|
    ensures forall k :: 0 <= k < |r| ==> KeptChar(r[k])
    decreases |w|
  {
    if |w| == 0 then "" else (if KeptChar(w[0]) then [w[0]] else []) + Scrub(w[1..])
  }

  /** Scrubbing keeps exactly the allowed characters, in order; so a word of allowed
      characters only comes back unchanged. */
  lemma ScrubIsFilter(w: string)
    ensures Scrub(w) == Filter(KeptChar, w)
    ensures (forall k :: 0 <= k < |w| ==> KeptChar(w[k])) ==> Scrub(w) == w
  {
    ScrubFilters(w);
    if forall k :: 0 <= k < |w| ==> KeptChar(w[k]) {
      FilterKeepsAll(KeptChar, w);
    }
  }

  lemma {:induction false} ScrubFilters(w: string)
    ensures Scrub(w) == Filter(KeptChar, w)
    decreases |w|
  {
    if |w| > 0 {
      ScrubFilters(w[1..]);
    }
  }

  /** A noun long enough to be a keyword; the length is taken before scrubbing. */
  predicate LongWord(w: string) {
    |w| >= 2
  }

  /** The scrubbed nouns of at least two characters, in order. */
  function KeywordNouns(nouns: seq<string>): seq<string>
    decreases |nouns|
  {
    if |nouns| == 0 then []
    else (if LongWord(nouns[0]) then [Scrub(nouns[0])] else []) + KeywordNouns(nouns[1..])
  }

  /** The keyword nouns are the long nouns, scrubbed, in order. */
  lemma {:induction false} KeywordNounsInOrder(nouns: seq<string>)
    ensures KeywordNouns(nouns) == Map(Scrub, Filter(LongWord, nouns))
    decreases |nouns|
  {
    if |nouns| > 0 {
      KeywordNounsInOrder(nouns[1..]);
      var head := if LongWord(nouns[0]) then [nouns[0]] else [];
      assert [nouns[0]][1..] == [];
      MapConcat(Scrub, head, Filter(LongWord, nouns[1..]));
    }
  }

  /** No noun of two or more characters means no keyword from the nouns. */
  lemma {:induction false} KeywordNounsEmpty(nouns: seq<string>)
    ensures KeywordNouns(nouns) == [] <==> forall k :: 0 <= k < |nouns| ==> |nouns[k]| < 2
    decreases |nouns|
  {
    if |nouns| > 0 {
      KeywordNounsEmpty(nouns[1..]);
      assert forall k :: 1 <= k < |nouns| ==> nouns[k] == nouns[1..][k - 1];
    }
  }

  /** The loop at the end of `top_keywords`: each word not seen before is added, and
      the loop stops once `n` words are in. The check follows the append, so a
      non-positive `n` still lets the first word in. */
  method CollectDistinct(words: seq<string>, n: int) returns (out: seq<string>)
    ensures NoDuplicates(out)
    ensures forall w :: w in out ==> w in words
    ensures |out| <= if n >= 1 then n else 1
    ensures out == Take(Dedupe(words), if n >= 1 then n else 1)
  {
    var cap := if n >= 1 then n else 1;
    out := [];
    var i := 0;
    while i < |words|
      invariant 0 <= i <= |words|
      invariant out == Dedupe(words[..i])
      invariant |out| < cap || i == |words|
      invariant |out| <= cap
    {
      assert words[..i + 1][..i] == words[..i];
      if words[i] !in out {
        out := out + [words[i]];
      }
      i := i + 1;
      if |out| >= n {
        break;
      }
    }
    if i < |words| || |out| >= cap {
      DedupePrefix(words, i);
      assert words[..|words|] == words;
    } else {
      assert words[..i] == words;
    }
  }

  /** What `top_keywords(text, n)` returns: the first `n` lower-cased noun phrases of
      2 to 40 characters when there are any, and otherwise the first distinct
      scrubbed nouns. */
  function TopKeywords(phrases: seq<string>, tags: seq<Tag>, n: int): (r: seq<string>)
    ensures |LongEnough(phrases)| > 0 ==> |r| <= |LongEnough(phrases)| && r == LongEnough(phrases)[..|r|]
    ensures |LongEnough(phrases)| > 0 && n >= 0 ==>
              |r| == if n < |LongEnough(phrases)| then n else |LongEnough(phrases)|
    ensures LongEnough(phrases) == [] ==> NoDuplicates(r)
    ensures LongEnough(phrases) == [] ==> |r| <= if n >= 1 then n else 1
    ensures LongEnough(phrases) == [] ==> forall w :: w in r ==> w in KeywordNouns(Nouns(tags))
    ensures LongEnough(phrases) == [] ==> r == Take(Dedupe(KeywordNouns(Nouns(tags))), if n >= 1 then n else 1)
  {
    var ps := LongEnough(phrases);
    if |ps| > 0 then SliceFront(ps, n)
    else Take(Dedupe(KeywordNouns(Nouns(tags))), if n >= 1 then n else 1)
  }

  /** The noun phrases of 2 to 40 characters, lower-cased; the length is taken before
      lower-casing. */
  function LongEnough(phrases: seq<string>): (r: seq<string>)
    ensures |r| == 0 <==> forall k :: 0 <= k < |phrases| ==> !Fits(phrases[k])
    decreases |phrases|
  {
    if |phrases| == 0 then []
    else (if Fits(phrases[0]) then [Lower(phrases[0])] else []) + LongEnough(phrases[1..])
  }

  /** The phrases kept are those of 2 to 40 characters, lower-cased, in order; so
      every such phrase is among them. */
  lemma LongEnoughInOrder(phrases: seq<string>)
    ensures LongEnough(phrases) == Map(Lower, Filter(Fits, phrases))
    ensures forall k :: 0 <= k < |phrases| && Fits(phrases[k]) ==> Lower(phrases[k]) in LongEnough(phrases)
  {
    LongEnoughMapsFilter(phrases);
    MapFilterKeeps(Lower, Fits, phrases);
  }

  lemma {:induction false} LongEnoughMapsFilter(phrases: seq<string>)
    ensures LongEnough(phrases) == Map(Lower, Filter(Fits, phrases))
    decreases |phrases|
  {
    if |phrases| > 0 {
      LongEnoughMapsFilter(phrases[1..]);
      var head := if Fits(phrases[0]) then [phrases[0]] else [];
      assert [phrases[0]][1..] == [];
      MapConcat(Lower, head, Filter(Fits, phrases[1..]));
    }
  }

  /** A noun phrase of 2 to 40 characters. */
  predicate Fits(p: string) {
    2 <= |p| <= 40
  }

  /** `choose_topic(keywords, reflection)`. */
  function ChooseTopic(keywords: seq<string>, tags: seq<Tag>): (topic: string)
    ensures |keywords| > 0 ==> topic == keywords[0]
    ensures |keywords| == 0 ==> topic == "this" || topic in Nouns(tags)
    ensures |keywords| == 0 ==> topic == if |Nouns(tags)| > 0 then Nouns(tags)[0] else "this"
  {
    if |keywords| > 0 then keywords[0]
    else
      var nouns := Nouns(tags);
      if |nouns| > 0 then nouns[0] else "this"
  }

  /** The topic is the first keyword when there is one. When nothing was found, every
      noun is shorter than two characters, and the topic is the first noun, or "this"
      when there is none. */
  lemma TopicOfKeywords(phrases: seq<string>, tags: seq<Tag>)
    ensures var k := TopKeywords(phrases, tags, 5);
            var topic := ChooseTopic(k, tags);
            && (|k| > 0 ==> topic == k[0])
            && (|k| == 0 ==> topic == "this" || (topic in Nouns(tags) && |topic| < 2))
            && (|k| == 0 ==> (forall w :: w in Nouns(tags) ==> |w| < 2))
            && (|k| == 0 ==> topic == if |Nouns(tags)| > 0 then Nouns(tags)[0] else "this")
  {
    var k := TopKeywords(phrases, tags, 5);
    if |k| == 0 {
      var nouns := KeywordNouns(Nouns(tags));
      assert LongEnough(phrases) == [];
      assert Dedupe(nouns) == [];
      assert forall x :: x !in nouns;
      KeywordNounsEmpty(Nouns(tags));
    }
  }

  // ---------------------------------------------------------------------
  // /summarize
  // ---------------------------------------------------------------------

  const Styles := ["coach", "friend", "zen"]

  /** Every mood has the same three styles, so an unknown one becomes "coach". */
  function StyleFor(style: string): (s: string)
    ensures s in Styles
    ensures style in Styles ==> s == style
  {
    if style in Styles then style else "coach"
  }

  /** Python's truth value of a JSON value. */
  predicate PyTruthy(j: Json) {
    match j
    case JNull => false
    case JBool(b) => b
    case JInt(i) => i != 0
    case JStr(s) => s != ""
    case JArr(items) => items != []
    case JObj(ms) => ms != []
  }

  /** `(data.get(key) or default)`, which must be text for `.strip()`; anything else
      raises. */
  function FieldText(ms: seq<Member>, key: string, default: string): (r: Option<string>)
    ensures Lookup(ms, key).None? ==> r == Some(default)
    ensures Lookup(ms, key).Some? && !PyTruthy(Lookup(ms, key).value) ==> r == Some(default)
    ensures r.None? <==> Lookup(ms, key).Some? && PyTruthy(Lookup(ms, key).value) && !Lookup(ms, key).value.JStr?
    ensures Lookup(ms, key).Some? && Lookup(ms, key).value.JStr? && Lookup(ms, key).value.s != "" ==>
              r == Some(Lookup(ms, key).value.s)
  {
    match Lookup(ms, key)
    case None => Some(default)
    case Some(v) => if !PyTruthy(v) then Some(default) else if v.JStr? then Some(v.s) else None
  }

  /** What TextBlob makes of the reflection. */
  datatype Analysis = Analysis(polarity: real, subjectivity: real, phrases: seq<string>, tags: seq<Tag>)

  /** A template, picked by mood, style and the random choice among its four, with
      the name, greeting and topic it is filled with. */
  datatype Filled = Filled(mood: string, style: string, choice: nat, name: string, greeting: string, topic: string)

  datatype Response =
    | TooManyRequests
    | ServerError
    | EmptyReflection
    | TooLong
    | Summary(summary: Filled, emotion: string, polarity: real, subjectivity: real, keywords: seq<string>)

  function Status(r: Response): int {
    match r
    case TooManyRequests => 429
    case ServerError => 500
    case EmptyReflection => 400
    case TooLong => 413
    case Summary(_, _, _, _, _) => 200
  }

  /** The request's three text fields, stripped and with the name cut to 24
      characters, or `None` when reading them raises. */
  datatype Fields = Fields(reflection: string, name: string, style: string)

  /** A field `.strip()` cannot be called on: present, truthy and not text. */
  predicate Raises(ms: seq<Member>, key: string) {
    Lookup(ms, key).Some? && PyTruthy(Lookup(ms, key).value) && !Lookup(ms, key).value.JStr?
  }

  /** `data = request.get_json(silent=True) or {}` and the three fields. A missing,
      unparsable or falsy body reads as `{}`; a truthy body that is not an object has
      no `.get`, and a truthy field that is not text has no `.strip()`, so both
      raise. The reflection and the style come back stripped. */
  function ReadFields(body: Option<Json>): (r: Option<Fields>)
    ensures body.None? || !PyTruthy(body.value) ==> r == Some(Fields("", "", "coach"))
    ensures body.Some? && PyTruthy(body.value) && !body.value.JObj? ==> r.None?
    ensures body.Some? && body.value.JObj? ==>
              (r.None? <==> Raises(body.value.members, "reflection") || Raises(body.value.members, "name")
                            || Raises(body.value.members, "style"))
    ensures r.Some? ==> Strip(PySpace, r.value.reflection) == r.value.reflection
    ensures r.Some? ==> Strip(PySpace, r.value.style) == r.value.style
    ensures r.Some? ==> |r.value.name| <= 24
  {
    if body.None? || !PyTruthy(body.value) then
      CoachIsStripped();
      Some(Fields("", "", "coach"))
    else if !body.value.JObj? then None
    else
      var ms := body.value.members;
      var reflection := FieldText(ms, "reflection", "");
      var name := FieldText(ms, "name", "");
      var style := FieldText(ms, "style", "coach");
      if reflection.Some? && name.Some? && style.Some? then Some(Clean(reflection.value, name.value, style.value))
      else None
  }

  /** The reflection and style stripped, and the name stripped and cut to 24
      characters. */
  function Clean(reflection: string, name: string, style: string): (f: Fields)
    ensures Strip(PySpace, f.reflection) == f.reflection
    ensures Strip(PySpace, f.style) == f.style
    ensures |f.name| <= 24 && |f.name| <= |Strip(PySpace, name)| && f.name == Strip(PySpace, name)[..|f.name|]
  {
    StripIdempotent(PySpace, reflection);
    StripIdempotent(PySpace, style);
    Fields(Strip(PySpace, reflection), Take(Strip(PySpace, name), 24), Strip(PySpace, style))
  }

  lemma CoachIsStripped()
    ensures Strip(PySpace, "coach") == "coach"
  {
    assert Leading(PySpace, "coach") == 0;
    assert Trailing(PySpace, "coach") == 0;
  }

  /** The body of a request with the three fields as text. */
  function RequestBody(reflection: string, name: string, style: string): Json {
    JObj([Member("reflection", JStr(reflection)), Member("name", JStr(name)), Member("style", JStr(style))])
  }

  /** Fields sent as text are read stripped, the name cut to 24 characters, and an
      empty style replaced by "coach". */
  lemma ReadFieldsOfText(reflection: string, name: string, style: string)
    ensures ReadFields(Some(RequestBody(reflection, name, style)))
            == Some(Fields(Strip(PySpace, reflection), Take(Strip(PySpace, name), 24),
                           Strip(PySpace, if style == "" then "coach" else style)))
  {
    var body := RequestBody(reflection, name, style);
    var ms := body.members;
    LookupThree(ms[0], ms[1], ms[2]);
    assert ms == [ms[0], ms[1], ms[2]];
    assert FieldText(ms, "reflection", "") == Some(reflection);
    assert FieldText(ms, "name", "") == Some(name);
    assert FieldText(ms, "style", "coach") == Some(if style == "" then "coach" else style);
    assert PyTruthy(body) && body.JObj?;
  }

  /** In an object with three distinct keys, each key finds its own value. */
  lemma LookupThree(a: Member, b: Member, c: Member)
    requires a.key != b.key && a.key != c.key && b.key != c.key
    ensures Lookup([a, b, c], a.key) == Some(a.value)
    ensures Lookup([a, b, c], b.key) == Some(b.value)
    ensures Lookup([a, b, c], c.key) == Some(c.value)
  {
    assert [a, b, c][..2] == [a, b];
    assert [a, b][..1] == [a];
    assert Lookup([a], a.key) == Some(a.value);
    assert Lookup([a, b], a.key) == Lookup([a], a.key);
    assert Lookup([a, b], b.key) == Some(b.value);
  }

  /** Fields that are already stripped, with a name of at most 24 characters and a
      style, are read back exactly as they were sent. */
  lemma ReadFieldsRoundTrip(f: Fields)
    requires Strip(PySpace, f.reflection) == f.reflection && Strip(PySpace, f.name) == f.name
    requires Strip(PySpace, f.style) == f.style && f.style != "" && |f.name| <= 24
    ensures ReadFields(Some(RequestBody(f.reflection, f.name, f.style))) == Some(f)
  {
    ReadFieldsOfText(f.reflection, f.name, f.style);
  }

  /** The app sends the reflection alone (`utils/summarizeWithFlask.tsx`), which is read
      stripped, with no name and the "coach" style. */
  lemma AppRequestFields(reflection: string)
    ensures ReadFields(Some(JObj([Member("reflection", JStr(reflection))])))
            == Some(Fields(Strip(PySpace, reflection), "", "coach"))
  {
    var body := JObj([Member("reflection", JStr(reflection))]);
    var ms := body.members;
    assert Lookup(ms, "reflection") == Some(JStr(reflection));
    assert Lookup(ms, "name").None? && Lookup(ms, "style").None?;
    assert FieldText(ms, "reflection", "") == Some(reflection);
    assert FieldText(ms, "name", "") == Some("");
    assert FieldText(ms, "style", "coach") == Some("coach");
    assert PyTruthy(body);
    CoachIsStripped();
    assert Strip(PySpace, "") == "";
  }

  /** What `/summarize` answers a request the limit let through: a body that cannot
      be read raises, then an empty reflection, then one over 1000 characters, and
      only then the summary. */
  function Respond(body: Option<Json>, a: Analysis, hour: int, choice: nat): (r: Response)
    requires 0 <= hour < 24 && choice < 4
    ensures r != TooManyRequests
    ensures ReadFields(body).None? ==> r == ServerError
    ensures r.Summary? ==> (ReadFields(body).Some? &&
              var f := ReadFields(body).value;
              f.reflection != "" && |f.reflection| <= 1000)
    ensures ReadFields(body).Some? ==>
              var f := ReadFields(body).value;
              && (f.reflection == "" ==> r == EmptyReflection)
              && (f.reflection != "" && |f.reflection| > 1000 ==> r == TooLong)
              && (f.reflection != "" && |f.reflection| <= 1000 ==>
                    && r.Summary?
                    && r.summary.mood == Band(a.polarity)
                    && r.summary.style == StyleFor(f.style)
                    && r.summary.name == (if f.name == "" then "friend" else f.name)
                    && r.summary.greeting == TimeGreeting(hour)
                    && r.summary.topic == ChooseTopic(r.keywords, a.tags)
                    && r.keywords == TopKeywords(a.phrases, a.tags, 5)
                    && r.emotion == EmotionLabel(a.polarity)
                    && r.polarity == a.polarity && r.subjectivity == a.subjectivity)
  {
    match ReadFields(body)
    case None => ServerError
    case Some(f) =>
      if f.reflection == "" then EmptyReflection
      else if |f.reflection| > 1000 then TooLong
      else
        var keywords := TopKeywords(a.phrases, a.tags, 5);
        var filled := Filled(Band(a.polarity), StyleFor(f.style), choice,
                             if f.name == "" then "friend" else f.name,
                             TimeGreeting(hour), ChooseTopic(keywords, a.tags));
        Summary(filled, EmotionLabel(a.polarity), a.polarity, a.subjectivity, keywords)
  }

  /** `/summarize`: the rate limit first, then the request itself. */
  function Summarize(b: Bucket, ip: string, now: real, body: Option<Json>, a: Analysis,
                     hour: int, choice: nat): (r: (Response, Bucket))
    requires 0 <= hour < 24 && choice < 4
    ensures r.1 == RateLimited(b, ip, now).1
    ensures Status(r.0) == 429 <==> RateLimited(b, ip, now).0
  {
    var limit := RateLimited(b, ip, now);
    if limit.0 then (TooManyRequests, limit.1) else (Respond(body, a, hour, choice), limit.1)
  }

  /** A refused request is refused whatever it carries, and records nothing. */
  lemma LimitedBeforeBody(b: Bucket, ip: string, now: real, body1: Option<Json>, body2: Option<Json>,
                          a: Analysis, hour: int, choice: nat)
    requires 0 <= hour < 24 && choice < 4 && RateLimited(b, ip, now).0
    ensures Summarize(b, ip, now, body1, a, hour, choice) == Summarize(b, ip, now, body2, a, hour, choice)
    ensures Summarize(b, ip, now, body1, a, hour, choice).1 == b
  {
  }

  /** Every request the limit lets through is recorded, even one answered with 400,
      413 or 500. */
  lemma InvalidRequestsCount(b: Bucket, ip: string, now: real, body: Option<Json>, a: Analysis, hour: int, choice: nat)
    requires 0 <= hour < 24 && choice < 4
    requires Status(Summarize(b, ip, now, body, a, hour, choice).0) != 429
    ensures var after := Summarize(b, ip, now, body, a, hour, choice).1;
            ip in after && after[ip] == Recent(now, TimesOf(b, ip)) + [now]
  {
  }

  /** The checks in order: a reflection of white space is reported empty however long
      it is, and a non-blank one over 1000 characters is reported too long. */
  lemma ValidationOrder(b: Bucket, ip: string, now: real, body: Option<Json>, a: Analysis, hour: int, choice: nat)
    requires 0 <= hour < 24 && choice < 4 && !RateLimited(b, ip, now).0
    requires ReadFields(body).Some?
    ensures var f := ReadFields(body).value;
            var status := Status(Summarize(b, ip, now, body, a, hour, choice).0);
            && (f.reflection == "" <==> status == 400)
            && (f.reflection != "" && |f.reflection| > 1000 <==> status == 413)
            && (f.reflection != "" && |f.reflection| <= 1000 <==> status == 200)
  {
  }

  /** An accepted summary addresses a non-empty name of at most 24 characters, uses one
      of the three styles, and its emotion names the mood its template was taken from. */
  lemma SummaryShape(b: Bucket, ip: string, now: real, body: Option<Json>, a: Analysis, hour: int, choice: nat)
    requires 0 <= hour < 24 && choice < 4
    requires Summarize(b, ip, now, body, a, hour, choice).0.Summary?
    ensures var r := Summarize(b, ip, now, body, a, hour, choice).0;
            && r.summary.name != "" && |r.summary.name| <= 24
            && r.summary.style in Styles
            && r.emotion == LabelOfBand(r.summary.mood)
  {
    BandAndLabelAgree(a.polarity);
  }
}

=== FILE: calendar.dfy ===
/** The calendar screen (`screens/Calendar.tsx`): dots merged into per-date marks,
    goal titles gathered per date without repeats, the normalisation that turns
    whatever the context holds into titles, and the two effects that add the
    action dot and sync the planned goals, writing to the store only what changed.
    The screen's two stored objects are kept as values: their JSON text is not
    modelled. */
module Calendar {
  import opened Wrappers
  import opened Json
  import opened Seqs
  import opened Dates
  import opened Goals

  datatype Dot = Dot(key: string, color: string)

  /** A date's marking: `marked` (absent reads as false) and its dots (absent reads
      as none). */
  datatype Entry = Entry(marked: bool, dots: seq<Dot>)

  type Marks = map<string, Entry>

  type GoalsByDate = map<string, seq<string>>

  const ActionDot := Dot("action", "transparent")
  const PlannedDot := Dot("planned", "#2563EB")

  // ---------------------------------------------------------------------
  // Local date keys
  // ---------------------------------------------------------------------

  /** `today` and `tmw`: the local calendar date and the one after it, written by
      `localYMD` (year as is, month as `getMonth() + 1`, both two-digit padded). */
  function Keys(c: Clock): (string, string)
    requires ValidClock(c)
  {
    (LocalYmd(c.local), LocalYmd(AddDays(c.local, 1)))
  }

  /** For four-digit years the two keys are distinct `YYYY-MM-DD` texts. */
  lemma KeysDiffer(c: Clock)
    requires ValidClock(c) && 1000 <= c.local.year && AddDays(c.local, 1).year <= 9999
    ensures Keys(c).0 != Keys(c).1
    ensures Keys(c).0 == IsoDate(c.local) && |Keys(c).0| == 10
  {
    var t := AddDays(c.local, 1);
    assert t == Next(c.local);
    LocalYmdMatchesIso(c.local);
    LocalYmdMatchesIso(t);
    IsoDateLength(c.local);
    if LocalYmd(c.local) == LocalYmd(t) {
      IsoDateInjective(c.local, t);
    }
  }

  // ---------------------------------------------------------------------
  // Dots
  // ---------------------------------------------------------------------

  function DotsOf(base: Marks, date: string): seq<Dot> {
    if date in base then base[date].dots else []
  }

  predicate HasKey(dots: seq<Dot>, key: string) {
    exists i :: 0 <= i < |dots| && dots[i].key == key
  }

  predicate DistinctKeys(dots: seq<Dot>) {
    forall i, j :: 0 <= i < j < |dots| ==> dots[i].key != dots[j].key
  }

  /** `mergeDot(base, date, dot)`: the date becomes marked; the dot is appended unless
      a dot with its key is there already, in which case the dots (colours
      included) stay as they were; every other date is untouched. */
  function MergeDot(base: Marks, date: string, dot: Dot): (r: Marks)
    ensures date in r && r[date].marked
    ensures HasKey(DotsOf(base, date), dot.key) ==> r[date].dots == DotsOf(base, date)
    ensures !HasKey(DotsOf(base, date), dot.key) ==> r[date].dots == DotsOf(base, date) + [dot]
    ensures forall d :: d != date ==> (d in r <==> d in base) && (d in base ==> r[d] == base[d])
  {
    var prev := DotsOf(base, date);
    base[date := Entry(true, if HasKey(prev, dot.key) then prev else prev + [dot])]
  }

  /** Merging the same dot twice is merging it once. */
  lemma MergeDotIdempotent(base: Marks, date: string, dot: Dot)
    ensures MergeDot(MergeDot(base, date, dot), date, dot) == MergeDot(base, date, dot)
  {
    var once := MergeDot(base, date, dot);
    assert HasKey(once[date].dots, dot.key) by {
      if !HasKey(DotsOf(base, date), dot.key) {
        assert once[date].dots[|once[date].dots| - 1] == dot;
      }
    }
  }

  /** A merge never gives a date two dots with the same key. */
  lemma MergeDotKeepsKeysDistinct(base: Marks, date: string, dot: Dot)
    requires DistinctKeys(DotsOf(base, date))
    ensures DistinctKeys(MergeDot(base, date, dot)[date].dots)
  {
  }

  /** A merge changes nothing exactly when the date is already marked and already
      has a dot with that key. */
  lemma MergeDotUnchangedIff(base: Marks, date: string, dot: Dot)
    ensures MergeDot(base, date, dot) == base <==>
            date in base && base[date].marked && HasKey(base[date].dots, dot.key)
  {
  }

  // ---------------------------------------------------------------------
  // Titles
  // ---------------------------------------------------------------------

  /** `!items`: null, false, 0 and the empty string. */
  predicate Falsy(j: Json) {
    j == JNull || j == JBool(false) || j == JInt(0) || j == JStr("")
  }

  /** A found `title` or `name` as text: strings as they are, other values as their
      JSON text. */
  function Text(v: Json): string {
    if v.JStr? then v.s else Serialize(v)
  }

  /** One element: a string is itself; otherwise `title`, else `name`, else the JSON
      text of the whole element. A null field counts as missing. */
  function ItemText(x: Json): string {
    match x
    case JStr(s) => s
    case JObj(ms) =>
      (match (Lookup(ms, "title"), Lookup(ms, "name"))
       case (Some(t), _) => if t != JNull then Text(t) else NameOr(x, Lookup(ms, "name"))
       case (None, n) => NameOr(x, n))
    case _ => Serialize(x)
  }

  function NameOr(x: Json, n: Option<Json>): string {
    match n
    case Some(v) => if v != JNull then Text(v) else Serialize(x)
    case None => Serialize(x)
  }

  /** `normalizeToStrings(items)`: a falsy value gives no titles; an array gives one
      title per element; any other value goes through `Object.values`, which gives
      one title per member of an object, one per character of a string, and none
      for `true` or a non-zero number. */
  function Normalize(items: Json): (r: seq<string>)
    ensures Falsy(items) ==> r == []
    ensures items.JArr? ==> (|r| == |items.items| &&
              forall i :: 0 <= i < |r| && items.items[i].JStr? ==> r[i] == items.items[i].s)
    ensures items.JObj? ==> |r| == |items.members|
    ensures items.JStr? && items.s != "" ==>
              |r| == |items.s| && forall i :: 0 <= i < |r| ==> r[i] == [items.s[i]]
  {
    if Falsy(items) then []
    else
      match items
      case JArr(xs) => ItemTexts(xs)
      case JObj(ms) => MemberTexts(ms)
      case JStr(s) => Characters(s)
      case _ => []
  }

  function ItemTexts(xs: seq<Json>): (r: seq<string>)
    ensures |r| == |xs| && forall i :: 0 <= i < |xs| ==> r[i] == ItemText(xs[i])
  {
    seq(|xs|, i requires 0 <= i < |xs| => ItemText(xs[i]))
  }

  function MemberTexts(ms: seq<Member>): (r: seq<string>)
    ensures |r| == |ms| && forall i :: 0 <= i < |ms| ==> r[i] == ItemText(ms[i].value)
  {
    seq(|ms|, i requires 0 <= i < |ms| => ItemText(ms[i].value))
  }

  /** `Object.values` of a string: its characters, each as a one-character string. */
  function Characters(s: string): (r: seq<string>)
    ensures |r| == |s| && forall i :: 0 <= i < |s| ==> r[i] == [s[i]]
  {
    seq(|s|, i requires 0 <= i < |s| => [s[i]])
  }

  function Titles(gs: seq<Goal>): (r: seq<string>)
    ensures |r| == |gs|
  {
    seq(|gs|, i requires 0 <= i < |gs| => gs[i].title)
  }

  /** A goal list, as the context holds it, normalises to its titles in order. */
  lemma NormalizeGoalTitles(gs: seq<Goal>)
    ensures Normalize(ListToJson(gs)) == Titles(gs)
  {
    var xs := ListToJson(gs).items;
    assert Normalize(ListToJson(gs)) == ItemTexts(xs);
    forall i | 0 <= i < |gs|
      ensures ItemText(xs[i]) == gs[i].title
    {
      GoalItemText(gs[i]);
    }
  }

  /** A goal's object has a string `title`, which is its text. */
  lemma GoalItemText(g: Goal)
    ensures ItemText(ToJson(g)) == g.title
  {
    ToJsonFirstFields(g);
    assert Lookup(ToJson(g).members, "title") == Some(JStr(g.title));
  }

  /** `Array.from(new Set([...existing, ...added]))`. */
  function Union(existing: seq<string>, added: seq<string>): (r: seq<string>)
    ensures NoDuplicates(r)
    ensures forall x :: x in r <==> x in existing || x in added
  {
    Dedupe(existing + added)
  }

  /** A duplicate-free list keeps its order at the front of the union. */
  lemma UnionKeepsExisting(existing: seq<string>, added: seq<string>)
    requires NoDuplicates(existing)
    ensures |existing| <= |Union(existing, added)|
    ensures Union(existing, added)[..|existing|] == existing
  {
    DedupeKeepsBase(existing, added);
  }

  // ---------------------------------------------------------------------
  // Screen effects
  // ---------------------------------------------------------------------

  /** The values last written under `markedDates` and `goalsByDate`. */
  datatype Stored = Stored(markedDates: Option<Marks>, goalsByDate: Option<GoalsByDate>)

  datatype Screen = Screen(loaded: bool, marked: Marks, goalsByDate: GoalsByDate, stored: Stored)

  /** The load effect: whatever was stored is taken, and the screen counts as loaded. */
  function Load(stored: Stored): (r: Screen)
    ensures r.loaded && r.stored == stored
    ensures r.marked == stored.markedDates.GetOr(map[])
    ensures r.goalsByDate == stored.goalsByDate.GetOr(map[])
  {
    Screen(true, stored.markedDates.GetOr(map[]), stored.goalsByDate.GetOr(map[]), stored)
  }

  /** Writes a new marking, and only a new one, back to the store. */
  function PersistMarks(s: Screen, next: Marks): Screen {
    if next != s.marked then s.(marked := next, stored := s.stored.(markedDates := Some(next))) else s
  }

  /** The action effect: once loaded and while `action` holds, today gets the action
      dot, and the marking is written only if that changed it. */
  function ActionSync(s: Screen, action: bool, today: string): (r: Screen)
    ensures !s.loaded || !action ==> r == s
    ensures s.loaded && action ==> r.marked == MergeDot(s.marked, today, ActionDot)
    ensures r.goalsByDate == s.goalsByDate && r.stored.goalsByDate == s.stored.goalsByDate
    ensures r.marked == s.marked ==> r.stored == s.stored
    ensures r.marked != s.marked ==> r.stored.markedDates == Some(r.marked)
  {
    if !s.loaded || !action then s
    else PersistMarks(s, MergeDot(s.marked, today, ActionDot))
  }

  /** Running the action effect again changes nothing and writes nothing. */
  lemma ActionSyncIdempotent(s: Screen, action: bool, today: string)
    ensures ActionSync(ActionSync(s, action, today), action, today) == ActionSync(s, action, today)
  {
    if s.loaded && action {
      MergeDotIdempotent(s.marked, today, ActionDot);
    }
  }

  function ListAt(goals: GoalsByDate, date: string): seq<string> {
    if date in goals then goals[date] else []
  }

  /** One half of the sync effect for one date: the planned dot, and the union of
      the titles already listed for the date with the new ones. */
  function Step(marked: Marks, goals: GoalsByDate, date: string, titles: seq<string>): (r: (Marks, GoalsByDate))
    ensures r.0 == MergeDot(marked, date, PlannedDot)
    ensures ListAt(r.1, date) == Union(ListAt(goals, date), titles)
    ensures forall d :: d != date ==> (d in r.1 <==> d in goals) && (d in goals ==> r.1[d] == goals[d])
  {
    var g := Union(ListAt(goals, date), titles);
    (MergeDot(marked, date, PlannedDot), if g != ListAt(goals, date) then goals[date := g] else goals)
  }

  /** A date that already has the planned dot and already lists the titles without
      repeats is left as it is. */
  lemma StepStable(marked: Marks, goals: GoalsByDate, date: string, titles: seq<string>)
    requires date in marked && marked[date].marked && HasKey(marked[date].dots, PlannedDot.key)
    requires NoDuplicates(ListAt(goals, date))
    requires forall x :: x in titles ==> x in ListAt(goals, date)
    ensures Step(marked, goals, date, titles) == (marked, goals)
  {
    MergeDotUnchangedIff(marked, date, PlannedDot);
    DedupeAbsorbs(ListAt(goals, date), titles);
  }

  /** The sync effect: once loaded, today's and tomorrow's titles (when there are
      any) are merged in, and each map is written back only if it changed. */
  function Sync(s: Screen, today: string, tmw: string, todayTitles: seq<string>, tmwTitles: seq<string>): (r: Screen)
    ensures !s.loaded ==> r == s
    ensures r.loaded == s.loaded
    ensures r.marked == s.marked ==> r.stored.markedDates == s.stored.markedDates
    ensures r.marked != s.marked ==> r.stored.markedDates == Some(r.marked)
    ensures r.goalsByDate == s.goalsByDate ==> r.stored.goalsByDate == s.stored.goalsByDate
    ensures r.goalsByDate != s.goalsByDate ==> r.stored.goalsByDate == Some(r.goalsByDate)
    ensures forall d :: d != today && d != tmw ==>
              (d in r.goalsByDate <==> d in s.goalsByDate) && (d in s.goalsByDate ==> r.goalsByDate[d] == s.goalsByDate[d])
    ensures forall d :: d != today && d != tmw ==>
              (d in r.marked <==> d in s.marked) && (d in s.marked ==> r.marked[d] == s.marked[d])
  {
    if !s.loaded then s
    else
      var a := if |todayTitles| > 0 then Step(s.marked, s.goalsByDate, today, todayTitles) else (s.marked, s.goalsByDate);
      var b := if |tmwTitles| > 0 then Step(a.0, a.1, tmw, tmwTitles) else a;
      Screen(true, b.0, b.1,
             Stored(if b.0 != s.marked then Some(b.0) else s.stored.markedDates,
                    if b.1 != s.goalsByDate then Some(b.1) else s.stored.goalsByDate))
  }

  /** After a sync, today lists exactly the union of what it listed and the new
      titles, and is marked with the planned dot. */
  lemma SyncToday(s: Screen, today: string, tmw: string, todayTitles: seq<string>, tmwTitles: seq<string>)
    requires s.loaded && today != tmw && |todayTitles| > 0
    ensures var r := Sync(s, today, tmw, todayTitles, tmwTitles);
            && ListAt(r.goalsByDate, today) == Union(ListAt(s.goalsByDate, today), todayTitles)
            && today in r.marked && r.marked[today].marked && HasKey(r.marked[today].dots, PlannedDot.key)
  {
    var a := Step(s.marked, s.goalsByDate, today, todayTitles);
    PlannedDotPresent(s.marked, today);
  }

  lemma PlannedDotPresent(marked: Marks, date: string)
    ensures var m := MergeDot(marked, date, PlannedDot);
            date in m && m[date].marked && HasKey(m[date].dots, PlannedDot.key)
  {
    MergeDotIdempotent(marked, date, PlannedDot);
    MergeDotUnchangedIff(MergeDot(marked, date, PlannedDot), date, PlannedDot);
  }

  /** The state one `Step` leaves at its date makes a second `Step` there stable. */
  lemma StepSettles(marked: Marks, goals: GoalsByDate, date: string, titles: seq<string>)
    ensures var r := Step(marked, goals, date, titles);
            Step(r.0, r.1, date, titles) == r
  {
    var r := Step(marked, goals, date, titles);
    PlannedDotPresent(marked, date);
    StepStable(r.0, r.1, date, titles);
  }

  /** Two `Step`s at different dates do not disturb each other's date. */
  lemma StepFrame(marked: Marks, goals: GoalsByDate, date: string, titles: seq<string>,
                  other: string, more: seq<string>)
    requires date != other
    ensures var a := Step(marked, goals, date, titles);
            var b := Step(a.0, a.1, other, more);
            Step(b.0, b.1, date, titles) == b
  {
    var a := Step(marked, goals, date, titles);
    var b := Step(a.0, a.1, other, more);
    PlannedDotPresent(marked, date);
    assert ListAt(b.1, date) == ListAt(a.1, date);
    StepStable(b.0, b.1, date, titles);
  }

  /** Syncing the same goals again changes nothing and writes nothing. */
  lemma SyncIdempotent(s: Screen, today: string, tmw: string, todayTitles: seq<string>, tmwTitles: seq<string>)
    requires today != tmw
    ensures var once := Sync(s, today, tmw, todayTitles, tmwTitles);
            Sync(once, today, tmw, todayTitles, tmwTitles) == once
  {
    if s.loaded {
      var a := if |todayTitles| > 0 then Step(s.marked, s.goalsByDate, today, todayTitles) else (s.marked, s.goalsByDate);
      var b := if |tmwTitles| > 0 then Step(a.0, a.1, tmw, tmwTitles) else a;
      if |todayTitles| > 0 {
        if |tmwTitles| > 0 {
          StepFrame(s.marked, s.goalsByDate, today, todayTitles, tmw, tmwTitles);
          StepSettles(a.0, a.1, tmw, tmwTitles);
        } else {
          StepSettles(s.marked, s.goalsByDate, today, todayTitles);
        }
      } else if |tmwTitles| > 0 {
        StepSettles(a.0, a.1, tmw, tmwTitles);
      }
    }
  }

  /** The commit that sets `loaded`. Both effects depend on `loaded`, so both run on
      the marks the load took. The action effect writes first; the sync effect,
      built from the same marks, writes after it, and where both write the sync's
      marks win, in the screen state and in the store alike. */
  function Mount(stored: Stored, action: bool, today: string, tmw: string,
                 todayTitles: seq<string>, tmwTitles: seq<string>): (r: Screen)
    ensures r.loaded
    ensures r.stored.markedDates == Some(r.marked) || (r.stored.markedDates.None? && r.marked == map[])
    ensures r.stored.goalsByDate == Some(r.goalsByDate) || (r.stored.goalsByDate.None? && r.goalsByDate == map[])
  {
    var s := Load(stored);
    var a := ActionSync(s, action, today);
    var y := Sync(s, today, tmw, todayTitles, tmwTitles);
    if y.marked != s.marked then y
    else a.(goalsByDate := y.goalsByDate, stored := a.stored.(goalsByDate := y.stored.goalsByDate))
  }

  /** Without titles to sync, the mount is the action effect alone. */
  lemma MountWithoutPlans(stored: Stored, action: bool, today: string, tmw: string)
    ensures Mount(stored, action, today, tmw, [], []) == ActionSync(Load(stored), action, today)
  {
  }

  /** On a day not yet marked, an action and titles for today at mount lose the
      action dot: the action effect adds it, but the sync's marks, taken from the
      same snapshot, replace it on screen and in the store. */
  lemma MountLosesActionDot(stored: Stored, today: string, tmw: string,
                            todayTitles: seq<string>, tmwTitles: seq<string>)
    requires today != tmw && |todayTitles| > 0
    requires today !in stored.markedDates.GetOr(map[])
    ensures var a := ActionSync(Load(stored), true, today);
            today in a.marked && HasKey(a.marked[today].dots, ActionDot.key)
    ensures var r := Mount(stored, true, today, tmw, todayTitles, tmwTitles);
            && today in r.marked && !HasKey(r.marked[today].dots, ActionDot.key)
            && r.stored.markedDates == Some(r.marked)
  {
    var s := Load(stored);
    var m := MergeDot(s.marked, today, ActionDot);
    assert m[today].dots == [ActionDot];
    assert m[today].dots[0].key == ActionDot.key;
    var step := Step(s.marked, s.goalsByDate, today, todayTitles);
    assert step.0[today].dots == [PlannedDot];
    var b := if |tmwTitles| > 0 then Step(step.0, step.1, tmw, tmwTitles) else step;
    assert b.0[today] == step.0[today];
    assert today in b.0 && today !in s.marked;
  }
}

=== FILE: dates.dfy ===
/** Calendar dates and the two ways the app turns "now" into a day key:
    `getDateKey` (the UTC date of the instant, `YYYY-MM-DD` from
    `toISOString`) and the local `localYMD` helper of the calendar and journal
    screens (local year, month and day, the year not padded). */
module Dates {
  import opened Wrappers
  import opened Numerals
  import opened Storage

  /** A date of the proleptic Gregorian calendar, as JavaScript's `Date` uses. */
  datatype Date = Date(year: int, month: int, day: int)

  predicate IsLeapYear(y: int) {
    y % 4 == 0 && (y % 100 != 0 || y % 400 == 0)
  }

  function DaysInMonth(y: int, m: int): (n: int)
    requires 1 <= m <= 12
    ensures 28 <= n <= 31
    ensures n == 29 <==> m == 2 && IsLeapYear(y)
  {
    if m == 2 then (if IsLeapYear(y) then 29 else 28)
    else if m == 4 || m == 6 || m == 9 || m == 11 then 30
    else 31
  }

  predicate Valid(d: Date) {
    1 <= d.month <= 12 && 1 <= d.day <= DaysInMonth(d.year, d.month)
  }

  /** Calendar order: year, then month, then day. */
  predicate Before(a: Date, b: Date) {
    a.year < b.year || (a.year == b.year && (a.month < b.month || (a.month == b.month && a.day < b.day)))
  }

  /** The following day: the earliest valid date after `d`. */
  function Next(d: Date): (r: Date)
    requires Valid(d)
    ensures Valid(r) && Before(d, r)
    ensures forall e :: Valid(e) && Before(d, e) ==> r == e || Before(r, e)
  {
    if d.day < DaysInMonth(d.year, d.month) then d.(day := d.day + 1)
    else if d.month < 12 then Date(d.year, d.month + 1, 1)
    else Date(d.year + 1, 1, 1)
  }

  /** The preceding day: the latest valid date before `d`. */
  function Prev(d: Date): (r: Date)
    requires Valid(d)
    ensures Valid(r) && Before(r, d)
    ensures forall e :: Valid(e) && Before(e, d) ==> r == e || Before(e, r)
  {
    if d.day > 1 then d.(day := d.day - 1)
    else if d.month > 1 then Date(d.year, d.month - 1, DaysInMonth(d.year, d.month - 1))
    else Date(d.year - 1, 12, 31)
  }

  /** `Next` and `Prev` undo each other. */
  lemma NextPrevInverse(d: Date)
    requires Valid(d)
    ensures Next(Prev(d)) == d
    ensures Prev(Next(d)) == d
  {
  }

  /** `setDate(getDate() + n)`: `n` days later (earlier when `n` is negative). */
  function AddDays(d: Date, n: int): (r: Date)
    requires Valid(d)
    ensures Valid(r)
    decreases if n < 0 then -n else n
  {
    if n == 0 then d
    else if n > 0 then AddDays(Next(d), n - 1)
    else AddDays(Prev(d), n + 1)
  }

  lemma ShiftAfterNext(d: Date, m: int)
    requires Valid(d)
    ensures AddDays(Next(d), m - 1) == AddDays(d, m)
  {
    if m <= 0 {
      NextPrevInverse(d);
    }
  }

  lemma ShiftAfterPrev(d: Date, m: int)
    requires Valid(d)
    ensures AddDays(Prev(d), m + 1) == AddDays(d, m)
  {
    if m >= 0 {
      NextPrevInverse(d);
    }
  }

  /** Moving by `a` days and then by `b` days is moving by `a + b` days. */
  lemma {:induction false} AddDaysCompose(d: Date, a: int, b: int)
    requires Valid(d)
    ensures AddDays(AddDays(d, a), b) == AddDays(d, a + b)
    decreases if a < 0 then -a else a
  {
    if a > 0 {
      AddDaysCompose(Next(d), a - 1, b);
      ShiftAfterNext(d, a + b);
    } else if a < 0 {
      AddDaysCompose(Prev(d), a + 1, b);
      ShiftAfterPrev(d, a + b);
    }
  }

  /** Two digits, zero-padded: `String(n).padStart(2, '0')`. */
  function Two(n: nat): string {
    PadLeft(NatText(n), 2)
  }

  /** The year field of `toISOString`: four digits for years 0 to 9999, otherwise a
      sign and six digits. */
  function IsoYear(y: int): string {
    if 0 <= y <= 9999 then PadLeft(NatText(y), 4)
    else if y < 0 then "-" + PadLeft(NatText(-y), 6)
    else "+" + PadLeft(NatText(y), 6)
  }

  /** The date part of `toISOString()`, i.e. what precedes the `T`. */
  function IsoDate(d: Date): string
    requires Valid(d)
  {
    IsoYear(d.year) + "-" + Two(d.month) + "-" + Two(d.day)
  }

  /** The calendar screen's and the journal's `localYMD`: the year is printed as is. */
  function LocalYmd(d: Date): string
    requires Valid(d)
  {
    IntText(d.year) + "-" + Two(d.month) + "-" + Two(d.day)
  }

  /** Reads a `YYYY-MM-DD` key back. */
  function ParseIsoDate(s: string): (r: Option<Date>)
    ensures r.Some? ==> Valid(r.value) && 0 <= r.value.year <= 9999
  {
    if |s| == 10 && s[4] == '-' && s[7] == '-'
      && AllDigits(s[..4]) && AllDigits(s[5..7]) && AllDigits(s[8..])
    then
      var d := Date(DigitsValue(s[..4]), DigitsValue(s[5..7]), DigitsValue(s[8..]));
      assert DigitsValue(s[..4]) <= 9999 by { DigitsBound(s[..4]); }
      if Valid(d) then Some(d) else None
    else None
  }

  lemma {:induction false} DigitsBound(s: string)
    requires AllDigits(s)
    ensures DigitsValue(s) < Pow10(|s|)
    decreases |s|
  {
    if |s| > 0 {
      DigitsBound(s[..|s| - 1]);
    }
  }

  lemma PowersUsed()
    ensures Pow10(2) == 100 && Pow10(3) == 1000 && Pow10(4) == 10000
  {
    assert Pow10(1) == 10;
  }

  lemma TwoOfDayOrMonth(n: nat)
    requires n < 100
    ensures |Two(n)| == 2 && AllDigits(Two(n)) && DigitsValue(Two(n)) == n
  {
    PowersUsed();
    NatTextAtMost(n, 2);
    PaddedValue(n, 2);
  }

  /** A key written for a year from 0 to 9999 is ten characters long and reads back
      as the date: `getDateKey` is injective there. */
  lemma IsoDateRoundTrip(d: Date)
    requires Valid(d) && 0 <= d.year <= 9999
    ensures |IsoDate(d)| == 10
    ensures ParseIsoDate(IsoDate(d)) == Some(d)
  {
    FourDigitYear(d.year);
    TwoOfDayOrMonth(d.month);
    TwoOfDayOrMonth(d.day);
    DashedFields(IsoYear(d.year), Two(d.month), Two(d.day));
  }

  lemma FourDigitYear(y: int)
    requires 0 <= y <= 9999
    ensures |IsoYear(y)| == 4 && AllDigits(IsoYear(y)) && DigitsValue(IsoYear(y)) == y
  {
    PowersUsed();
    NatTextAtMost(y, 4);
    PaddedValue(y, 4);
  }

  /** The fields of `a-b-c`, for a four-character `a` and two-character `b` and `c`. */
  lemma DashedFields(a: string, b: string, c: string)
    requires |a| == 4 && |b| == 2 && |c| == 2
    ensures var s := a + "-" + b + "-" + c;
      |s| == 10 && s[4] == '-' && s[7] == '-' && s[..4] == a && s[5..7] == b && s[8..] == c
  {
    var s := a + "-" + b + "-" + c;
    assert s[..4] == a;
    assert s[5..7] == b;
    assert s[8..] == c;
  }

  /** The key is `YYYY-MM-DD` (ten characters) exactly for the years 0 to 9999. */
  lemma IsoDateLength(d: Date)
    requires Valid(d)
    ensures |IsoDate(d)| == 10 <==> 0 <= d.year <= 9999
  {
    if 0 <= d.year <= 9999 {
      IsoDateRoundTrip(d);
    } else {
      assert |IsoYear(d.year)| >= 7;
    }
  }

  lemma IsoDateInjective(a: Date, b: Date)
    requires Valid(a) && Valid(b)
    requires 0 <= a.year <= 9999 && 0 <= b.year <= 9999
    requires IsoDate(a) == IsoDate(b)
    ensures a == b
  {
    IsoDateRoundTrip(a);
    IsoDateRoundTrip(b);
  }

  /** The two key formats agree exactly for four-digit years. */
  lemma LocalYmdMatchesIso(d: Date)
    requires Valid(d) && 0 <= d.year
    ensures LocalYmd(d) == IsoDate(d) <==> 1000 <= d.year <= 9999
  {
    PowersUsed();
    if 1000 <= d.year <= 9999 {
      NatTextLength(d.year, 4);
    } else if d.year < 1000 {
      NatTextAtMost(d.year, 3);
      IsoDateRoundTrip(d);
      assert |LocalYmd(d)| < |IsoDate(d)|;
    } else {
      assert IsoDate(d)[0] == '+';
      assert LocalYmd(d)[0] == NatText(d.year)[0];
    }
  }

  /** A digit run stops at a dash. */
  lemma DigitRunStopsAtDash(p: string, q: string)
    ensures DigitRun(p + "-" + q) <= |p|
  {
    var t := p + "-" + q;
    assert t[|p|] == '-';
  }

  /** A text whose leading digit run (after an optional minus) does not reach its
      end is not a number. */
  lemma NumberStopsEarly(s: string)
    requires s != ""
    requires s[0] != '-' ==> DigitRun(s) < |s|
    requires s[0] == '-' ==> DigitRun(s[1..]) < |s| - 1
    ensures Number(s) == NaN
  {
  }

  /** `Number(key)` is NaN for every key `getDateKey` can produce. */
  lemma NumberOfIsoDate(d: Date)
    requires Valid(d)
    ensures Number(IsoDate(d)) == NaN
  {
    var s := IsoDate(d);
    var q := Two(d.month) + "-" + Two(d.day);
    if 0 <= d.year <= 9999 {
      assert s == IsoYear(d.year) + "-" + q;
      DigitRunStopsAtDash(IsoYear(d.year), q);
      assert s[0] != '-';
    } else if d.year < 0 {
      var p := PadLeft(NatText(-d.year), 6);
      assert s[1..] == p + "-" + q;
      DigitRunStopsAtDash(p, q);
    } else {
      assert s[0] == '+';
      assert DigitRun(s) == 0;
    }
    NumberStopsEarly(s);
  }

  /** The instant the app reads from the device clock, as the calendar date it falls
      on in UTC and in the device's time zone. */
  datatype Clock = Clock(utc: Date, local: Date)

  predicate ValidClock(c: Clock) {
    Valid(c.utc) && Valid(c.local)
  }

  /** `getDateKey(offset)`: the UTC date `offset` days away, as a key that is never a
      number and, for four-digit years, parses back to that date. */
  function GetDateKey(c: Clock, offset: int): (r: string)
    requires ValidClock(c)
    ensures Number(r) == NaN
    ensures var d := AddDays(c.utc, offset);
            0 <= d.year <= 9999 ==> |r| == 10 && ParseIsoDate(r) == Some(d)
  {
    var d := AddDays(c.utc, offset);
    NumberOfIsoDate(d);
    assert 0 <= d.year <= 9999 ==> |IsoDate(d)| == 10 && ParseIsoDate(IsoDate(d)) == Some(d) by {
      if 0 <= d.year <= 9999 {
        IsoDateRoundTrip(d);
      }
    }
    IsoDate(d)
  }

  /** `getToday()`: the key of the current UTC date. */
  function Today(c: Clock): (r: string)
    requires ValidClock(c)
    ensures 0 <= c.utc.year <= 9999 ==> ParseIsoDate(r) == Some(c.utc)
  {
    assert AddDays(c.utc, 0) == c.utc;
    GetDateKey(c, 0)
  }

  /** `getYesterday()`: the key of the UTC date before the current one. */
  function Yesterday(c: Clock): (r: string)
    requires ValidClock(c)
    ensures var p := Prev(c.utc);
            0 <= p.year <= 9999 ==> ParseIsoDate(r) == Some(p)
  {
    assert AddDays(c.utc, -1) == Prev(c.utc);
    GetDateKey(c, -1)
  }

  /** Yesterday's key names the day before today's, and differs from it. */
  lemma YesterdayPrecedesToday(c: Clock)
    requires ValidClock(c) && 0 < c.utc.year <= 9999
    ensures Yesterday(c) != Today(c)
    ensures ParseIsoDate(Yesterday(c)).Some? && ParseIsoDate(Today(c)).Some?
    ensures Next(ParseIsoDate(Yesterday(c)).value) == ParseIsoDate(Today(c)).value
  {
    var p := Prev(c.utc);
    assert AddDays(c.utc, -1) == p;
    IsoDateRoundTrip(p);
    IsoDateRoundTrip(c.utc);
    NextPrevInverse(c.utc);
  }

  /** What was today's key is the next day's yesterday key. */
  lemma TodayIsNextYesterday(c: Clock, later: Clock)
    requires ValidClock(c) && ValidClock(later)
    requires later.utc == Next(c.utc)
    ensures Yesterday(later) == Today(c)
  {
    NextPrevInverse(c.utc);
    assert AddDays(later.utc, -1) == Prev(later.utc);
  }

  /** When the local date differs from the UTC date (late evening west of UTC, early
      morning east of it), the calendar's local key and the context's UTC key differ. */
  lemma LocalAndUtcKeysDiffer(c: Clock)
    requires ValidClock(c)
    requires 1000 <= c.utc.year <= 9999 && 1000 <= c.local.year <= 9999
    requires c.local != c.utc
    ensures LocalYmd(c.local) != Today(c)
  {
    LocalYmdMatchesIso(c.local);
    if LocalYmd(c.local) == Today(c) {
      IsoDateInjective(c.local, c.utc);
    }
  }

  /** Boundaries: leap days, month ends and the turn of the year. */
  lemma CalendarBoundaries()
    ensures Prev(Date(2024, 3, 1)) == Date(2024, 2, 29)
    ensures Prev(Date(2023, 3, 1)) == Date(2023, 2, 28)
    ensures Prev(Date(1900, 3, 1)) == Date(1900, 2, 28)
    ensures Prev(Date(2000, 3, 1)) == Date(2000, 2, 29)
    ensures Prev(Date(2025, 1, 1)) == Date(2024, 12, 31)
    ensures Next(Date(2025, 6, 30)) == Date(2025, 7, 1)
  {
  }
}

=== FILE: dungeon.dfy ===
/** The current dungeon screen (`screens/DungeonScreen.tsx`): a roster of 50 stages
    kept in the store, the gate that asks every skill to reach twice the next stage
    number, advancing past a stage, and the class each stage is drawn with. */
module Dungeon {
  import opened Wrappers
  import opened Json
  import opened Storage
  import Progress

  const RosterSize := 50
  const LevelsKey := "levelup_dungeonLevels"

  datatype Stage = Stage(id: int, completed: bool)

  /** The roster before anything is loaded: stages 0 to 49, none completed. */
  function FreshRoster(): seq<Stage> {
    seq(RosterSize, i => Stage(i, false))
  }

  /** The loop `loadProgress` runs when nothing is stored: it builds the same roster
      as the state's initial value. */
  method InitRoster() returns (r: seq<Stage>)
    ensures |r| == RosterSize
    ensures forall i :: 0 <= i < |r| ==> r[i].id == i && !r[i].completed
    ensures r == FreshRoster()
  {
    r := [];
    var i := 0;
    while i < RosterSize
      invariant 0 <= i <= RosterSize && |r| == i
      invariant forall k :: 0 <= k < i ==> r[k] == Stage(k, false)
    {
      r := r + [Stage(i, false)];
      i := i + 1;
    }
  }

  // ---------------------------------------------------------------------
  // The gate
  // ---------------------------------------------------------------------

  /** The level every skill needs to enter the stage after `d`. */
  function Required(d: int): int {
    2 * (d + 1)
  }

  /** `level[k]` on the context's array: a missing entry is `undefined`, which
      compares like NaN. */
  function At(level: seq<int>, k: nat): Num {
    if k < |level| then Finite(level[k]) else NaN
  }

  /** `a >= b` on numbers: false as soon as either side is NaN. */
  predicate AtLeast(a: Num, b: Num) {
    a.Finite? && b.Finite? && a.v >= b.v
  }

  /** `canEnterDungeonLevel`: each of the four skills on its own must reach the
      requirement; a high level in one skill does not make up for another. */
  function CanEnter(level: seq<int>, d: Num): (ok: bool)
    ensures ok <==> d.Finite? && |level| >= 4 &&
                    forall k :: 0 <= k < 4 ==> level[k] >= Required(d.v)
  {
    var req := match d case NaN => NaN case Finite(v) => Finite(Required(v));
    AtLeast(At(level, 0), req) && AtLeast(At(level, 1), req) &&
    AtLeast(At(level, 2), req) && AtLeast(At(level, 3), req)
  }

  /** The requirement grows with the stage, so a player who may enter a stage may
      enter every stage before it. */
  lemma GateMonotone(level: seq<int>, d: int, e: int)
    requires d <= e && CanEnter(level, Finite(e))
    ensures CanEnter(level, Finite(d))
  {
  }

  /** The gate is not a sum: 100 levels in one skill do not open the first stage. */
  lemma GateIsConjunctive()
    ensures !CanEnter([100, 0, 0, 0], Finite(0))
    ensures CanEnter([2, 2, 2, 2], Finite(0))
  {
  }

  // ---------------------------------------------------------------------
  // Advancing
  // ---------------------------------------------------------------------

  /** What pressing the next stage does: nothing when the gate is shut; a TypeError
      when the stage index is outside the roster; otherwise the current stage is
      marked completed in the roster and `changeDungeon(d + 1)` is called. */
  datatype Outcome = Unchanged | Crashed | Advanced(roster: seq<Stage>, next: int)

  function Advance(roster: seq<Stage>, level: seq<int>, d: Num): (r: Outcome)
    ensures !CanEnter(level, d) ==> r == Unchanged
    ensures CanEnter(level, d) && !(0 <= d.v < |roster|) ==> r == Crashed
    ensures CanEnter(level, d) && 0 <= d.v < |roster| ==>
      && r.Advanced? && r.next == d.v + 1
      && |r.roster| == |roster|
      && r.roster[d.v] == roster[d.v].(completed := true)
      && forall j :: 0 <= j < |roster| && j != d.v ==> r.roster[j] == roster[j]
  {
    if !CanEnter(level, d) then Unchanged
    else if !(0 <= d.v < |roster|) then Crashed
    else Advanced(roster[d.v := roster[d.v].(completed := true)], d.v + 1)
  }

  /** Advancing through the current context moves its dungeon level on by one, and
      the gate for the stage after that asks for two more levels in every skill. */
  lemma AdvanceThroughContext(ctx: Progress.Context, roster: seq<Stage>)
    requires Progress.WellFormed(ctx.state)
    requires Advance(roster, ctx.state.level, ctx.state.dungeonLevel).Advanced?
    ensures var out := Advance(roster, ctx.state.level, ctx.state.dungeonLevel);
            var after := Progress.ChangeDungeon(ctx, out.next);
            && after.state.dungeonLevel == Finite(ctx.state.dungeonLevel.v + 1)
            && (CanEnter(after.state.level, after.state.dungeonLevel) <==>
                forall k :: 0 <= k < 4 ==> ctx.state.level[k] >= Required(ctx.state.dungeonLevel.v) + 2)
  {
  }

  // ---------------------------------------------------------------------
  // Stored roster
  // ---------------------------------------------------------------------

  function StageJson(s: Stage): Json {
    JObj([Member("id", JInt(s.id)), Member("completed", JBool(s.completed))])
  }

  function StageFromJson(j: Json): Option<Stage> {
    match j
    case JObj(ms) =>
      (match (Lookup(ms, "id"), Lookup(ms, "completed"))
       case (Some(JInt(i)), Some(JBool(b))) => Some(Stage(i, b))
       case _ => None)
    case _ => None
  }

  lemma StageFromJsonOfStageJson(s: Stage)
    ensures StageFromJson(StageJson(s)) == Some(s)
  {
    var ms := StageJson(s).members;
    LookupUnique(ms, 0);
    LookupUnique(ms, 1);
  }

  function RosterJson(roster: seq<Stage>): (j: Json)
    ensures j.JArr? && |j.items| == |roster|
  {
    JArr(seq(|roster|, i requires 0 <= i < |roster| => StageJson(roster[i])))
  }

  function RosterFromJson(items: seq<Json>): (r: Option<seq<Stage>>)
    ensures r.Some? ==> |r.value| == |items|
  {
    if |items| == 0 then Some([])
    else
      match (StageFromJson(items[0]), RosterFromJson(items[1..]))
      case (Some(s), Some(ss)) => Some([s] + ss)
      case _ => None
  }

  lemma {:induction false} RosterFromJsonOfRosterJson(roster: seq<Stage>)
    ensures RosterFromJson(RosterJson(roster).items) == Some(roster)
    decreases |roster|
  {
    if |roster| > 0 {
      StageFromJsonOfStageJson(roster[0]);
      assert RosterJson(roster).items[1..] == RosterJson(roster[1..]).items;
      RosterFromJsonOfRosterJson(roster[1..]);
      assert [roster[0]] + roster[1..] == roster;
    }
  }

  /** `JSON.stringify(levels)`. */
  function EncodeRoster(roster: seq<Stage>): string {
    Serialize(RosterJson(roster))
  }

  /** `loadProgress`: with nothing stored, the fresh roster is set and written; a
      stored array is taken as it is; text that does not parse throws into the
      `catch`, and anything else that is not an array is passed over. In those two
      cases the roster stays as it was. */
  function LoadRoster(store: Store, before: seq<Stage>): (r: (seq<Stage>, Store))
    ensures !Truthy(store, LevelsKey) ==>
              r == (FreshRoster(), store[LevelsKey := EncodeRoster(FreshRoster())])
    ensures Truthy(store, LevelsKey) ==> r.1 == store
    ensures Truthy(store, LevelsKey) && Parse(store[LevelsKey]).None? ==> r.0 == before
    ensures Truthy(store, LevelsKey) && Parse(store[LevelsKey]).Some? && !Parse(store[LevelsKey]).value.JArr? ==>
              r.0 == before
    ensures Truthy(store, LevelsKey) && Parse(store[LevelsKey]).Some? && Parse(store[LevelsKey]).value.JArr? &&
            RosterFromJson(Parse(store[LevelsKey]).value.items).Some? ==>
              r.0 == RosterFromJson(Parse(store[LevelsKey]).value.items).value
  {
    if !Truthy(store, LevelsKey) then (FreshRoster(), store[LevelsKey := EncodeRoster(FreshRoster())])
    else
      match Parse(store[LevelsKey])
      case Some(JArr(items)) =>
        (match RosterFromJson(items)
         case Some(roster) => (roster, store)
         case None => (before, store))
      case _ => (before, store)
  }

  /** A roster written to the store is what the next load takes. */
  lemma RosterReloads(store: Store, roster: seq<Stage>, before: seq<Stage>)
    ensures var saved := store[LevelsKey := EncodeRoster(roster)];
            LoadRoster(saved, before) == (roster, saved)
  {
    ParseOfSerialize(RosterJson(roster));
    RosterFromJsonOfRosterJson(roster);
  }

  /** The first launch writes the fresh roster, and the second reads it back. */
  lemma FirstLoadThenReload(store: Store, before: seq<Stage>, before': seq<Stage>)
    requires !Truthy(store, LevelsKey)
    ensures LoadRoster(LoadRoster(store, before).1, before').0 == FreshRoster()
  {
    RosterReloads(store, FreshRoster(), before');
  }

  /** Marking a stage completed changes the roster in memory only: the next launch
      loads the roster as it was stored, with the stage still open. */
  lemma CompletionForgottenOnReload(store: Store, roster: seq<Stage>, level: seq<int>, d: int, before: seq<Stage>)
    requires CanEnter(level, Finite(d)) && 0 <= d < |roster| && !roster[d].completed
    ensures var saved := store[LevelsKey := EncodeRoster(roster)];
            && LoadRoster(saved, before).0 == roster
            && Advance(roster, level, Finite(d)).roster[d].completed
            && Advance(roster, level, Finite(d)).roster != LoadRoster(saved, before).0
  {
    RosterReloads(store, roster, before);
  }

  // ---------------------------------------------------------------------
  // Drawing
  // ---------------------------------------------------------------------

  /** How `renderLevels` draws a stage: the pressable next stage, a completed stage,
      the current stage, or a locked one. */
  datatype StageClass = Next | Completed | Current | Locked

  /** The branches of `renderLevels` for a stage with id `id`, in their order. */
  function Classify(id: int, d: Num): (r: StageClass)
    ensures r == Next <==> d.Finite? && id == d.v + 1
    ensures r == Completed <==> d.Finite? && id < d.v
    ensures r == Current <==> d.Finite? && id == d.v
    ensures r == Locked <==> d.NaN? || id > d.v + 1
  {
    match d
    case NaN => Locked
    case Finite(v) =>
      if id == v + 1 then Next
      else if id < v then Completed
      else if id == v then Current
      else Locked
  }

  /** Position of a class along the path: completed, current, next, locked. */
  function Rank(c: StageClass): nat {
    match c
    case Completed => 0
    case Current => 1
    case Next => 2
    case Locked => 3
  }

  /** Along increasing ids the classes never go back: completed stages come first,
      then the current one, then the pressable one, then the locked ones. */
  lemma ClassifyOrdered(a: int, b: int, d: int)
    requires a < b
    ensures Rank(Classify(a, Finite(d))) <= Rank(Classify(b, Finite(d)))
    ensures Classify(a, Finite(d)) == Classify(b, Finite(d)) ==>
              Classify(a, Finite(d)) == Completed || Classify(a, Finite(d)) == Locked
  {
  }

  /** In the fresh roster at most one stage is pressable, and one is exactly when
      the stage after `d` is on the roster. */
  lemma OnePressableStage(d: Num)
    ensures forall i, j :: 0 <= i < j < |FreshRoster()| ==>
              !(Classify(FreshRoster()[i].id, d) == Next && Classify(FreshRoster()[j].id, d) == Next)
    ensures (exists i :: 0 <= i < |FreshRoster()| && Classify(FreshRoster()[i].id, d) == Next)
            <==> d.Finite? && -1 <= d.v <= RosterSize - 2
  {
    if d.Finite? && -1 <= d.v <= RosterSize - 2 {
      assert Classify(FreshRoster()[d.v + 1].id, d) == Next;
    }
  }

  /** A NaN dungeon level draws every stage locked, so nothing can be pressed. */
  lemma NaNLocksAll(id: int)
    ensures Classify(id, NaN) == Locked
  {
  }
}

=== FILE: goal_screen.dfy ===
/** The older app's goal review screen (`levelUp/screens/GoalScreen.tsx`). It shows
    yesterday's stored snapshot split into the four categories, while toggling and
    removal work on a second list, the working `goals`; pressing a shown goal
    therefore never changes the categories on display. The screen is mounted under
    the older context (`LegacyProgress`), which lacks `changeGoals`, so the press and
    the development reset throw halfway. */
module GoalScreen {
  import opened Storage
  import opened Dates
  import opened Goals
  import opened Seqs
  import Progress
  import LegacyProgress

  /** The screen's working list (`goals`) and the displayed buckets (`goalsByCategory`). */
  datatype View = View(goals: seq<Goal>, byCategory: map<string, seq<Goal>>)

  /** The `byCategory` record `loadGoals` builds: one bucket per category. */
  function Categorize(gs: seq<Goal>): (r: map<string, seq<Goal>>)
    ensures forall c :: c in r <==> c in Categories
    ensures forall c :: c in r ==> forall g :: g in r[c] <==> g in gs && g.category == c
    ensures forall c, a, b :: c in r && gs == a + b ==> r[c] == ByCategory(a, c) + ByCategory(b, c)
  {
    forall c, a, b | c in Categories && gs == a + b
      ensures ByCategory(gs, c) == ByCategory(a, c) + ByCategory(b, c)
    {
      ByCategoryConcat(a, b, c);
    }
    map c | c in Categories :: ByCategory(gs, c)
  }

  /** Every goal of one of the four categories is shown in its own bucket and no
      other; the buckets together hold as many goals as the list has in-range ones. */
  lemma CategorizeAccounts(gs: seq<Goal>)
    ensures var r := Categorize(gs);
            && (forall g, c :: g in gs && c in r ==> (g in r[c] <==> g.category == c))
            && |r["Mind"]| + |r["Body"]| + |r["Spirit"]| + |r["Accountability"]|
               == |gs| - |Filter((g: Goal) => g.category !in Categories, gs)|
  {
    CategoriesPartition(gs);
  }

  /** `loadGoals`: reads the snapshot stored under yesterday's date key. No snapshot
      gives no buckets; a snapshot that does not parse or is not an array makes the
      load throw, and the buckets stay the initial empty record. */
  function LoadGoals(store: Store, c: Clock): (r: map<string, seq<Goal>>)
    requires ValidClock(c)
    ensures !Truthy(store, Yesterday(c)) ==> r == map[]
    ensures Truthy(store, Yesterday(c)) && ReadList(store[Yesterday(c)]).GoalList? ==>
              r == Categorize(ReadList(store[Yesterday(c)]).goals)
  {
    var key := Yesterday(c);
    if !Truthy(store, key) then map[]
    else
      match ReadList(store[key])
      case GoalList(gs) => Categorize(gs)
      case _ => map[]
  }

  /** What the box for `title` lists: `goalsByCategory[title] || []`. */
  function Shown(byCategory: map<string, seq<Goal>>, title: string): seq<Goal> {
    if title in byCategory then byCategory[title] else []
  }

  /** Without a snapshot for yesterday every box is empty. */
  lemma MissingSnapshotShowsEmpty(store: Store, c: Clock, title: string)
    requires ValidClock(c) && !Truthy(store, Yesterday(c))
    ensures Shown(LoadGoals(store, c), title) == []
  {
  }

  /** Goals the planner saved through the current context on one day are shown,
      category by category and in order, on the next day. */
  lemma PlannedYesterdayShownToday(ctx: Progress.Context, gs: seq<Goal>, c: Clock, next: Clock, title: string)
    requires ValidClock(c) && ValidClock(next) && next.utc == Dates.Next(c.utc)
    requires ctx.state.currentDate == Today(c)
    requires title in Categories
    ensures Shown(LoadGoals(Progress.ChangeGoals(ctx, gs).store, next), title) == ByCategory(gs, title)
  {
    TodayIsNextYesterday(c, next);
    ReadEncoded(gs);
  }

  /** `toggleGoalCompleted(id, place)`: toggles the working list and then hands
      `changeGoals` the list as it was before the toggle, since the state update has
      not happened yet when the call is made. */
  function ToggleGoal(v: View, id: string, place: string): (r: (View, seq<Call>))
    ensures r.0.byCategory == v.byCategory
    ensures r.0.goals == Toggle(v.goals, id, place).0
    ensures |r.1| >= 1 && r.1[|r.1| - 1] == ChangeGoals(v.goals)
    ensures r.1[..|r.1| - 1] == Toggle(v.goals, id, place).1
  {
    var t := Toggle(v.goals, id, place);
    (View(t.0, v.byCategory), t.1 + [ChangeGoals(v.goals)])
  }

  /** Through the older context, which has no `changeGoals`, the last call of a
      toggle throws. */
  lemma LegacyToggleThrows(ctx: LegacyProgress.Context, v: View, id: string, place: string)
    ensures !LegacyProgress.ApplyAll(ctx, ToggleGoal(v, id, place).1).1
  {
    var calls := ToggleGoal(v, id, place).1;
    assert !calls[|calls| - 1].AddXp?;
  }

  /** `removeGoal(id)` on the working list. */
  function RemoveGoal(v: View, id: string): (r: View)
    ensures r.byCategory == v.byCategory
    ensures forall g :: g in r.goals <==> g in v.goals && g.id != id
  {
    v.(goals := Remove(v.goals, id))
  }

  /** `fadeAndRemoveGoal(id)`: looks the id up in the working list as it was when the
      goal was pressed; an unknown id does nothing, a known one is removed once its
      fade ends. */
  function FadeAndRemove(v: View, pressed: seq<Goal>, id: string): (r: View)
    ensures (forall i :: 0 <= i < |pressed| ==> pressed[i].id != id) ==> r == v
    ensures (exists i :: 0 <= i < |pressed| && pressed[i].id == id) ==> r == RemoveGoal(v, id)
  {
    if exists i :: 0 <= i < |pressed| && pressed[i].id == id then RemoveGoal(v, id) else v
  }

  /** Pressing a shown goal: `toggleGoalCompleted(item.id, title)` and then
      `fadeAndRemoveGoal(item.id)`. The screen runs under the older context, which has
      no `changeGoals`: the toggle's last call throws, the handler stops there, and
      the fade that would remove the goal never starts. The awards made before the
      throw have gone through, and the toggle queued on the working list stays. */
  function Press(ctx: LegacyProgress.Context, v: View, id: string, title: string): (r: (View, LegacyProgress.Context))
    ensures r.0.byCategory == v.byCategory
  {
    var t := ToggleGoal(v, id, title);
    var done := LegacyProgress.ApplyAll(ctx, t.1);
    if done.1 then (FadeAndRemove(t.0, v.goals, id), done.0) else (t.0, done.0)
  }

  /** A press never removes the goal: the working list is only toggled, the boxes on
      screen stay as they were, and no key but the XP and level keys is written.
      Every award of the handler reads the same render's XP, so however many goals
      share the id, the XP track gains one award's worth. */
  lemma LegacyPressKeepsGoal(ctx: LegacyProgress.Context, v: View, id: string, title: string)
    ensures var r := Press(ctx, v, id, title);
            && r.0 == View(Toggle(v.goals, id, title).0, v.byCategory)
            && |r.0.goals| == |v.goals|
            && (forall i :: 0 <= i < |v.goals| ==> r.0.goals[i].id == v.goals[i].id)
            && r.1 == (if Toggle(v.goals, id, title).1 == [] then ctx else LegacyProgress.Gain(ctx, CompletionReward))
            && (forall k :: k != LegacyProgress.XpKey && k != LegacyProgress.LevelKey ==>
                  (k in r.1.store <==> k in ctx.store) && (k in ctx.store ==> r.1.store[k] == ctx.store[k]))
  {
    var t := ToggleGoal(v, id, title);
    var awards := Toggle(v.goals, id, title).1;
    LegacyToggleThrows(ctx, v, id, title);
    assert t.1 == awards + [ChangeGoals(v.goals)];
    assert forall k :: 0 <= k < |awards| ==> awards[k] in awards;
    LegacyProgress.ThrowEndsRun(ctx.state, ctx, awards, ChangeGoals(v.goals));
    LegacyProgress.ApplyAllWritesProgressOnly(ctx, awards);
    if awards != [] {
      LegacyProgress.LastAwardWins(ctx.state, ctx, awards);
      assert awards[|awards| - 1] in awards;
    }
  }

  /** The development reset: `setGoals([])`, then `changeGoals([])`. The older context
      has no `changeGoals`, so the handler throws there and the removal of the
      planner's `levelup_goals` draft after it never runs. */
  function DevReset(ctx: LegacyProgress.Context, v: View): (r: (View, LegacyProgress.Context))
    ensures r.0 == View([], v.byCategory)
  {
    var done := LegacyProgress.ApplyAll(ctx, [ChangeGoals([])]);
    var cleared := View([], v.byCategory);
    if done.1 then (cleared, done.0.(store := done.0.store - {"levelup_goals"})) else (cleared, done.0)
  }

  /** The reset clears the working list on screen only: the context and the store are
      exactly as before, the draft key included. */
  lemma LegacyDevResetKeepsDraftKey(ctx: LegacyProgress.Context, v: View)
    ensures DevReset(ctx, v).1 == ctx
    ensures "levelup_goals" in ctx.store ==>
              "levelup_goals" in DevReset(ctx, v).1.store
              && DevReset(ctx, v).1.store["levelup_goals"] == ctx.store["levelup_goals"]
  {
  }
}

=== FILE: goals.dfy ===
/** Goals as every screen shares them: the record, the four skill categories,
    its JSON text in storage, completion toggling with its XP award, removal
    and per-category views, and the calls a screen makes into the progress
    context. */
module Goals {
  import opened Wrappers
  import opened Json
  import opened Seqs

  /** A goal without its two animation handles, which are rebuilt on every load. */
  datatype Goal = Goal(id: string, title: string, isCompleted: bool, category: string,
                       description: string, time: string)

  /** The four skills, in the order of the context's `xp` and `level` arrays. */
  const Categories: seq<string> := ["Mind", "Body", "Spirit", "Accountability"]

  /** XP for completing a goal. */
  const CompletionReward := 50

  /** The skill a completed goal of category `place` feeds; any other text feeds none. */
  function SkillIndex(place: string): (r: Option<nat>)
    ensures r.Some? <==> place in Categories
    ensures r.Some? ==> r.value < |Categories| && Categories[r.value] == place
  {
    if place == "Mind" then Some(0)
    else if place == "Body" then Some(1)
    else if place == "Spirit" then Some(2)
    else if place == "Accountability" then Some(3)
    else None
  }

  /** What the context may be asked to do by a screen. */
  datatype Call =
    | AddXp(amount: int, skill: int)
    | ChangeStreak(amount: int)
    | ChangeGoals(goals: seq<Goal>)
    | ChangeTomorrowSaved(value: bool)

  // ---------------------------------------------------------------------
  // Storage form
  // ---------------------------------------------------------------------

  /** The object `JSON.stringify` writes for a goal, in the order a new goal's fields are created. */
  function ToJson(g: Goal): Json {
    JObj([Member("id", JStr(g.id)), Member("title", JStr(g.title)),
          Member("isCompleted", JBool(g.isCompleted)), Member("category", JStr(g.category)),
          Member("description", JStr(g.description)), Member("time", JStr(g.time))])
  }

  function StrField(ms: seq<Member>, key: string): Option<string> {
    match Lookup(ms, key)
    case Some(JStr(s)) => Some(s)
    case _ => None
  }

  function BoolField(ms: seq<Member>, key: string): Option<bool> {
    match Lookup(ms, key)
    case Some(JBool(b)) => Some(b)
    case _ => None
  }

  /** Reads a goal back from a parsed object; anything without the six fields is not a goal. */
  function FromJson(j: Json): Option<Goal> {
    match j
    case JObj(ms) =>
      var id := StrField(ms, "id");
      var title := StrField(ms, "title");
      var done := BoolField(ms, "isCompleted");
      var category := StrField(ms, "category");
      var description := StrField(ms, "description");
      var time := StrField(ms, "time");
      if id.Some? && title.Some? && done.Some? && category.Some? && description.Some? && time.Some? then
        Some(Goal(id.value, title.value, done.value, category.value, description.value, time.value))
      else None
    case _ => None
  }

  /** The six keys of a stored goal are distinct: all lengths differ except those
      of `isCompleted` and `description`, which differ in their first letter. */
  lemma ToJsonKeysDistinct(g: Goal)
    ensures forall i, j :: 0 <= i < |ToJson(g).members| && 0 <= j < |ToJson(g).members| && i != j ==>
              ToJson(g).members[i].key != ToJson(g).members[j].key
  {
    var ms := ToJson(g).members;
    assert |ms[0].key| == 2 && |ms[1].key| == 5 && |ms[2].key| == 11;
    assert |ms[3].key| == 8 && |ms[4].key| == 11 && |ms[5].key| == 4;
    assert ms[2].key[0] == 'i' && ms[4].key[0] == 'd';
  }

  lemma ToJsonFields(g: Goal)
    ensures StrField(ToJson(g).members, "id") == Some(g.id)
    ensures StrField(ToJson(g).members, "title") == Some(g.title)
    ensures BoolField(ToJson(g).members, "isCompleted") == Some(g.isCompleted)
    ensures StrField(ToJson(g).members, "category") == Some(g.category)
    ensures StrField(ToJson(g).members, "description") == Some(g.description)
    ensures StrField(ToJson(g).members, "time") == Some(g.time)
  {
    ToJsonFirstFields(g);
    ToJsonLastFields(g);
  }

  lemma ToJsonFirstFields(g: Goal)
    ensures StrField(ToJson(g).members, "id") == Some(g.id)
    ensures StrField(ToJson(g).members, "title") == Some(g.title)
    ensures BoolField(ToJson(g).members, "isCompleted") == Some(g.isCompleted)
  {
    var ms := ToJson(g).members;
    ToJsonKeysDistinct(g);
    LookupUnique(ms, 0);
    LookupUnique(ms, 1);
    LookupUnique(ms, 2);
  }

  lemma ToJsonLastFields(g: Goal)
    ensures StrField(ToJson(g).members, "category") == Some(g.category)
    ensures StrField(ToJson(g).members, "description") == Some(g.description)
    ensures StrField(ToJson(g).members, "time") == Some(g.time)
  {
    var ms := ToJson(g).members;
    ToJsonKeysDistinct(g);
    LookupUnique(ms, 3);
    LookupUnique(ms, 4);
    LookupUnique(ms, 5);
  }

  lemma FromJsonOfToJson(g: Goal)
    ensures FromJson(ToJson(g)) == Some(g)
  {
    ToJsonFields(g);
  }

  function ListToJson(gs: seq<Goal>): (j: Json)
    ensures j.JArr? && |j.items| == |gs|
  {
    JArr(seq(|gs|, i requires 0 <= i < |gs| => ToJson(gs[i])))
  }

  function ListFromJson(items: seq<Json>): (r: Option<seq<Goal>>)
    ensures r.Some? ==> |r.value| == |items|
  {
    if |items| == 0 then Some([])
    else
      match (FromJson(items[0]), ListFromJson(items[1..]))
      case (Some(g), Some(gs)) => Some([g] + gs)
      case _ => None
  }

  lemma {:induction false} ListFromJsonOfListToJson(gs: seq<Goal>)
    ensures ListFromJson(ListToJson(gs).items) == Some(gs)
    decreases |gs|
  {
    if |gs| > 0 {
      var items := ListToJson(gs).items;
      assert FromJson(items[0]) == Some(gs[0]) by {
        FromJsonOfToJson(gs[0]);
      }
      ListToJsonTail(gs);
      ListFromJsonOfListToJson(gs[1..]);
      ListFromJsonCons(items, gs[0], gs[1..]);
      assert [gs[0]] + gs[1..] == gs;
    }
  }

  lemma ListToJsonTail(gs: seq<Goal>)
    requires 0 < |gs|
    ensures ListToJson(gs).items[1..] == ListToJson(gs[1..]).items
  {
    var a := ListToJson(gs).items[1..];
    var b := ListToJson(gs[1..]).items;
    forall k | 0 <= k < |a|
      ensures a[k] == b[k]
    {
      assert gs[1..][k] == gs[k + 1];
    }
  }

  lemma ListFromJsonCons(items: seq<Json>, g: Goal, gs: seq<Goal>)
    requires 0 < |items| && FromJson(items[0]) == Some(g) && ListFromJson(items[1..]) == Some(gs)
    ensures ListFromJson(items) == Some([g] + gs)
  {
  }

  /** `JSON.stringify(goals)`. */
  function Encode(gs: seq<Goal>): string {
    Serialize(ListToJson(gs))
  }

  /** The ways stored text can turn out when a screen reads it as a goal list. */
  datatype ListRead = Unparsable | NotAList | NotGoals | GoalList(goals: seq<Goal>)

  function ReadList(text: string): ListRead {
    match Parse(text)
    case None => Unparsable
    case Some(JArr(items)) =>
      (match ListFromJson(items)
       case Some(gs) => GoalList(gs)
       case None => NotGoals)
    case Some(_) => NotAList
  }

  /** A stored goal list reads back as the same list, and its text is never empty. */
  lemma ReadEncoded(gs: seq<Goal>)
    ensures ReadList(Encode(gs)) == GoalList(gs)
    ensures Encode(gs) != ""
  {
    ParseOfSerialize(ListToJson(gs));
    ListFromJsonOfListToJson(gs);
    SerializeHead(ListToJson(gs));
  }

  lemma EncodeInjective(a: seq<Goal>, b: seq<Goal>)
    requires Encode(a) == Encode(b)
    ensures a == b
  {
    ReadEncoded(a);
    ReadEncoded(b);
  }

  // ---------------------------------------------------------------------
  // Toggling, removal, views
  // ---------------------------------------------------------------------

  predicate UniqueIds(gs: seq<Goal>) {
    forall i, j :: 0 <= i < j < |gs| ==> gs[i].id != gs[j].id
  }

  /** How many goals carry `id`. */
  function Matching(gs: seq<Goal>, id: string): nat {
    |Filter((g: Goal) => g.id == id, gs)|
  }

  /** How many goals carry `id` and are not yet completed. */
  function Pending(gs: seq<Goal>, id: string): nat {
    |Filter((g: Goal) => g.id == id && !g.isCompleted, gs)|
  }

  /** The award for completing a goal of category `place`. */
  function Award(place: string): seq<Call> {
    match SkillIndex(place)
    case Some(k) => [AddXp(CompletionReward, k)]
    case None => []
  }

  /** The screens' `toggleGoalCompleted(id, place)`: every goal carrying `id` flips, and
      each flip from open to completed asks for 50 XP in the skill `place` names. */
  function Toggle(gs: seq<Goal>, id: string, place: string): (r: (seq<Goal>, seq<Call>))
    ensures |r.0| == |gs|
    ensures forall i :: 0 <= i < |gs| ==>
      r.0[i].(isCompleted := gs[i].isCompleted) == gs[i]
      && (r.0[i].isCompleted != gs[i].isCompleted <==> gs[i].id == id)
    ensures |r.1| == if place in Categories then Pending(gs, id) else 0
    ensures forall c :: c in r.1 ==>
      c.AddXp? && c.amount == CompletionReward && 0 <= c.skill < |Categories| && Categories[c.skill] == place
  {
    if |gs| == 0 then ([], [])
    else
      var g := gs[0];
      var rest := Toggle(gs[1..], id, place);
      if g.id == id then
        ([g.(isCompleted := !g.isCompleted)] + rest.0, (if g.isCompleted then [] else Award(place)) + rest.1)
      else
        ([g] + rest.0, rest.1)
  }

  /** Toggling twice restores the list. */
  lemma ToggleTwice(gs: seq<Goal>, id: string, place: string, place': string)
    ensures Toggle(Toggle(gs, id, place).0, id, place').0 == gs
  {
    var once := Toggle(gs, id, place).0;
    var twice := Toggle(once, id, place').0;
    assert forall i :: 0 <= i < |gs| ==> twice[i] == gs[i];
  }

  lemma {:induction false} MatchingSplit(gs: seq<Goal>, id: string)
    ensures Matching(gs, id) == Pending(gs, id) + |Filter((g: Goal) => g.id == id && g.isCompleted, gs)|
    decreases |gs|
  {
    if |gs| > 0 {
      MatchingSplit(gs[1..], id);
    }
  }

  /** After a toggle, the open goals carrying `id` are those that were completed. */
  lemma {:induction false} PendingAfterToggle(gs: seq<Goal>, id: string, place: string)
    ensures Pending(Toggle(gs, id, place).0, id) == Matching(gs, id) - Pending(gs, id)
    decreases |gs|
  {
    MatchingSplit(gs, id);
    if |gs| > 0 {
      PendingAfterToggle(gs[1..], id, place);
      MatchingSplit(gs[1..], id);
      var r := Toggle(gs, id, place).0;
      assert r[1..] == Toggle(gs[1..], id, place).0;
    }
  }

  lemma {:induction false} MatchingUnique(gs: seq<Goal>, id: string)
    requires UniqueIds(gs)
    ensures Matching(gs, id) <= 1
    ensures Matching(gs, id) == 1 <==> exists i :: 0 <= i < |gs| && gs[i].id == id
    decreases |gs|
  {
    if |gs| > 0 {
      MatchingUnique(gs[1..], id);
      if gs[0].id == id {
        assert forall i :: 1 <= i < |gs| ==> gs[i].id != id;
        assert forall i :: 0 <= i < |gs[1..]| ==> gs[1..][i].id != id;
        assert Filter((g: Goal) => g.id == id, gs[1..]) == [];
      }
      assert forall i :: 1 <= i < |gs| ==> gs[i] == gs[1..][i - 1];
    }
  }

  /** With distinct ids, completing an open goal awards exactly once; un-checking
      takes nothing back; checking it again awards again. */
  lemma RecheckAwardsAgain(gs: seq<Goal>, i: nat, place: string)
    requires UniqueIds(gs) && i < |gs| && !gs[i].isCompleted
    requires place in Categories
    ensures var (a, c1) := Toggle(gs, gs[i].id, place);
            var (b, c2) := Toggle(a, gs[i].id, place);
            var (_, c3) := Toggle(b, gs[i].id, place);
            |c1| == 1 && c2 == [] && |c3| == 1
  {
    var id := gs[i].id;
    MatchingUnique(gs, id);
    MatchingSplit(gs, id);
    assert gs[i] in Filter((g: Goal) => g.id == id && !g.isCompleted, gs);
    var a := Toggle(gs, id, place).0;
    var b := Toggle(a, id, place).0;
    PendingAfterToggle(gs, id, place);
    PendingAfterToggle(a, id, place);
    ToggleTwice(gs, id, place, place);
    assert Matching(a, id) == Matching(gs, id) by {
      assert forall k :: 0 <= k < |gs| ==> a[k].id == gs[k].id;
      SameIdsSameMatching(gs, a, id);
    }
  }

  lemma {:induction false} SameIdsSameMatching(gs: seq<Goal>, hs: seq<Goal>, id: string)
    requires |gs| == |hs| && forall k :: 0 <= k < |gs| ==> gs[k].id == hs[k].id
    ensures Matching(gs, id) == Matching(hs, id)
    decreases |gs|
  {
    if |gs| > 0 {
      SameIdsSameMatching(gs[1..], hs[1..], id);
    }
  }

  /** `removeGoal(id)`: drops every goal carrying `id` and keeps the rest in order. */
  function Remove(gs: seq<Goal>, id: string): (r: seq<Goal>)
    ensures forall g :: g in r <==> g in gs && g.id != id
    ensures |r| == |gs| - Matching(gs, id)
  {
    RemoveCount(gs, id);
    Filter((g: Goal) => g.id != id, gs)
  }

  lemma {:induction false} RemoveCount(gs: seq<Goal>, id: string)
    ensures |Filter((g: Goal) => g.id != id, gs)| + Matching(gs, id) == |gs|
    decreases |gs|
  {
    if |gs| > 0 {
      RemoveCount(gs[1..], id);
    }
  }

  /** Removing twice is removing once, and removal works piecewise on a concatenation. */
  lemma RemoveLaws(a: seq<Goal>, b: seq<Goal>, id: string)
    ensures Remove(Remove(a, id), id) == Remove(a, id)
    ensures Remove(a + b, id) == Remove(a, id) + Remove(b, id)
    ensures (forall i :: 0 <= i < |a| ==> a[i].id != id) ==> Remove(a, id) == a
  {
    FilterIdempotent((g: Goal) => g.id != id, a);
    FilterConcat((g: Goal) => g.id != id, a, b);
    if forall i :: 0 <= i < |a| ==> a[i].id != id {
      FilterKeepsAll((g: Goal) => g.id != id, a);
    }
  }

  /** A toggle by an id no goal carries changes nothing and asks for nothing. */
  lemma {:induction false} ToggleAbsent(gs: seq<Goal>, id: string, place: string)
    requires forall i :: 0 <= i < |gs| ==> gs[i].id != id
    ensures Toggle(gs, id, place) == (gs, [])
    decreases |gs|
  {
    if |gs| > 0 {
      ToggleAbsent(gs[1..], id, place);
      assert [gs[0]] + gs[1..] == gs;
    }
  }

  /** Removing an id after toggling it is removing it: the toggle only touched the
      goals the removal drops. */
  lemma {:induction false} RemoveAfterToggle(gs: seq<Goal>, id: string, place: string)
    ensures Remove(Toggle(gs, id, place).0, id) == Remove(gs, id)
    decreases |gs|
  {
    if |gs| > 0 {
      var t := Toggle(gs, id, place).0;
      RemoveAfterToggle(gs[1..], id, place);
      assert t[1..] == Toggle(gs[1..], id, place).0;
      assert t[0].id == gs[0].id;
    }
  }

  /** `getGoalByCategory(category)`: the goals of one category, in list order. */
  function ByCategory(gs: seq<Goal>, category: string): (r: seq<Goal>)
    ensures forall g :: g in r <==> g in gs && g.category == category
  {
    Filter((g: Goal) => g.category == category, gs)
  }

  /** Taking a category keeps list order: the goals of a joined list are those of the
      first part followed by those of the second. */
  lemma ByCategoryConcat(a: seq<Goal>, b: seq<Goal>, category: string)
    ensures ByCategory(a + b, category) == ByCategory(a, category) + ByCategory(b, category)
  {
    FilterConcat((g: Goal) => g.category == category, a, b);
  }

  /** A single goal is kept exactly when it has the category. */
  lemma ByCategoryOne(g: Goal, category: string)
    ensures ByCategory([g], category) == if g.category == category then [g] else []
  {
    assert [g][1..] == [];
  }

  /** The four categories and the goals outside them account for every goal exactly once. */
  lemma {:induction false} CategoriesPartition(gs: seq<Goal>)
    ensures |ByCategory(gs, "Mind")| + |ByCategory(gs, "Body")| + |ByCategory(gs, "Spirit")|
            + |ByCategory(gs, "Accountability")| + |Filter((g: Goal) => g.category !in Categories, gs)| == |gs|
    decreases |gs|
  {
    if |gs| > 0 {
      CategoriesPartition(gs[1..]);
    }
  }
}

=== FILE: journal.dfy ===
/** The daily reflection card (`utils/journalCard.tsx`): the keyword summariser used
    when no other summariser is given, the per-day entry lists kept newest first,
    the index of days that have entries, and the control flow of "Analyze & Save".
    The stored values are kept as values: their JSON text is not modelled. */
module Journal {
  import opened Wrappers
  import opened Seqs
  import opened Text

  const IndexKey := "levelup_journal_index"

  /** `JOURNAL_FOR(ymd)`: the key of one day's entries. */
  function DayKey(ymd: string): string {
    "levelup_journal:" + ymd
  }

  /** Distinct days have distinct keys. */
  lemma DayKeyInjective(a: string, b: string)
    requires DayKey(a) == DayKey(b)
    ensures a == b
  {
    assert a == DayKey(a)[16..];
    assert b == DayKey(b)[16..];
  }

  // ---------------------------------------------------------------------
  // The keyword summariser
  // ---------------------------------------------------------------------

  const Positive: seq<string> :=
    ["proud", "happy", "glad", "confident", "excited", "motivated", "focused", "calm", "relieved"]
  const Negative: seq<string> :=
    ["tired", "sad", "stressed", "anxious", "angry", "frustrated", "overwhelmed", "worried"]

  const Motivated := "Motivated"
  const Stressed := "Stressed"
  const Neutral := "Neutral"

  /** The test of `words.filter(w => r.includes(w))`. */
  function OccursIn(r: string): string -> bool {
    (w: string) => Contains(r, w)
  }

  /** How many of the listed words occur in `r`; each word counts once, however often
      it occurs. */
  function Hits(r: string, words: seq<string>): (n: nat)
    ensures n <= |words|
    ensures n == 0 <==> forall k :: 0 <= k < |words| ==> !Contains(r, words[k])
    ensures n == |words| <==> forall k :: 0 <= k < |words| ==> Contains(r, words[k])
    ensures n == |Filter(OccursIn(r), words)|
  {
    if |words| == 0 then 0
    else (if Contains(r, words[0]) then 1 else 0) + Hits(r, words[1..])
  }

  /** A text that holds every word another text holds scores at least as many hits. */
  lemma {:induction false} HitsMonotone(a: string, b: string, words: seq<string>)
    requires forall k :: 0 <= k < |words| && Contains(a, words[k]) ==> Contains(b, words[k])
    ensures Hits(a, words) <= Hits(b, words)
    decreases |words|
  {
    if |words| > 0 {
      HitsMonotone(a, b, words[1..]);
    }
  }

  /** The sentence shown for each emotion. */
  function SummaryFor(emotion: string): string {
    if emotion == Motivated then "You’re building momentum—keep going."
    else if emotion == Stressed then "You showed up despite resistance—small wins matter."
    else "Noted your state—consistency compounds."
  }

  /** `localSummarize(reflection)`: the emotion follows the larger hit count on the
      lower-cased text, and the summary is the fixed sentence for that emotion. */
  function LocalSummarize(reflection: string): (r: (string, string))
    ensures var pos := Hits(Lower(reflection), Positive);
            var neg := Hits(Lower(reflection), Negative);
            && (r.1 == Motivated <==> pos > neg)
            && (r.1 == Stressed <==> neg > pos)
            && (r.1 == Neutral <==> pos == neg)
    ensures r.0 == SummaryFor(r.1)
  {
    var r := Lower(reflection);
    var pos := Hits(r, Positive);
    var neg := Hits(r, Negative);
    var emotion := if pos > neg then Motivated else if neg > pos then Stressed else Neutral;
    (SummaryFor(emotion), emotion)
  }

  /** The summary ignores the wording: two reflections with the same emotion get the
      same summary, and it is one of three sentences. */
  lemma SummaryOnlyByEmotion(a: string, b: string)
    requires LocalSummarize(a).1 == LocalSummarize(b).1
    ensures LocalSummarize(a) == LocalSummarize(b)
    ensures LocalSummarize(a).0 in {SummaryFor(Motivated), SummaryFor(Stressed), SummaryFor(Neutral)}
  {
  }

  /** Capital letters make no difference. */
  lemma SummarizeIgnoresCase(reflection: string)
    ensures LocalSummarize(Lower(reflection)) == LocalSummarize(reflection)
  {
    LowerIdempotent(reflection);
  }

  /** More text never lowers either count: appending to a reflection can only add hits. */
  lemma AppendingAddsHits(a: string, b: string)
    ensures Hits(Lower(a), Positive) <= Hits(Lower(a + b), Positive)
    ensures Hits(Lower(a), Negative) <= Hits(Lower(a + b), Negative)
  {
    LowerConcat(a, b);
    forall w | Contains(Lower(a), w)
      ensures Contains(Lower(a + b), w)
    {
      ContainsExtend(Lower(a), Lower(b), w);
    }
    HitsMonotone(Lower(a), Lower(a + b), Positive);
    HitsMonotone(Lower(a), Lower(a + b), Negative);
  }

  // ---------------------------------------------------------------------
  // Stored entries
  // ---------------------------------------------------------------------

  datatype Entry = Entry(id: string, text: string, summary: string, emotion: string, createdAt: int)

  /** What a day key holds, `{entries: ...}`; `entries` is `None` when the stored
      object has no array there. */
  datatype Day = Day(entries: Option<seq<Entry>>)

  /** The day records by key, and the index of days with entries. */
  datatype Store = Store(days: map<string, Day>, index: Option<seq<string>>)

  /** The card's state. */
  datatype Card = Card(text: string, busy: bool, error: Option<string>,
                       todayEntries: seq<Entry>, recentDates: seq<string>)

  /** The entries a stored day record yields: its array, or none. */
  function EntriesAt(days: map<string, Day>, key: string): seq<Entry> {
    if key in days then days[key].entries.GetOr([]) else []
  }

  /** `saveEntry(entry)`: the entry goes in front of the day's list, and the day joins
      the index unless it is there already; the recent dates are refreshed only when
      it joins. */
  function SaveEntry(c: Card, s: Store, today: string, entry: Entry): (r: (Card, Store))
    ensures EntriesAt(r.1.days, DayKey(today)) == [entry] + EntriesAt(s.days, DayKey(today))
    ensures r.0.todayEntries == EntriesAt(r.1.days, DayKey(today))
    ensures forall k :: k != DayKey(today) ==> (k in r.1.days <==> k in s.days) && (k in s.days ==> r.1.days[k] == s.days[k])
    ensures r.1.index.Some? && today in r.1.index.value
    ensures today in s.index.GetOr([]) ==> r.1.index == s.index && r.0.recentDates == c.recentDates
    ensures today !in s.index.GetOr([]) ==>
              && r.1.index == Some(s.index.GetOr([]) + [today])
              && r.0.recentDates == TakeLast(r.1.index.value, 7)
    ensures NoDuplicates(s.index.GetOr([])) ==> NoDuplicates(r.1.index.value)
    ensures r.0.text == c.text && r.0.busy == c.busy && r.0.error == c.error
  {
    var key := DayKey(today);
    var next := [entry] + EntriesAt(s.days, key);
    var days := s.days[key := Day(Some(next))];
    var idx := s.index.GetOr([]);
    if today in idx then
      (c.(todayEntries := next), Store(days, s.index))
    else
      var idx' := idx + [today];
      AppendFresh(idx, today);
      (c.(todayEntries := next, recentDates := TakeLast(idx', 7)), Store(days, Some(idx')))
  }

  /** The mount effect: the index's last seven days and today's stored entries, each
      taken only when its key holds something. */
  function Load(c: Card, s: Store, today: string): (r: Card)
    ensures s.index.Some? ==> r.recentDates == TakeLast(s.index.value, 7)
    ensures s.index.None? ==> r.recentDates == c.recentDates
    ensures DayKey(today) in s.days ==> r.todayEntries == EntriesAt(s.days, DayKey(today))
    ensures DayKey(today) !in s.days ==> r.todayEntries == c.todayEntries
  {
    c.(recentDates := if s.index.Some? then TakeLast(s.index.value, 7) else c.recentDates,
       todayEntries := if DayKey(today) in s.days then EntriesAt(s.days, DayKey(today)) else c.todayEntries)
  }

  /** What a save leaves in the store, a fresh card loads back; entries saved one
      after another come back newest first. */
  lemma SaveThenLoad(c: Card, s: Store, today: string, entry: Entry, blank: Card)
    ensures var r := SaveEntry(c, s, today, entry);
            && Load(blank, r.1, today).todayEntries == r.0.todayEntries
            && Load(blank, r.1, today).todayEntries[0] == entry
            && Load(blank, r.1, today).recentDates == TakeLast(r.1.index.value, 7)
  {
  }

  /** Saving twice on one day lists the second entry first and adds the day to the
      index only once. */
  lemma SaveTwice(c: Card, s: Store, today: string, first: Entry, second: Entry)
    ensures var r1 := SaveEntry(c, s, today, first);
            var r2 := SaveEntry(r1.0, r1.1, today, second);
            && EntriesAt(r2.1.days, DayKey(today)) == [second, first] + EntriesAt(s.days, DayKey(today))
            && r2.1.index == r1.1.index
  {
    var r1 := SaveEntry(c, s, today, first);
    assert today in r1.1.index.value;
  }

  // ---------------------------------------------------------------------
  // Analyze & Save
  // ---------------------------------------------------------------------

  const EmptyMessage := "Write a short reflection before saving."
  const FailMessage := "Could not analyze right now. Saved locally without AI."
  const FallbackSummary := "Saved your note."

  /** The summariser the card uses: the keyword one, or one passed in, whose promise
      either resolves with a summary and an emotion or rejects. */
  datatype Summarizer = Local | Given(result: Option<(string, string)>)

  /** The `onJournalSaved` prop: absent, or a callback that returns or throws. */
  datatype Hook = NoHook | Returns | Throws

  /** The time and random parts of a new entry. */
  datatype Stamp = Stamp(id: string, createdAt: int)

  datatype Outcome = Outcome(card: Card, store: Store, hookCalled: bool)

  /** `onAnalyzeAndSave`. An empty reflection (after trimming) only sets the error.
      Otherwise the summary is saved with the trimmed text; a rejected summariser,
      or a callback that throws after the save, lands in the `catch`, which sets the
      error and saves a fallback entry. */
  function AnalyzeAndSave(c: Card, s: Store, today: string, summarizer: Summarizer, hook: Hook,
                          first: Stamp, fallback: Stamp): (r: Outcome)
    ensures Strip(JsSpace, c.text) == "" ==> r == Outcome(c.(error := Some(EmptyMessage)), s, false)
    ensures Strip(JsSpace, c.text) != "" ==>
              && !r.card.busy && r.card.text == ""
              && (r.card.error.None? <==> summarizer != Given(None) && hook != Throws)
              && (r.card.error.Some? ==> r.card.error == Some(FailMessage))
    ensures r.hookCalled ==> hook != NoHook && summarizer != Given(None)
  {
    var reflection := Strip(JsSpace, c.text);
    if reflection == "" then Outcome(c.(error := Some(EmptyMessage)), s, false)
    else
      var result := match summarizer case Local => Some(LocalSummarize(reflection)) case Given(res) => res;
      match result
      case None =>
        Fallback(c.(error := None), s, today, reflection, fallback, false)
      case Some(answer) =>
        var saved := SaveEntry(c.(error := None), s, today,
                               Entry(first.id, reflection, answer.0, answer.1, first.createdAt));
        var card := saved.0.(text := "");
        match hook
        case NoHook => Outcome(card.(busy := false), saved.1, false)
        case Returns => Outcome(card.(busy := false), saved.1, true)
        case Throws => Fallback(card, saved.1, today, reflection, fallback, true)
  }

  /** The `catch` and `finally` blocks. */
  function Fallback(c: Card, s: Store, today: string, reflection: string, stamp: Stamp, hookCalled: bool): Outcome {
    var saved := SaveEntry(c.(error := Some(FailMessage)), s, today,
                           Entry(stamp.id, reflection, FallbackSummary, Neutral, stamp.createdAt));
    Outcome(saved.0.(text := "", busy := false), saved.1, hookCalled)
  }

  /** A reflection of white space only is refused: the error is set and nothing is
      saved, sent or cleared. */
  lemma BlankReflectionRefused(c: Card, s: Store, today: string, summarizer: Summarizer, hook: Hook,
                               first: Stamp, fallback: Stamp)
    requires forall k :: 0 <= k < |c.text| ==> JsSpace(c.text[k])
    ensures var r := AnalyzeAndSave(c, s, today, summarizer, hook, first, fallback);
            && r.store == s && !r.hookCalled
            && r.card == c.(error := Some(EmptyMessage))
  {
  }

  /** A summary that arrives is saved as today's newest entry, with the trimmed text,
      the error cleared, and the callback called when there is one that returns. */
  lemma SummarySaved(c: Card, s: Store, today: string, summary: string, emotion: string,
                     hook: Hook, first: Stamp, fallback: Stamp)
    requires Strip(JsSpace, c.text) != "" && hook != Throws
    ensures var r := AnalyzeAndSave(c, s, today, Given(Some((summary, emotion))), hook, first, fallback);
            && EntriesAt(r.store.days, DayKey(today))
               == [Entry(first.id, Strip(JsSpace, c.text), summary, emotion, first.createdAt)]
                  + EntriesAt(s.days, DayKey(today))
            && r.card.error.None? && r.card.text == "" && !r.card.busy
            && (r.hookCalled <==> hook == Returns)
  {
  }

  /** A summariser that rejects still gets the note saved, as a neutral fallback
      entry, with the error shown and no callback. */
  lemma RejectionSavesFallback(c: Card, s: Store, today: string, hook: Hook, first: Stamp, fallback: Stamp)
    requires Strip(JsSpace, c.text) != ""
    ensures var r := AnalyzeAndSave(c, s, today, Given(None), hook, first, fallback);
            && EntriesAt(r.store.days, DayKey(today))
               == [Entry(fallback.id, Strip(JsSpace, c.text), FallbackSummary, Neutral, fallback.createdAt)]
                  + EntriesAt(s.days, DayKey(today))
            && r.card.error == Some(FailMessage) && !r.hookCalled
  {
  }

  /** A callback that throws after a successful save sends the card into the
      `catch` as well, so the one reflection is saved twice: the fallback entry in
      front of the summarised one. */
  lemma ThrowingHookSavesTwice(c: Card, s: Store, today: string, summary: string, emotion: string,
                               first: Stamp, fallback: Stamp)
    requires Strip(JsSpace, c.text) != ""
    ensures var r := AnalyzeAndSave(c, s, today, Given(Some((summary, emotion))), Throws, first, fallback);
            var t := Strip(JsSpace, c.text);
            && EntriesAt(r.store.days, DayKey(today))
               == [Entry(fallback.id, t, FallbackSummary, Neutral, fallback.createdAt),
                   Entry(first.id, t, summary, emotion, first.createdAt)]
                  + EntriesAt(s.days, DayKey(today))
            && r.card.error == Some(FailMessage) && r.hookCalled
  {
    var t := Strip(JsSpace, c.text);
    var e1 := Entry(first.id, t, summary, emotion, first.createdAt);
    var e2 := Entry(fallback.id, t, FallbackSummary, Neutral, fallback.createdAt);
    var saved := SaveEntry(c.(error := None), s, today, e1);
    var card := saved.0.(text := "");
    assert AnalyzeAndSave(c, s, today, Given(Some((summary, emotion))), Throws, first, fallback)
        == Fallback(card, saved.1, today, t, fallback, true);
    var before := EntriesAt(s.days, DayKey(today));
    assert EntriesAt(saved.1.days, DayKey(today)) == [e1] + before;
    assert [e2] + ([e1] + before) == [e2, e1] + before;
  }

  /** Whatever happens, the index of days stays free of repeats. */
  lemma IndexStaysDistinct(c: Card, s: Store, today: string, summarizer: Summarizer, hook: Hook,
                           first: Stamp, fallback: Stamp)
    requires NoDuplicates(s.index.GetOr([]))
    ensures NoDuplicates(AnalyzeAndSave(c, s, today, summarizer, hook, first, fallback).store.index.GetOr([]))
  {
  }

  /** `todayEntries.slice(0, showLastN)`: the newest entries shown. */
  function Shown(c: Card, showLastN: int): (r: seq<Entry>)
    ensures |r| <= |c.todayEntries| && r == c.todayEntries[..|r|]
    ensures showLastN >= 0 ==> |r| == if showLastN < |c.todayEntries| then showLastN else |c.todayEntries|
  {
    SliceFront(c.todayEntries, showLastN)
  }

  /** With the default of three, a fresh save is the first entry shown. */
  lemma NewestShownFirst(c: Card, s: Store, today: string, entry: Entry)
    ensures Shown(SaveEntry(c, s, today, entry).0, 3)[0] == entry
  {
  }
}

=== FILE: json.dfy ===
/** The JSON text the app writes with `JSON.stringify` and reads with
    `JSON.parse`, for the values it stores: null, booleans, integers,
    strings, arrays and objects. `Serialize` produces the compact text
    `JSON.stringify` produces (no white space, the same escapes), and
    `Parse` reads it back: `Parse(Serialize(j)) == Some(j)` is proved below. */
module Json {
  import opened Wrappers
  import opened Numerals

  datatype Json =
    | JNull
    | JBool(b: bool)
    | JInt(i: int)
    | JStr(s: string)
    | JArr(items: seq<Json>)
    | JObj(members: seq<Member>)

  datatype Member = Member(key: string, value: Json)

  // ---------------------------------------------------------------------
  // Strings
  // ---------------------------------------------------------------------

  function HexChar(d: int): (c: char)
    requires 0 <= d < 16
  {
    if d < 10 then DigitChar(d) else (d - 10 + 'a' as int) as char
  }

  predicate IsHex(c: char) {
    IsDigit(c) || 'a' <= c <= 'f' || 'A' <= c <= 'F'
  }

  function HexValue(c: char): (d: int)
    requires IsHex(c)
    ensures 0 <= d < 16
  {
    if IsDigit(c) then DigitValue(c)
    else if 'a' <= c <= 'f' then c as int - 'a' as int + 10
    else c as int - 'A' as int + 10
  }

  /** How `JSON.stringify` writes one character inside a string literal:
      the quote and the backslash are escaped, the control characters get
      their short escape or a lower-case `\u00XX` form, everything else is
      written as is. */
  function EscapeChar(c: char): (e: string)
    ensures 0 < |e|
    ensures e[0] == '\\' || (e == [c] && c != '"' && c as int >= 0x20)
  {
    if c == '"' then "\\\""
    else if c == '\\' then "\\\\"
    else if c == '\U{8}' then "\\b"
    else if c == '\U{C}' then "\\f"
    else if c == '\n' then "\\n"
    else if c == '\r' then "\\r"
    else if c == '\t' then "\\t"
    else if (c as int) < 0x20 then "\\u00" + [HexChar(c as int / 16), HexChar(c as int % 16)]
    else [c]
  }

  function Escape(s: string): string {
    if |s| == 0 then "" else EscapeChar(s[0]) + Escape(s[1..])
  }

  /** `JSON.stringify` of a string. */
  function Quote(s: string): string {
    "\"" + Escape(s) + "\""
  }

  /** The character a one-letter escape stands for. */
  function ShortEscape(c: char): Option<char> {
    if c == '"' then Some('"')
    else if c == '\\' then Some('\\')
    else if c == '/' then Some('/')
    else if c == 'b' then Some('\U{8}')
    else if c == 'f' then Some('\U{C}')
    else if c == 'n' then Some('\n')
    else if c == 'r' then Some('\r')
    else if c == 't' then Some('\t')
    else None
  }

  function Prepend(c: char, r: Option<(string, string)>): Option<(string, string)> {
    match r
    case None => None
    case Some((body, rest)) => Some(([c] + body, rest))
  }

  /** Reads the body of a string literal up to and including its closing quote,
      undoing the escapes. An unescaped control character or a malformed escape
      is a parse error, as in `JSON.parse`. */
  function ParseStrBody(s: string): (r: Option<(string, string)>)
    ensures r.Some? ==> |r.value.1| < |s|
    decreases |s|
  {
    if |s| == 0 then None
    else if s[0] == '"' then Some(([], s[1..]))
    else if s[0] == '\\' then
      if |s| < 2 then None
      else if s[1] == 'u' then
        if |s| < 6 || !IsHex(s[2]) || !IsHex(s[3]) || !IsHex(s[4]) || !IsHex(s[5]) then None
        else
          var code := HexValue(s[2]) * 4096 + HexValue(s[3]) * 256 + HexValue(s[4]) * 16 + HexValue(s[5]);
          if 0xD800 <= code < 0xE000 then None
          else Prepend(code as char, ParseStrBody(s[6..]))
      else
        match ShortEscape(s[1])
        case None => None
        case Some(c) => Prepend(c, ParseStrBody(s[2..]))
    else if (s[0] as int) < 0x20 then None
    else Prepend(s[0], ParseStrBody(s[1..]))
  }

  lemma EscapeCharRead(c: char, rest: string)
    ensures ParseStrBody(EscapeChar(c) + rest) == Prepend(c, ParseStrBody(rest))
  {
    var e := EscapeChar(c);
    var t := e + rest;
    if e == [c] {
      assert t[0] == c && t[1..] == rest;
    } else if |e| == 2 {
      assert t[0] == '\\' && t[1] == e[1] && t[2..] == rest;
    } else {
      var code := c as int;
      assert t[0] == '\\' && t[1] == 'u' && t[2] == '0' && t[3] == '0';
      assert t[4] == HexChar(code / 16) && t[5] == HexChar(code % 16);
      assert t[6..] == rest;
    }
  }

  lemma {:induction false} ParseEscaped(s: string, rest: string)
    ensures ParseStrBody(Escape(s) + "\"" + rest) == Some((s, rest))
    decreases |s|
  {
    if |s| == 0 {
      assert Escape(s) + "\"" + rest == "\"" + rest;
    } else {
      assert Escape(s) + "\"" + rest == EscapeChar(s[0]) + (Escape(s[1..]) + "\"" + rest);
      EscapeCharRead(s[0], Escape(s[1..]) + "\"" + rest);
      ParseEscaped(s[1..], rest);
      assert [s[0]] + s[1..] == s;
    }
  }

  // ---------------------------------------------------------------------
  // Values
  // ---------------------------------------------------------------------

  /** `JSON.stringify(j)`. */
  function Serialize(j: Json): string
    decreases j
  {
    match j
    case JNull => "null"
    case JBool(b) => if b then "true" else "false"
    case JInt(i) => IntText(i)
    case JStr(s) => Quote(s)
    case JArr(items) => "[" + SerializeItems(items) + "]"
    case JObj(members) => "{" + SerializeMembers(members) + "}"
  }

  function SerializeItems(items: seq<Json>): string
    decreases items
  {
    if |items| == 0 then ""
    else if |items| == 1 then Serialize(items[0])
    else Serialize(items[0]) + "," + SerializeItems(items[1..])
  }

  function SerializeMembers(members: seq<Member>): string
    decreases members
  {
    if |members| == 0 then ""
    else
      var m := members[0];
      var first := Quote(m.key) + ":" + Serialize(m.value);
      if |members| == 1 then first else first + "," + SerializeMembers(members[1..])
  }

  predicate StartsWith(s: string, prefix: string) {
    |prefix| <= |s| && s[..|prefix|] == prefix
  }

  /** Reads one value from the front of `s`, returning it and the text after it. */
  function ParseValue(s: string): (r: Option<(Json, string)>)
    ensures r.Some? ==> |r.value.1| < |s|
    decreases |s|, 0
  {
    if |s| == 0 then None
    else if s[0] == '[' then ParseArr(s[1..])
    else if s[0] == '{' then ParseObj(s[1..])
    else ParseAtom(s)
  }

  /** Reads a value that is not an array or an object: a literal, a string or an integer. */
  function ParseAtom(s: string): (r: Option<(Json, string)>)
    ensures r.Some? ==> |r.value.1| < |s|
  {
    if |s| == 0 then None
    else if StartsWith(s, "null") then Some((JNull, s[4..]))
    else if StartsWith(s, "true") then Some((JBool(true), s[4..]))
    else if StartsWith(s, "false") then Some((JBool(false), s[5..]))
    else if s[0] == '"' then
      match ParseStrBody(s[1..])
      case None => None
      case Some((str, rest)) => Some((JStr(str), rest))
    else if s[0] == '-' || IsDigit(s[0]) then
      match ParseInt(s)
      case None => None
      case Some((i, rest)) => Some((JInt(i), rest))
    else None
  }

  /** Reads what follows `[`: either `]` or `v1,...,vn]`. */
  function ParseArr(u: string): (r: Option<(Json, string)>)
    ensures r.Some? ==> |r.value.1| < |u|
    decreases |u|, 2
  {
    if 0 < |u| && u[0] == ']' then Some((JArr([]), u[1..]))
    else
      match ParseItems(u)
      case None => None
      case Some((items, rest)) => Some((JArr(items), rest))
  }

  /** Reads what follows `{`: either `}` or `"k1":v1,...,"kn":vn}`. */
  function ParseObj(u: string): (r: Option<(Json, string)>)
    ensures r.Some? ==> |r.value.1| < |u|
    decreases |u|, 2
  {
    if 0 < |u| && u[0] == '}' then Some((JObj([]), u[1..]))
    else
      match ParseMembers(u)
      case None => None
      case Some((members, rest)) => Some((JObj(members), rest))
  }

  /** Reads `v1,v2,...,vn]` (n >= 1). */
  function ParseItems(s: string): (r: Option<(seq<Json>, string)>)
    ensures r.Some? ==> |r.value.1| < |s|
    decreases |s|, 1
  {
    match ParseValue(s)
    case None => None
    case Some((v, rest)) =>
      if 0 < |rest| && rest[0] == ',' then
        match ParseItems(rest[1..])
        case None => None
        case Some((vs, rest')) => Some(([v] + vs, rest'))
      else if 0 < |rest| && rest[0] == ']' then Some(([v], rest[1..]))
      else None
  }

  /** Reads `"k1":v1,...,"kn":vn}` (n >= 1). */
  function ParseMembers(s: string): (r: Option<(seq<Member>, string)>)
    ensures r.Some? ==> |r.value.1| < |s|
    decreases |s|, 1
  {
    if |s| == 0 || s[0] != '"' then None
    else
      match ParseStrBody(s[1..])
      case None => None
      case Some((key, afterKey)) =>
        if |afterKey| == 0 || afterKey[0] != ':' then None
        else
          match ParseValue(afterKey[1..])
          case None => None
          case Some((v, rest)) =>
            if 0 < |rest| && rest[0] == ',' then
              match ParseMembers(rest[1..])
              case None => None
              case Some((ms, rest')) => Some(([Member(key, v)] + ms, rest'))
            else if 0 < |rest| && rest[0] == '}' then Some(([Member(key, v)], rest[1..]))
            else None
  }

  /** `JSON.parse(s)`, for text without insignificant white space. */
  function Parse(s: string): Option<Json> {
    match ParseValue(s)
    case None => None
    case Some((j, rest)) => if |rest| == 0 then Some(j) else None
  }

  // ---------------------------------------------------------------------
  // Round trip
  // ---------------------------------------------------------------------

  /** What may follow a value inside JSON text. */
  predicate Delimited(rest: string) {
    |rest| == 0 || rest[0] == ',' || rest[0] == ']' || rest[0] == '}'
  }

  lemma SerializeHead(j: Json)
    ensures 0 < |Serialize(j)|
    ensures Serialize(j)[0] != ']' && Serialize(j)[0] != '}'
  {
    match j
    case JInt(i) =>
    case JStr(s) =>
    case JArr(items) =>
    case JObj(ms) =>
    case _ =>
  }

  lemma {:induction false} ParseSerialize(j: Json, rest: string)
    requires Delimited(rest)
    ensures ParseValue(Serialize(j) + rest) == Some((j, rest))
    decreases j, 1
  {
    match j
    case JArr(items) => ParseSerializeArr(items, rest);
    case JObj(ms) => ParseSerializeObj(ms, rest);
    case JStr(s) => ParseSerializeStr(s, rest);
    case _ => ParseSerializeScalar(j, rest);
  }

  lemma ParseSerializeScalar(j: Json, rest: string)
    requires j.JNull? || j.JBool? || j.JInt?
    requires Delimited(rest)
    ensures ParseValue(Serialize(j) + rest) == Some((j, rest))
  {
    var t := Serialize(j) + rest;
    match j
    case JNull =>
      assert StartsWith(t, "null") && t[4..] == rest;
    case JBool(b) =>
      if b {
        assert StartsWith(t, "true") && t[4..] == rest;
      } else {
        NotStartsWith(t, "null");
        NotStartsWith(t, "true");
        assert StartsWith(t, "false") && t[5..] == rest;
      }
    case JInt(i) =>
      assert t[0] == IntText(i)[0];
      NotStartsWith(t, "null");
      NotStartsWith(t, "true");
      NotStartsWith(t, "false");
      ParseIntText(i, rest);
  }

  lemma ParseSerializeStr(s: string, rest: string)
    ensures ParseValue(Serialize(JStr(s)) + rest) == Some((JStr(s), rest))
  {
    var t := Serialize(JStr(s)) + rest;
    assert t[0] == '"';
    NotStartsWith(t, "null");
    NotStartsWith(t, "true");
    NotStartsWith(t, "false");
    assert t[1..] == Escape(s) + "\"" + rest;
    ParseEscaped(s, rest);
  }

  lemma {:induction false} ParseSerializeArr(items: seq<Json>, rest: string)
    ensures ParseValue(Serialize(JArr(items)) + rest) == Some((JArr(items), rest))
    decreases JArr(items), 0
  {
    var u := SerializeItems(items) + "]" + rest;
    Opening('[', u);
    assert Serialize(JArr(items)) + rest == "[" + u;
    if |items| == 0 {
      assert u == "]" + rest;
      assert u[1..] == rest;
    } else {
      SerializeHead(items[0]);
      assert u[0] == Serialize(items[0])[0];
      ParseSerializeItems(items, rest);
    }
  }

  /** `ParseValue` hands what follows an opening bracket or brace to `ParseArr` or `ParseObj`. */
  lemma Opening(c: char, u: string)
    requires c == '[' || c == '{'
    ensures ParseValue([c] + u) == if c == '[' then ParseArr(u) else ParseObj(u)
  {
    var t := [c] + u;
    assert t[0] == c && t[1..] == u;
  }

  lemma {:induction false} ParseSerializeObj(ms: seq<Member>, rest: string)
    ensures ParseValue(Serialize(JObj(ms)) + rest) == Some((JObj(ms), rest))
    decreases JObj(ms), 0
  {
    var u := SerializeMembers(ms) + "}" + rest;
    Opening('{', u);
    assert Serialize(JObj(ms)) + rest == "{" + u;
    if |ms| == 0 {
      assert u == "}" + rest;
      assert u[1..] == rest;
    } else {
      assert u[0] == Quote(ms[0].key)[0];
      ParseSerializeMembers(ms, rest);
    }
  }

  lemma {:induction false} ParseSerializeItems(items: seq<Json>, rest: string)
    requires 0 < |items|
    ensures ParseItems(SerializeItems(items) + "]" + rest) == Some((items, rest))
    decreases items, 0
  {
    var a := Serialize(items[0]);
    if |items| == 1 {
      assert SerializeItems(items) + "]" + rest == a + ("]" + rest);
      ParseSerialize(items[0], "]" + rest);
      ItemsLast(a, items[0], rest);
      assert [items[0]] == items;
    } else {
      var tail := SerializeItems(items[1..]) + "]" + rest;
      assert SerializeItems(items) + "]" + rest == a + ("," + tail);
      ParseSerialize(items[0], "," + tail);
      ParseSerializeItems(items[1..], rest);
      ItemsStep(a, items[0], tail);
      assert [items[0]] + items[1..] == items;
    }
  }

  /** `ParseItems` after the last item: the closing bracket ends the list. */
  lemma ItemsLast(a: string, v: Json, rest: string)
    requires ParseValue(a + ("]" + rest)) == Some((v, "]" + rest))
    ensures ParseItems(a + ("]" + rest)) == Some(([v], rest))
  {
    assert ("]" + rest)[1..] == rest;
  }

  /** `ParseItems` after an item followed by a comma: the rest of the list is read next. */
  lemma ItemsStep(a: string, v: Json, tail: string)
    requires ParseValue(a + ("," + tail)) == Some((v, "," + tail))
    requires ParseItems(tail).Some?
    ensures ParseItems(a + ("," + tail)) == Some(([v] + ParseItems(tail).value.0, ParseItems(tail).value.1))
  {
    assert ("," + tail)[1..] == tail;
  }

  lemma {:induction false} ParseSerializeMembers(ms: seq<Member>, rest: string)
    requires 0 < |ms|
    ensures ParseMembers(SerializeMembers(ms) + "}" + rest) == Some((ms, rest))
    decreases ms, 1
  {
    if |ms| == 1 {
      ParseLastMember(ms, rest);
    } else {
      ParseSerializeMembers(ms[1..], rest);
      ParseMoreMembers(ms, rest);
    }
  }

  lemma {:induction false} ParseLastMember(ms: seq<Member>, rest: string)
    requires |ms| == 1
    ensures ParseMembers(SerializeMembers(ms) + "}" + rest) == Some((ms, rest))
    decreases ms, 0
  {
    var m := ms[0];
    var after := "}" + rest;
    assert SerializeMembers(ms) + "}" + rest == Quote(m.key) + ":" + Serialize(m.value) + after;
    ParseMember(m, after);
    assert [m] == ms;
  }

  lemma {:induction false} ParseMoreMembers(ms: seq<Member>, rest: string)
    requires 1 < |ms|
    requires ParseMembers(SerializeMembers(ms[1..]) + "}" + rest) == Some((ms[1..], rest))
    ensures ParseMembers(SerializeMembers(ms) + "}" + rest) == Some((ms, rest))
    decreases ms, 0
  {
    var m := ms[0];
    var tail := SerializeMembers(ms[1..]) + "}" + rest;
    assert SerializeMembers(ms) + "}" + rest == Quote(m.key) + ":" + Serialize(m.value) + ("," + tail) by {
      SerializeMembersCons(ms);
    }
    ConsMember(m, ms[1..], tail, rest);
    assert [m] + ms[1..] == ms;
  }

  /** A member, a comma and a member list that reads back read back as the longer list. */
  lemma ConsMember(m: Member, ms: seq<Member>, tail: string, rest: string)
    requires ParseMembers(tail) == Some((ms, rest))
    ensures ParseMembers(Quote(m.key) + ":" + Serialize(m.value) + ("," + tail)) == Some(([m] + ms, rest))
    decreases m, 1
  {
    ParseMember(m, "," + tail);
    MemberThenComma(m, tail);
  }

  lemma SerializeMembersCons(ms: seq<Member>)
    requires 1 < |ms|
    ensures SerializeMembers(ms) == Quote(ms[0].key) + ":" + Serialize(ms[0].value) + "," + SerializeMembers(ms[1..])
  {
  }

  lemma MemberThenComma(m: Member, tail: string)
    requires ParseMembers(tail).Some?
    ensures MemberThen(m, "," + tail) == Some(([m] + ParseMembers(tail).value.0, ParseMembers(tail).value.1))
  {
    assert ("," + tail)[1..] == tail;
  }

  /** Reading one `"key":value` pair: the key, the colon and the value are consumed
      and `after` is left, starting with `,` or `}`. */
  lemma {:induction false} ParseMember(m: Member, after: string)
    requires 0 < |after| && (after[0] == ',' || after[0] == '}')
    ensures ParseMembers(Quote(m.key) + ":" + Serialize(m.value) + after) == MemberThen(m, after)
    decreases m, 0
  {
    var w := Serialize(m.value) + after;
    var body := Escape(m.key) + "\"" + (":" + w);
    assert Quote(m.key) + ":" + Serialize(m.value) + after == "\"" + body;
    assert ParseStrBody(body) == Some((m.key, ":" + w)) by {
      ParseEscaped(m.key, ":" + w);
    }
    assert ParseValue(w) == Some((m.value, after)) by {
      ParseSerialize(m.value, after);
    }
    MemberStep(body, m.key, w, m.value, after);
  }

  /** `ParseMembers` on a key whose closing quote is followed by a colon and a value. */
  lemma MemberStep(body: string, key: string, w: string, v: Json, after: string)
    requires ParseStrBody(body) == Some((key, ":" + w))
    requires ParseValue(w) == Some((v, after)) && 0 < |after|
    ensures ParseMembers("\"" + body) == MemberThen(Member(key, v), after)
  {
    var t := "\"" + body;
    assert t[0] == '"' && t[1..] == body;
    assert (":" + w)[1..] == w;
  }

  /** What `ParseMembers` returns once it has read member `m` and reached `after`. */
  function MemberThen(m: Member, after: string): Option<(seq<Member>, string)>
    requires 0 < |after|
  {
    if after[0] == '}' then Some(([m], after[1..]))
    else if after[0] == ',' then
      match ParseMembers(after[1..])
      case None => None
      case Some((ms, rest')) => Some(([m] + ms, rest'))
    else None
  }

  lemma NotStartsWith(s: string, p: string)
    requires 0 < |p| && 0 < |s| && s[0] != p[0]
    ensures !StartsWith(s, p)
  {
    assert |p| <= |s| ==> s[..|p|][0] == s[0];
  }

  /** `JSON.parse(JSON.stringify(j))` gives `j` back. */
  lemma ParseOfSerialize(j: Json)
    ensures Parse(Serialize(j)) == Some(j)
  {
    ParseSerialize(j, "");
    assert Serialize(j) + "" == Serialize(j);
  }

  /** `obj[key]` on an object `JSON.parse` built: when a key repeats, the last one wins. */
  function Lookup(ms: seq<Member>, key: string): (r: Option<Json>)
    ensures r.None? <==> forall i :: 0 <= i < |ms| ==> ms[i].key != key
    ensures r.Some? ==> exists i :: 0 <= i < |ms| && ms[i] == Member(key, r.value)
  {
    if |ms| == 0 then None
    else if ms[|ms| - 1].key == key then Some(ms[|ms| - 1].value)
    else
      var r := Lookup(ms[..|ms| - 1], key);
      assert forall i :: 0 <= i < |ms| - 1 ==> ms[..|ms| - 1][i] == ms[i];
      r
  }

  /** A key that occurs once is found with its own value. */
  lemma {:induction false} LookupUnique(ms: seq<Member>, i: nat)
    requires i < |ms|
    requires forall j :: 0 <= j < |ms| && j != i ==> ms[j].key != ms[i].key
    ensures Lookup(ms, ms[i].key) == Some(ms[i].value)
    decreases |ms|
  {
    if i < |ms| - 1 {
      LookupUnique(ms[..|ms| - 1], i);
    }
  }
}

=== FILE: legacy_dungeon.dfy ===
/** The older dungeon screen (`levelUp/screens/DungeonScreen.tsx`), a counter gated
    on the single character level, and the older character sprite
    (`levelUp/utils/character.tsx`), chosen by thresholds on the dungeon level. */
module LegacyDungeon {
  import opened Storage
  import LegacyProgress

  /** The counter's first value. */
  const FirstDungeon := 1

  /** `levelRequired`. */
  function LevelRequired(counter: int): int {
    counter * 2
  }

  /** `canEnter`: the character level, a JavaScript number, against the requirement. */
  function CanEnter(level: Num, counter: int): (ok: bool)
    ensures ok <==> level.Finite? && level.v >= 2 * counter
  {
    match level
    case NaN => false
    case Finite(l) => l >= LevelRequired(counter)
  }

  /** A press of the advance button, which is on screen only while `canEnter` holds;
      each press moves the counter on by exactly one. */
  function Press(level: Num, counter: int): (r: int)
    ensures r == counter || r == counter + 1
    ensures r == counter + 1 <==> CanEnter(level, counter)
  {
    if CanEnter(level, counter) then counter + 1 else counter
  }

  /** `n` presses in a row with the level held. */
  function PressN(level: Num, counter: int, n: nat): int
    decreases n
  {
    if n == 0 then counter else PressN(level, Press(level, counter), n - 1)
  }

  /** From any counter the level allows, presses climb one at a time and stop at
      `level / 2 + 1`, the first counter whose requirement is above the level. */
  lemma {:induction false} PressesStop(l: int, counter: int, n: nat)
    requires 1 <= counter <= l / 2 + 1
    ensures PressN(Finite(l), counter, n) == if counter + n < l / 2 + 1 then counter + n else l / 2 + 1
    decreases n
  {
    if n > 0 {
      PressesStop(l, Press(Finite(l), counter), n - 1);
    }
  }

  /** Starting from the first counter, a character of level `l >= 0` ends up able to
      reach exactly counter `l / 2 + 1`, however many more presses follow. */
  lemma FromFirstDungeon(l: int, n: nat)
    requires l >= 0 && n >= l / 2
    ensures PressN(Finite(l), FirstDungeon, n) == l / 2 + 1
  {
    PressesStop(l, FirstDungeon, n);
  }

  /** A level that reads back as NaN shuts the gate for good. */
  lemma NaNLevelNeverAdvances(counter: int, n: nat)
    ensures PressN(NaN, counter, n) == counter
    decreases n
  {
  }

  /** The gate reads the same level the older context reloads after `addXp`. */
  lemma GateAfterReload(ctx: LegacyProgress.Context, amount: int, counter: int)
    ensures var after := LegacyProgress.Gain(ctx, amount);
            CanEnter(LegacyProgress.Load(LegacyProgress.Initial, after.store).level, counter)
            == CanEnter(after.state.level, counter)
  {
    LegacyProgress.AddXpSurvivesReload(ctx, amount);
  }

  // ---------------------------------------------------------------------
  // Character sprite
  // ---------------------------------------------------------------------

  datatype Sprite = StageOne | StageTwo | StageThree

  /** The sprite for a dungeon level: `<= 10`, then `<= 25`, else the third stage. A
      NaN or undefined level fails both comparisons. */
  function SpriteFor(d: Num): (s: Sprite)
    ensures s == StageOne <==> d.Finite? && d.v <= 10
    ensures s == StageTwo <==> d.Finite? && 11 <= d.v <= 25
    ensures s == StageThree <==> d.NaN? || d.v > 25
  {
    if d.Finite? && d.v <= 10 then StageOne
    else if d.Finite? && d.v <= 25 then StageTwo
    else StageThree
  }

  function SpriteRank(s: Sprite): nat {
    match s
    case StageOne => 1
    case StageTwo => 2
    case StageThree => 3
  }

  /** Higher dungeon levels never give an earlier sprite. */
  lemma SpriteMonotone(a: int, b: int)
    requires a <= b
    ensures SpriteRank(SpriteFor(Finite(a))) <= SpriteRank(SpriteFor(Finite(b)))
  {
  }

  /** The older context has no dungeon level at all, so the sprite read through it is
      always the third stage. */
  lemma SpriteWithoutDungeonLevel()
    ensures SpriteFor(NaN) == StageThree
  {
  }
}

=== FILE: legacy_progress.dfy ===
/** The older single-track progress store (`levelUp/context/XPContext.tsx`): one
    XP count and one level, a flat 100 XP per level, both kept in the store as
    `toString` text and read back with `Number`. The context offers only `addXp`
    and `changeLevel`; the screens of the same app also call functions it does not
    define, which `Apply` models as a thrown TypeError. */
module LegacyProgress {
  import opened Numerals
  import opened Storage
  import opened Goals

  const XpKey := "levelup_xp"
  const LevelKey := "levelup_level"
  const XpPerLevel := 100

  /** The context's values: JavaScript numbers, so a NaN read from the store is kept. */
  datatype State = State(xp: Num, level: Num)

  datatype Context = Context(state: State, store: Store)

  const Initial := State(Finite(0), Finite(0))

  /** `n.toString()`: integers in decimal, NaN as the text `NaN`. */
  function NumString(n: Num): (s: string)
    ensures s != ""
  {
    match n
    case NaN => "NaN"
    case Finite(v) => IntText(v)
  }

  /** `Number` reads back whatever `toString` wrote, NaN included. */
  lemma NumberOfNumString(n: Num)
    ensures Number(NumString(n)) == n
  {
    match n
    case NaN =>
      assert !IsDigit("NaN"[0]);
      assert DigitRun("NaN") == 0;
    case Finite(v) =>
      NumberOfIntText(v);
  }

  /** `loadProgress`: a stored value that is present and non-empty replaces the
      current one through `Number`; otherwise the current value stays. */
  function Load(s: State, store: Store): (r: State)
    ensures !Truthy(store, XpKey) ==> r.xp == s.xp
    ensures !Truthy(store, LevelKey) ==> r.level == s.level
    ensures Truthy(store, XpKey) ==> r.xp == Number(store[XpKey])
    ensures Truthy(store, LevelKey) ==> r.level == Number(store[LevelKey])
  {
    State(if Truthy(store, XpKey) then Number(store[XpKey]) else s.xp,
          if Truthy(store, LevelKey) then Number(store[LevelKey]) else s.level)
  }

  /** Writes both values as `addXp` does. */
  function Save(store: Store, s: State): Store {
    store[XpKey := NumString(s.xp)][LevelKey := NumString(s.level)]
  }

  /** Whatever a state was saved over, loading the store gives that state back. */
  lemma LoadOfSave(s0: State, store: Store, s: State)
    ensures Load(s0, Save(store, s)) == s
  {
    NumberOfNumString(s.xp);
    NumberOfNumString(s.level);
  }

  /** Closed form of `addXp(amount)`. NaN XP stays NaN and stops the loop; otherwise
      the sum is split into whole hundreds, which go to the level, and the rest. */
  function Gain(ctx: Context, amount: int): (r: Context)
    ensures r.store == Save(ctx.store, r.state)
  {
    var s := match ctx.state.xp
      case NaN => ctx.state
      case Finite(x) =>
        var total := x + amount;
        if total < XpPerLevel then State(Finite(total), ctx.state.level)
        else State(Finite(total % XpPerLevel), AddNum(ctx.state.level, total / XpPerLevel));
    Context(s, Save(ctx.store, s))
  }

  /** `addXp(amount)`: add to the XP, then take 100 off and add a level while the XP
      is at least 100; store both as text. */
  method AddXp(ctx: Context, amount: int) returns (r: Context)
    ensures r.store == Save(ctx.store, r.state)
    ensures ctx.state.xp.NaN? ==> r.state == ctx.state
    ensures ctx.state.level.NaN? ==> r.state.level.NaN?
    ensures ctx.state.xp.Finite? ==> r.state.xp.Finite?
    ensures ctx.state.xp.Finite? && ctx.state.xp.v + amount < XpPerLevel ==>
              r.state == State(Finite(ctx.state.xp.v + amount), ctx.state.level)
    ensures ctx.state.xp.Finite? && ctx.state.xp.v + amount >= 0 ==>
              var total := ctx.state.xp.v + amount;
              && 0 <= r.state.xp.v < XpPerLevel
              && r.state.xp.v == total % XpPerLevel
              && r.state.level == AddNum(ctx.state.level, total / XpPerLevel)
    ensures ctx.state.xp.Finite? && ctx.state.level.Finite? ==>
              XpPerLevel * r.state.level.v + r.state.xp.v
                == XpPerLevel * ctx.state.level.v + ctx.state.xp.v + amount
    ensures r == Gain(ctx, amount)
  {
    var newXp := AddNum(ctx.state.xp, amount);
    var newLevel := ctx.state.level;
    ghost var steps := 0;
    while newXp.Finite? && newXp.v >= XpPerLevel
      invariant newXp.Finite? <==> ctx.state.xp.Finite?
      invariant steps >= 0
      invariant newXp.Finite? ==> newXp.v + XpPerLevel * steps == ctx.state.xp.v + amount
      invariant steps > 0 ==> newXp.Finite? && newXp.v >= 0
      invariant newLevel == AddNum(ctx.state.level, steps)
      decreases if newXp.Finite? then newXp.v else 0
    {
      newXp := Finite(newXp.v - XpPerLevel);
      newLevel := AddNum(newLevel, 1);
      steps := steps + 1;
    }
    if newXp.Finite? {
      var total := ctx.state.xp.v + amount;
      if total >= 0 {
        DivModUnique(total, XpPerLevel, steps, newXp.v);
      }
      if total >= XpPerLevel {
        assert steps > 0;
      }
    }
    var s := State(newXp, newLevel);
    r := Context(s, Save(ctx.store, s));
  }

  /** `changeLevel(l)`: sets and stores the level; the XP is untouched. */
  function ChangeLevel(ctx: Context, l: int): (r: Context)
    ensures r.state.xp == ctx.state.xp && r.state.level == Finite(l)
    ensures r.store == ctx.store[LevelKey := IntText(l)]
  {
    Context(ctx.state.(level := Finite(l)), ctx.store[LevelKey := IntText(l)])
  }

  /** A level set by `changeLevel` is read back on the next launch, and so is an XP
      written before it. */
  lemma ChangeLevelSurvivesReload(ctx: Context, amount: int, l: int)
    ensures var r := ChangeLevel(Gain(ctx, amount), l);
            Load(Initial, r.store) == r.state
  {
    var g := Gain(ctx, amount);
    LoadOfSave(Initial, ctx.store, g.state);
    NumberOfIntText(l);
    NumberOfNumString(g.state.xp);
    assert ChangeLevel(g, l).store == Save(ctx.store, g.state.(level := Finite(l)));
  }

  /** After `addXp`, the next launch reads back exactly the state the call left. */
  lemma AddXpSurvivesReload(ctx: Context, amount: int)
    ensures Load(Initial, Gain(ctx, amount).store) == Gain(ctx, amount).state
  {
    LoadOfSave(Initial, ctx.store, Gain(ctx, amount).state);
  }

  /** 250 XP from a fresh start gives level 2 with 50 XP. */
  lemma HundredsExample(store: Store)
    ensures Gain(Context(Initial, store), 250).state == State(Finite(50), Finite(2))
  {
  }

  /** The outcome of a screen calling into this context: a defined function runs;
      calling one the context does not provide throws before anything changes. */
  datatype Outcome = Done(ctx: Context) | NotAFunction

  /** What each screen call does here: `addXp(amount, skill)` ignores the skill index
      (this `addXp` takes one argument), and `changeStreak`, `changeGoals` and
      `changeTomorrowSaved` are undefined. */
  function Apply(ctx: Context, call: Call): (r: Outcome)
    ensures r.Done? <==> call.AddXp?
    ensures r.Done? ==> r.ctx == Gain(ctx, call.amount)
  {
    match call
    case AddXp(amount, _) => Done(Gain(ctx, amount))
    case _ => NotAFunction
  }

  /** The calls one event handler makes, in order. Every `addXp` computes from the
      `xp` and `level` of the render the handler closes over, so each starts from
      `ctx.state`, and the last one's values are what remains set and stored. The
      first undefined call throws and ends the handler, keeping what the calls
      before it did. */
  function ApplyAll(ctx: Context, calls: seq<Call>): (r: (Context, bool))
    ensures r.1 <==> forall k :: 0 <= k < |calls| ==> calls[k].AddXp?
    ensures |calls| > 0 && !calls[0].AddXp? ==> r == (ctx, false)
  {
    Run(ctx.state, ctx, calls)
  }

  /** The handler's calls from `calls` on, with `render` the state its closures read
      and `ctx` what the calls so far have left. */
  function Run(render: State, ctx: Context, calls: seq<Call>): (r: (Context, bool))
    ensures r.1 <==> forall k :: 0 <= k < |calls| ==> calls[k].AddXp?
    ensures |calls| > 0 && !calls[0].AddXp? ==> r == (ctx, false)
    decreases |calls|
  {
    if |calls| == 0 then (ctx, true)
    else
      match Apply(Context(render, ctx.store), calls[0])
      case NotAFunction => (ctx, false)
      case Done(next) => Run(render, next, calls[1..])
  }

  /** Saving twice over the same keys leaves only the second save. */
  lemma SaveOverSave(store: Store, s0: State, s1: State)
    ensures Save(Save(store, s0), s1) == Save(store, s1)
  {
  }

  /** In one handler only the last award counts: each reads the same render, and the
      last one's values overwrite the others' in the state and in the store. */
  lemma {:induction false} LastAwardWins(render: State, ctx: Context, calls: seq<Call>)
    requires |calls| > 0 && forall k :: 0 <= k < |calls| ==> calls[k].AddXp?
    ensures Run(render, ctx, calls) == (Gain(Context(render, ctx.store), calls[|calls| - 1].amount), true)
    decreases |calls|
  {
    var next := Gain(Context(render, ctx.store), calls[0].amount);
    assert Run(render, ctx, calls) == Run(render, next, calls[1..]);
    if |calls| > 1 {
      LastAwardWins(render, next, calls[1..]);
      SaveOverSave(ctx.store, next.state, Gain(Context(render, ctx.store), calls[|calls| - 1].amount).state);
    }
  }

  /** Awards that all go through, followed by a call this context lacks, leave the
      context where the awards left it. */
  lemma {:induction false} ThrowEndsRun(render: State, ctx: Context, calls: seq<Call>, last: Call)
    requires forall k :: 0 <= k < |calls| ==> calls[k].AddXp?
    requires !last.AddXp?
    ensures Run(render, ctx, calls + [last]) == (Run(render, ctx, calls).0, false)
    decreases |calls|
  {
    if |calls| == 0 {
      assert calls + [last] == [last];
    } else {
      assert (calls + [last])[1..] == calls[1..] + [last];
      ThrowEndsRun(render, Gain(Context(render, ctx.store), calls[0].amount), calls[1..], last);
    }
  }

  /** A handler's calls write no key but the XP and level keys, whether they finish
      or throw. */
  lemma ApplyAllWritesProgressOnly(ctx: Context, calls: seq<Call>)
    ensures var r := ApplyAll(ctx, calls).0;
            forall k :: k != XpKey && k != LevelKey ==>
              (k in r.store <==> k in ctx.store) && (k in ctx.store ==> r.store[k] == ctx.store[k])
  {
    RunWritesProgressOnly(ctx.state, ctx, calls);
  }

  lemma {:induction false} RunWritesProgressOnly(render: State, ctx: Context, calls: seq<Call>)
    ensures var r := Run(render, ctx, calls).0;
            forall k :: k != XpKey && k != LevelKey ==>
              (k in r.store <==> k in ctx.store) && (k in ctx.store ==> r.store[k] == ctx.store[k])
    decreases |calls|
  {
    if |calls| > 0 && calls[0].AddXp? {
      var next := Gain(Context(render, ctx.store), calls[0].amount);
      assert Run(render, ctx, calls) == Run(render, next, calls[1..]);
      assert next.store == ctx.store[XpKey := NumString(next.state.xp)][LevelKey := NumString(next.state.level)];
      RunWritesProgressOnly(render, next, calls[1..]);
      var r := Run(render, next, calls[1..]).0;
      forall k | k != XpKey && k != LevelKey
        ensures (k in r.store <==> k in ctx.store) && (k in ctx.store ==> r.store[k] == ctx.store[k])
      {
        assert (k in next.store <==> k in ctx.store) && (k in ctx.store ==> next.store[k] == ctx.store[k]);
      }
    }
  }

  /** Awards of different skills all land on the one XP track. */
  lemma AwardsShareOneTrack(ctx: Context, a: int, i: int, j: int)
    ensures Apply(ctx, Call.AddXp(a, i)) == Apply(ctx, Call.AddXp(a, j))
  {
  }
}

=== FILE: numerals.dfy ===
/** Decimal text of integers: how JavaScript prints an integer (`toString`,
    `String(n)`, `JSON.stringify(n)`), `padStart` with zeros, and reading the
    digits back. */
module Numerals {
  import opened Wrappers

  predicate IsDigit(c: char) {
    '0' <= c <= '9'
  }

  predicate AllDigits(s: string) {
    forall i :: 0 <= i < |s| ==> IsDigit(s[i])
  }

  function DigitChar(d: int): (c: char)
    requires 0 <= d < 10
    ensures IsDigit(c) && c as int - '0' as int == d
  {
    (d + '0' as int) as char
  }

  function DigitValue(c: char): (d: int)
    requires IsDigit(c)
    ensures 0 <= d < 10
  {
    c as int - '0' as int
  }

  /** The decimal text of a natural number, most significant digit first, no leading zeros. */
  function NatText(n: nat): (s: string)
    ensures 0 < |s| && AllDigits(s)
    ensures |s| > 1 ==> s[0] != '0'
  {
    if n < 10 then [DigitChar(n)] else NatText(n / 10) + [DigitChar(n % 10)]
  }

  /** JavaScript's text for an integer-valued number. */
  function IntText(i: int): (s: string)
    ensures 0 < |s|
    ensures s[0] == '-' || IsDigit(s[0])
  {
    if i < 0 then "-" + NatText(-i) else NatText(i)
  }

  /** The value of a run of decimal digits (leading zeros allowed). */
  function DigitsValue(s: string): nat
    requires AllDigits(s)
  {
    if |s| == 0 then 0 else DigitsValue(s[..|s| - 1]) * 10 + DigitValue(s[|s| - 1])
  }

  function Pow10(k: nat): (p: nat)
    ensures p >= 1
  {
    if k == 0 then 1 else 10 * Pow10(k - 1)
  }

  /** `String(n).padStart(width, '0')`: zeros on the left up to `width`, never truncated. */
  function PadLeft(s: string, width: nat): (r: string)
    ensures |r| == if |s| >= width then |s| else width
    ensures r[|r| - |s|..] == s
    ensures forall i :: 0 <= i < |r| - |s| ==> r[i] == '0'
  {
    if |s| >= width then s else Zeros(width - |s|) + s
  }

  function Zeros(k: nat): (z: string)
    ensures |z| == k && forall i :: 0 <= i < k ==> z[i] == '0'
  {
    if k == 0 then "" else "0" + Zeros(k - 1)
  }

  /** Number of leading digit characters of `s`. */
  function DigitRun(s: string): (k: nat)
    ensures k <= |s|
    ensures forall i :: 0 <= i < k ==> IsDigit(s[i])
    ensures k < |s| ==> !IsDigit(s[k])
  {
    if |s| == 0 || !IsDigit(s[0]) then 0 else 1 + DigitRun(s[1..])
  }

  /** Reads a maximal run of at least one digit from the front of `s`. */
  function ParseNat(s: string): (r: Option<(nat, string)>)
    ensures r.Some? ==> |r.value.1| < |s|
  {
    var k := DigitRun(s);
    if k == 0 then None else Some((DigitsValue(s[..k]), s[k..]))
  }

  /** Reads an optional minus sign and a digit run from the front of `s`. */
  function ParseInt(s: string): (r: Option<(int, string)>)
    ensures r.Some? ==> |r.value.1| < |s|
  {
    if 0 < |s| && s[0] == '-' then
      match ParseNat(s[1..])
      case None => None
      case Some((n, rest)) => var v: int := 0 - (n as int); Some((v, rest))
    else
      match ParseNat(s)
      case None => None
      case Some((n, rest)) => Some((n as int, rest))
  }

  /** True when `rest` cannot continue a number: it is empty or starts with a non-digit. */
  predicate EndsNumber(rest: string) {
    |rest| == 0 || !IsDigit(rest[0])
  }

  lemma {:induction false} DigitsValueOfNatText(n: nat)
    ensures DigitsValue(NatText(n)) == n
    decreases n
  {
    if n >= 10 {
      var s := NatText(n);
      assert s[..|s| - 1] == NatText(n / 10);
      DigitsValueOfNatText(n / 10);
    }
  }

  /** Leading zeros do not change the value of a digit run. */
  lemma {:induction false} DigitsValueIgnoresZeros(z: string, s: string)
    requires AllDigits(z) && AllDigits(s)
    requires forall i :: 0 <= i < |z| ==> z[i] == '0'
    ensures AllDigits(z + s)
    ensures DigitsValue(z + s) == DigitsValue(s)
    decreases |s|
  {
    assert AllDigits(z + s);
    if |s| == 0 {
      ZerosValue(z);
      assert z + s == z;
    } else {
      var s' := s[..|s| - 1];
      assert (z + s)[..|z + s| - 1] == z + s';
      DigitsValueIgnoresZeros(z, s');
    }
  }

  lemma {:induction false} ZerosValue(z: string)
    requires forall i :: 0 <= i < |z| ==> z[i] == '0'
    ensures AllDigits(z) && DigitsValue(z) == 0
    decreases |z|
  {
    if |z| > 0 {
      ZerosValue(z[..|z| - 1]);
    }
  }

  /** A zero-padded decimal text reads back as the number. */
  lemma PaddedValue(n: nat, width: nat)
    ensures AllDigits(PadLeft(NatText(n), width))
    ensures DigitsValue(PadLeft(NatText(n), width)) == n
  {
    var s := NatText(n);
    DigitsValueOfNatText(n);
    if |s| < width {
      DigitsValueIgnoresZeros(Zeros(width - |s|), s);
    }
  }

  /** The number of digits of `n` is `k` exactly when `n` lies in `[10^(k-1), 10^k)`. */
  lemma {:induction false} NatTextLength(n: nat, k: nat)
    requires 0 < k
    requires (k == 1 || Pow10(k - 1) <= n) && n < Pow10(k)
    ensures |NatText(n)| == k
    decreases k
  {
    if k > 1 {
      NatTextLength(n / 10, k - 1);
    }
  }

  /** A number below `10^k` has at most `k` digits. */
  lemma {:induction false} NatTextAtMost(n: nat, k: nat)
    requires 0 < k && n < Pow10(k)
    ensures |NatText(n)| <= k
    decreases k
  {
    if n >= 10 {
      NatTextAtMost(n / 10, k - 1);
    }
  }

  /** Reading the text of a natural number back, whatever non-digit follows it. */
  lemma ParseNatText(n: nat, rest: string)
    requires EndsNumber(rest)
    ensures ParseNat(NatText(n) + rest) == Some((n, rest))
  {
    var s := NatText(n);
    var t := s + rest;
    var k := DigitRun(t);
    assert forall i :: 0 <= i < |s| ==> t[i] == s[i];
    assert |s| < |t| ==> t[|s|] == rest[0];
    assert k == |s|;
    assert t[..k] == s && t[k..] == rest;
    DigitsValueOfNatText(n);
  }

  /** `ParseInt` inverts `IntText`. */
  lemma ParseIntText(i: int, rest: string)
    requires EndsNumber(rest)
    ensures ParseInt(IntText(i) + rest) == Some((i, rest))
  {
    if i < 0 {
      ParseNegativeText(i, rest);
    } else {
      ParseNatText(i, rest);
      assert (IntText(i) + rest)[0] == NatText(i)[0];
    }
  }

  lemma ParseNegativeText(i: int, rest: string)
    requires i < 0 && EndsNumber(rest)
    ensures ParseInt(IntText(i) + rest) == Some((i, rest))
  {
    var n: nat := -i;
    var d := NatText(n);
    var x := d + rest;
    assert IntText(i) == "-" + d;
    assert ("-" + d) + rest == "-" + x;
    ParseNatText(n, rest);
    ParseIntMinus(x);
    assert 0 - n == i;
  }

  /** After a minus sign `ParseInt` reads a natural number and negates it. */
  lemma ParseIntMinus(x: string)
    ensures ParseNat(x).Some? ==> ParseInt("-" + x) == Some((0 - ParseNat(x).value.0, ParseNat(x).value.1))
  {
    var t := "-" + x;
    assert t[0] == '-' && t[1..] == x;
  }

  /** Quotient and remainder are unique: `total == k * r + x` with `0 <= x < r` fixes both. */
  lemma DivModUnique(total: int, r: int, k: int, x: int)
    requires r > 0 && 0 <= x < r && total == k * r + x
    ensures total / r == k && total % r == x
  {
    var q := total / r;
    var m := total % r;
    assert (q - k) * r == x - m;
    if q > k {
      MulAtLeast(q - k, r);
    } else if q < k {
      MulAtLeast(k - q, r);
    }
  }

  lemma MulAtLeast(a: int, r: int)
    requires a >= 1 && r > 0
    ensures a * r >= r
  {
  }
}

=== FILE: planner.dfy ===
/** The goal planner of the home screen, in its current form
    (`screens/HomeScreen.tsx`) and its older form (`levelUp/screens/HomeScreen.tsx`):
    the add-goal form and its acceptance guard, the draft list with toggling,
    removal and per-category views, the calls it makes into the progress context,
    the draft's mirror in the store and the midnight clear. The two forms differ in
    `saveGoals` and in the context they are bound to. */
module Planner {
  import opened Wrappers
  import opened Storage
  import opened Dates
  import opened Goals
  import opened Text
  import Progress
  import LegacyProgress

  const GoalsKey := "levelup_goals"

  datatype Variant = Current | Legacy

  /** The add-goal form: the chosen template, the free-text description, the hour
      and minute fields, the meridiem, and the category the form was opened for. */
  datatype Form = Form(template: string, customTitle: string, am: string, pm: string,
                       meridiem: string, category: string)

  /** The screen's draft list, its form, and the store it mirrors the draft into. */
  datatype Screen = Screen(goals: seq<Goal>, form: Form, store: Store)

  /** `handleConfirm`'s guards in the order they are written: each `return`s early.
      Only emptiness and lengths are checked, never digits or ranges, and a length
      is JavaScript's, in UTF-16 units. */
  function ConfirmAccepts(f: Form): (ok: bool)
    ensures ok <==> f.template != "" &&
                    ((f.am == "" && f.pm == "" && f.meridiem == "") ||
                     (1 <= Utf16Length(f.am) <= 2 && Utf16Length(f.pm) == 2 && f.meridiem != ""))
  {
    if f.template == "" then false
    else if (f.am != "" && f.pm == "") || (f.am == "" && f.pm != "") then false
    else if f.meridiem != "" && (f.am == "" || f.pm == "") then false
    else if f.meridiem == "" && (f.am != "" || f.pm != "") then false
    else if Utf16Length(f.pm) == 1 || Utf16Length(f.pm) > 2 || Utf16Length(f.am) > 2 then false
    else true
  }

  /** With characters of the Basic Multilingual Plane only, the lengths are the
      character counts; one astral character counts twice, so a single emoji passes
      as two minute digits, and an hour of a digit and an emoji is too long. */
  lemma ConfirmCountsUtf16Units(f: Form)
    requires forall k :: 0 <= k < |f.am| ==> !Astral(f.am[k])
    requires forall k :: 0 <= k < |f.pm| ==> !Astral(f.pm[k])
    ensures ConfirmAccepts(f) <==> (f.template != "" &&
                                    ((f.am == "" && f.pm == "" && f.meridiem == "") ||
                                     (1 <= |f.am| <= 2 && |f.pm| == 2 && f.meridiem != "")))
    ensures ConfirmAccepts(Form("Run", "", "7", "\U{1F600}", "AM", "Physical"))
    ensures !ConfirmAccepts(Form("Run", "", "1\U{1F600}", "30", "AM", "Physical"))
  {
    assert Utf16Length("\U{1F600}") == 2;
    assert Utf16Length("1\U{1F600}") == 3 by {
      assert "1\U{1F600}"[1..] == "\U{1F600}";
    }
  }

  /** The goal's time text: hour, colon, minutes, space, meridiem, when an hour was
      typed; nothing otherwise. A leading zero typed in the hour stays in the text:
      the strip in `addNewGoal` only schedules a form update. */
  function TimeLabel(am: string, pm: string, meridiem: string): (r: string)
    ensures r == "" <==> am == ""
    ensures am != "" ==>
      && |r| == |am| + |pm| + |meridiem| + 2
      && r[..|am|] == am && r[|am|] == ':'
      && r[|am| + 1..|am| + 1 + |pm|] == pm && r[|am| + 1 + |pm|] == ' '
      && r[|am| + 2 + |pm|..] == meridiem
  {
    if am != "" then am + ":" + pm + " " + meridiem else ""
  }

  /** `addNewGoal`'s record for the form, with `id` standing for the generated id. */
  function NewGoal(f: Form, id: string): Goal {
    Goal(id, f.template, false, f.category, f.customTitle, TimeLabel(f.am, f.pm, f.meridiem))
  }

  /** `resetModal`: clears every field but the category. */
  function ResetForm(f: Form): Form {
    Form("", "", "", "", "", f.category)
  }

  /** The effect that writes the draft to the store after every change. */
  function Mirror(goals: seq<Goal>, store: Store): Store {
    store[GoalsKey := Encode(goals)]
  }

  /** Whether the context this variant is bound to defines the function a call names:
      the older context has only `addXp`. */
  predicate Provides(v: Variant, call: Call) {
    v == Current || call.AddXp?
  }

  /** The older context throws on exactly the calls this variant does not provide. */
  lemma LegacyProvides(ctx: LegacyProgress.Context, call: Call)
    ensures Provides(Legacy, call) <==> LegacyProgress.Apply(ctx, call).Done?
  {
  }

  /** `handleConfirm` with `id` standing for the generated id. A rejected form changes
      nothing and calls nothing. An accepted one appends one new goal at the end and
      calls `changeStreak(1)`; the form is reset afterwards only if that call did not
      throw. */
  function HandleConfirm(v: Variant, s: Screen, id: string): (r: (Screen, seq<Call>))
    ensures !ConfirmAccepts(s.form) ==> r == (s, [])
    ensures ConfirmAccepts(s.form) ==>
      && r.1 == [ChangeStreak(1)]
      && |r.0.goals| == |s.goals| + 1
      && r.0.goals[..|s.goals|] == s.goals
      && (var g := r.0.goals[|s.goals|];
          && g.id == id && g.title == s.form.template && g.description == s.form.customTitle
          && g.category == s.form.category && !g.isCompleted
          && g.time == TimeLabel(s.form.am, s.form.pm, s.form.meridiem))
      && r.0.store == Mirror(r.0.goals, s.store)
      && r.0.form == (if v == Current then ResetForm(s.form) else s.form)
  {
    if !ConfirmAccepts(s.form) then (s, [])
    else
      var goals := s.goals + [NewGoal(s.form, id)];
      var calls := [ChangeStreak(1)];
      var form := if Provides(v, calls[0]) then ResetForm(s.form) else s.form;
      (Screen(goals, form, Mirror(goals, s.store)), calls)
  }

  /** `saveGoals`: hands the whole draft to `changeGoals`; the current form also marks
      tomorrow as planned when the context is not in today mode. */
  function SaveGoals(v: Variant, goals: seq<Goal>, todayMode: bool): (r: seq<Call>)
    ensures |r| >= 1 && r[0] == ChangeGoals(goals)
    ensures ChangeTomorrowSaved(true) in r <==> v == Current && !todayMode
    ensures forall c :: c in r ==> c == ChangeGoals(goals) || c == ChangeTomorrowSaved(true)
  {
    match v
    case Current => [ChangeGoals(goals)] + (if !todayMode then [ChangeTomorrowSaved(true)] else [])
    case Legacy => [ChangeGoals(goals)]
  }

  /** Through the current context, saving stores the draft under the context's date
      and sets `tomorrowSaved` when today mode is off, leaving it as it was otherwise. */
  lemma SaveGoalsStoresDraft(ctx: Progress.Context, goals: seq<Goal>, c: Clock)
    requires Progress.WellFormed(ctx.state) && ValidClock(c)
    ensures var calls := SaveGoals(Current, goals, ctx.state.todayMode);
            var r := Progress.ApplyAll(ctx, calls, c);
            && ctx.state.currentDate in r.store
            && r.store[ctx.state.currentDate] == Encode(goals)
            && r.state.tomorrowSaved == (ctx.state.tomorrowSaved || !ctx.state.todayMode)
            && r.state.currentDate == ctx.state.currentDate
  {
    var calls := SaveGoals(Current, goals, ctx.state.todayMode);
    var a := Progress.ChangeGoals(ctx, goals);
    assert Progress.ApplyAll(ctx, calls, c) == Progress.ApplyAll(a, calls[1..], c);
    if !ctx.state.todayMode {
      var b := Progress.ChangeTomorrowSaved(a, true);
      assert Progress.ApplyAll(a, calls[1..], c) == Progress.ApplyAll(b, calls[2..], c);
    }
  }

  /** Through the older context, saving throws at once: it has no `changeGoals`. */
  lemma LegacySaveThrows(ctx: LegacyProgress.Context, goals: seq<Goal>, todayMode: bool)
    ensures LegacyProgress.ApplyAll(ctx, SaveGoals(Legacy, goals, todayMode)) == (ctx, false)
  {
  }

  /** `toggleGoalCompleted(id, place)` on the draft, with the draft mirrored. */
  function ToggleGoal(s: Screen, id: string, place: string): (r: (Screen, seq<Call>))
    ensures r.0.form == s.form && r.0.store == Mirror(r.0.goals, s.store)
    ensures (r.0.goals, r.1) == Toggle(s.goals, id, place)
  {
    var t := Toggle(s.goals, id, place);
    (Screen(t.0, s.form, Mirror(t.0, s.store)), t.1)
  }

  /** Completing an open goal (ids distinct) asks for exactly one award of 50 XP in
      the skill its category names, and the current context adds it to that skill. */
  lemma ToggleAwardsSkill(ctx: Progress.Context, s: Screen, i: nat, place: string, c: Clock)
    requires Progress.WellFormed(ctx.state) && ValidClock(c)
    requires UniqueIds(s.goals) && i < |s.goals| && !s.goals[i].isCompleted
    requires place in Categories
    ensures ToggleGoal(s, s.goals[i].id, place).1 == [AddXp(CompletionReward, SkillIndex(place).value)]
    ensures Progress.RequiredXp(ctx.state.level[SkillIndex(place).value]) > 0
    ensures Progress.ApplyAll(ctx, ToggleGoal(s, s.goals[i].id, place).1, c)
            == Progress.AddXpResult(ctx, CompletionReward, SkillIndex(place).value)
  {
    var k := SkillIndex(place).value;
    OneAward(s.goals, i, place);
    RequiredXpPositive(ctx.state.level[k]);
    var calls := [AddXp(CompletionReward, k)];
    assert Progress.ApplyAll(ctx, calls, c)
        == Progress.ApplyAll(Progress.ApplyCall(ctx, calls[0], c), [], c);
  }

  lemma RequiredXpPositive(lv: int)
    requires lv >= 0
    ensures Progress.RequiredXp(lv) > 0
  {
    Progress.RequiredXpShape(lv, lv);
  }

  /** With distinct ids, toggling an open goal yields exactly one call: the award
      for its category. */
  lemma OneAward(gs: seq<Goal>, i: nat, place: string)
    requires UniqueIds(gs) && i < |gs| && !gs[i].isCompleted && place in Categories
    ensures Toggle(gs, gs[i].id, place).1 == [AddXp(CompletionReward, SkillIndex(place).value)]
  {
    var calls := Toggle(gs, gs[i].id, place).1;
    OneCall(gs, i, place);
    assert calls[0] in calls;
    SkillOfCategory(calls[0].skill, place);
  }

  lemma OneCall(gs: seq<Goal>, i: nat, place: string)
    requires UniqueIds(gs) && i < |gs| && !gs[i].isCompleted && place in Categories
    ensures |Toggle(gs, gs[i].id, place).1| == 1
  {
    var id := gs[i].id;
    MatchingUnique(gs, id);
    MatchingSplit(gs, id);
    assert gs[i] in Seqs.Filter((g: Goal) => g.id == id && !g.isCompleted, gs);
  }

  lemma SkillOfCategory(k: int, place: string)
    requires 0 <= k < |Categories| && Categories[k] == place
    ensures SkillIndex(place) == Some(k)
  {
  }

  /** Through the older context every award lands on its single XP track, whatever
      the category. */
  lemma LegacyToggleAwards(ctx: LegacyProgress.Context, s: Screen, i: nat, place: string)
    requires UniqueIds(s.goals) && i < |s.goals| && !s.goals[i].isCompleted
    requires place in Categories
    ensures var calls := ToggleGoal(s, s.goals[i].id, place).1;
            LegacyProgress.ApplyAll(ctx, calls) == (LegacyProgress.Gain(ctx, CompletionReward), true)
  {
    var calls := ToggleGoal(s, s.goals[i].id, place).1;
    OneAward(s.goals, i, place);
    assert calls[0] in calls;
    LegacyProgress.LastAwardWins(ctx.state, ctx, calls);
  }

  /** `removeGoal(id)` on the draft, with the draft mirrored. */
  function RemoveGoal(s: Screen, id: string): (r: Screen)
    ensures r.form == s.form && r.store == Mirror(r.goals, s.store)
    ensures forall g :: g in r.goals <==> g in s.goals && g.id != id
    ensures |r.goals| == |s.goals| - Matching(s.goals, id)
  {
    var goals := Remove(s.goals, id);
    Screen(goals, s.form, Mirror(goals, s.store))
  }

  /** The timer just after local midnight empties the draft. */
  function MidnightClear(s: Screen): (r: Screen)
    ensures r.goals == [] && r.form == s.form && r.store == Mirror([], s.store)
  {
    Screen([], s.form, Mirror([], s.store))
  }

  /** `loadData`: no stored draft gives the empty list; a draft that does not parse
      or is not an array throws inside the `try`, and the list stays as it was. */
  function LoadDraft(store: Store, before: seq<Goal>): (r: seq<Goal>)
    ensures !Truthy(store, GoalsKey) ==> r == []
  {
    if !Truthy(store, GoalsKey) then []
    else
      match ReadList(store[GoalsKey])
      case GoalList(gs) => gs
      case _ => before
  }

  /** Whatever the draft was, the mirror written after the change reads back as that
      draft on the next load, the empty draft left by the midnight clear included. */
  lemma MirrorReloads(goals: seq<Goal>, store: Store, before: seq<Goal>)
    ensures LoadDraft(Mirror(goals, store), before) == goals
  {
    ReadEncoded(goals);
  }

  /** A confirmed goal is still in the draft after the app restarts. */
  lemma ConfirmedGoalSurvivesReload(v: Variant, s: Screen, id: string, before: seq<Goal>)
    requires ConfirmAccepts(s.form)
    ensures var r := HandleConfirm(v, s, id).0;
            LoadDraft(r.store, before) == s.goals + [NewGoal(s.form, id)]
  {
    var r := HandleConfirm(v, s, id).0;
    MirrorReloads(r.goals, s.store, before);
  }
}

=== FILE: progress.dfy ===
/** The progress context (`XPProvider`): per-skill XP and levels with the
    piecewise level curve, the daily streak with its once-a-day action flag,
    the goal snapshots kept under date keys, the today/tomorrow planning mode,
    the dungeon counter, the midnight rollover and the load that rebuilds all
    of it from storage when the app starts. */
module Progress {
  import opened Wrappers
  import opened Numerals
  import opened Json
  import opened Storage
  import opened Dates
  import opened Goals

  const XpKey := "levelup_xp"
  const LevelKey := "levelup_level"
  const DungeonKey := "levelup_dungeon"
  const StreakKey := "levelup_streak"
  const ActionKey := "levelup_action"
  const LastActiveKey := "levelup_lastActiveDate"
  const TodayModeKey := "levelup_todaymode"
  const TomorrowSavedKey := "levelup_tomorrowSaved"
  const TomorrowGoalsKey := "levelup_tomorrowGoals"

  /** The fixed keys the context writes; goal snapshots live under date keys instead. */
  const AppKeys: set<string> := {XpKey, LevelKey, DungeonKey, StreakKey, ActionKey,
                                 LastActiveKey, TodayModeKey, TomorrowSavedKey, TomorrowGoalsKey}

  /** What the context holds in memory. `dungeonLevel` and `streak` are JavaScript
      numbers and can become NaN through `Number(...)` on load. */
  datatype State = State(
    xp: seq<int>, level: seq<int>, savedGoals: seq<Goal>, currentDate: string,
    dungeonLevel: Num, streak: Num, action: bool, todayMode: bool,
    tomorrowSaved: bool, tomorrowGoals: seq<Goal>)

  /** The context together with the store it writes to. */
  datatype Context = Context(state: State, store: Store)

  /** The state on mount, before the load has finished. */
  function Initial(c: Clock): State
    requires ValidClock(c)
  {
    State([0, 0, 0, 0], [0, 0, 0, 0], [], Today(c), Finite(0), Finite(0), false, false, false, [])
  }

  /** Four skills, non-negative levels, and a current-date key that is none of the fixed keys. */
  predicate WellFormed(s: State) {
    |s.xp| == |Categories| && |s.level| == |Categories|
    && (forall j :: 0 <= j < |s.level| ==> s.level[j] >= 0)
    && s.currentDate !in AppKeys
  }

  /** No key `getDateKey` produces collides with a fixed key. */
  lemma DateKeyIsNotAppKey(d: Date)
    requires Valid(d)
    ensures IsoDate(d) !in AppKeys
  {
    var y := IsoYear(d.year);
    assert IsoDate(d)[0] == y[0];
    if 0 <= d.year <= 9999 {
      FourDigitYear(d.year);
      assert IsDigit(y[0]);
    }
    NotAppKey(IsoDate(d));
  }

  /** Every fixed key starts with `l`. */
  lemma NotAppKey(s: string)
    requires 0 < |s| && s[0] != 'l'
    ensures s !in AppKeys
  {
  }

  lemma InitialWellFormed(c: Clock)
    requires ValidClock(c)
    ensures WellFormed(Initial(c))
  {
    DateKeyIsNotAppKey(c.utc);
    assert AddDays(c.utc, 0) == c.utc;
  }

  // ---------------------------------------------------------------------
  // Stored text of numbers, number arrays and booleans
  // ---------------------------------------------------------------------

  /** `JSON.stringify(n)`: NaN is written as `null`. */
  function NumText(n: Num): string {
    match n
    case NaN => "null"
    case Finite(v) => IntText(v)
  }

  function BoolText(b: bool): string {
    Serialize(JBool(b))
  }

  function IntsJson(xs: seq<int>): (j: Json)
    ensures j.JArr? && |j.items| == |xs|
  {
    JArr(seq(|xs|, i requires 0 <= i < |xs| => JInt(xs[i])))
  }

  function IntsFromJson(items: seq<Json>): (r: Option<seq<int>>)
    ensures r.Some? ==> |r.value| == |items|
  {
    if |items| == 0 then Some([])
    else
      match (items[0], IntsFromJson(items[1..]))
      case (JInt(v), Some(vs)) => Some([v] + vs)
      case _ => None
  }

  /** `JSON.stringify(xs)` for a number array. */
  function EncodeInts(xs: seq<int>): string {
    Serialize(IntsJson(xs))
  }

  lemma {:induction false} IntsFromJsonOfIntsJson(xs: seq<int>)
    ensures IntsFromJson(IntsJson(xs).items) == Some(xs)
    decreases |xs|
  {
    if |xs| > 0 {
      assert IntsJson(xs).items[1..] == IntsJson(xs[1..]).items;
      IntsFromJsonOfIntsJson(xs[1..]);
      assert [xs[0]] + xs[1..] == xs;
    }
  }

  // ---------------------------------------------------------------------
  // Level curve and XP
  // ---------------------------------------------------------------------

  /** `getRequiredXP`: XP needed to pass level `lv`, in three linear bands. */
  function RequiredXp(lv: int): (r: int)
    ensures lv <= 25 ==> r == 10 + 2 * lv
    ensures r >= 10 + 2 * lv
    ensures r > 0 <==> lv > -5
  {
    if lv <= 25 then 10 + lv * 2
    else if lv <= 50 then 60 + (lv - 25) * 4
    else 160 + (lv - 50) * 5
  }

  /** The curve starts at 10 and rises strictly everywhere: each level costs 2 more XP
      than the one before up to level 25, then 4 more up to 50, then 5 more. */
  lemma RequiredXpShape(a: int, b: int)
    ensures a >= 0 ==> RequiredXp(a) >= 10
    ensures a < b ==> RequiredXp(a) < RequiredXp(b)
    ensures RequiredXp(a + 1) - RequiredXp(a) == if a < 25 then 2 else if a < 50 then 4 else 5
  {
  }

  /** Level-up arithmetic with the threshold held fixed: a total at or above
      `required` becomes `total / required` levels and `total % required` XP. */
  function LevelUp(total: int, lv: int, required: int): (r: (int, int))
    requires required > 0 || total < required
  {
    if total < required then (total, lv) else (total % required, lv + total / required)
  }

  function AddXpResult(ctx: Context, amount: int, i: int): Context
    requires 0 <= i < |ctx.state.xp| && i < |ctx.state.level|
    requires RequiredXp(ctx.state.level[i]) > 0 || ctx.state.xp[i] + amount < RequiredXp(ctx.state.level[i])
  {
    var st := ctx.state;
    var (x, l) := LevelUp(st.xp[i] + amount, st.level[i], RequiredXp(st.level[i]));
    var st' := st.(xp := st.xp[i := x], level := st.level[i := l]);
    Context(st', ctx.store[XpKey := EncodeInts(st'.xp)][LevelKey := EncodeInts(st'.level)])
  }

  /** `addXp(amount, i)`: add to skill `i`, then level up while the XP reaches the
      threshold of the level the skill had BEFORE the call, and store both arrays. */
  method AddXp(ctx: Context, amount: int, i: int) returns (r: Context)
    requires 0 <= i < |ctx.state.xp| && i < |ctx.state.level|
    requires RequiredXp(ctx.state.level[i]) > 0 || ctx.state.xp[i] + amount < RequiredXp(ctx.state.level[i])
    ensures r.state == ctx.state.(xp := r.state.xp, level := r.state.level)
    ensures |r.state.xp| == |ctx.state.xp| && |r.state.level| == |ctx.state.level|
    ensures forall j :: 0 <= j < |r.state.xp| && j != i ==> r.state.xp[j] == ctx.state.xp[j]
    ensures forall j :: 0 <= j < |r.state.level| && j != i ==> r.state.level[j] == ctx.state.level[j]
    ensures var total := ctx.state.xp[i] + amount;
            var req := RequiredXp(ctx.state.level[i]);
            && (total < req ==> r.state.xp[i] == total && r.state.level[i] == ctx.state.level[i])
            && (total >= req ==> r.state.level[i] == ctx.state.level[i] + total / req && r.state.xp[i] == total % req)
    ensures r.store == ctx.store[XpKey := EncodeInts(r.state.xp)][LevelKey := EncodeInts(r.state.level)]
    ensures r == AddXpResult(ctx, amount, i)
  {
    var lv := ctx.state.level[i];
    var total := ctx.state.xp[i] + amount;
    var req := RequiredXp(lv);
    var x, l := total, lv;
    while x >= RequiredXp(lv)
      invariant l >= lv
      invariant (l - lv) * req + x == total
      invariant req > 0 || x < req
      invariant l > lv ==> x >= 0 && total >= req
      invariant l == lv ==> x == total
      decreases x
    {
      x := x - RequiredXp(lv);
      l := l + 1;
    }
    if total >= req {
      DivModUnique(total, req, l - lv, x);
    }
    var st := ctx.state.(xp := ctx.state.xp[i := x], level := ctx.state.level[i := l]);
    r := Context(st, ctx.store[XpKey := EncodeInts(st.xp)][LevelKey := EncodeInts(st.level)]);
    AddXpResultShape(ctx, amount, i);
  }

  lemma AddXpResultShape(ctx: Context, amount: int, i: int)
    requires 0 <= i < |ctx.state.xp| && i < |ctx.state.level|
    requires RequiredXp(ctx.state.level[i]) > 0 || ctx.state.xp[i] + amount < RequiredXp(ctx.state.level[i])
    ensures var r := AddXpResult(ctx, amount, i);
            && r.state == ctx.state.(xp := r.state.xp, level := r.state.level)
            && |r.state.xp| == |ctx.state.xp| && |r.state.level| == |ctx.state.level|
            && (forall j :: 0 <= j < |r.state.xp| && j != i ==> r.state.xp[j] == ctx.state.xp[j])
            && (forall j :: 0 <= j < |r.state.level| && j != i ==> r.state.level[j] == ctx.state.level[j])
            && r.store == ctx.store[XpKey := EncodeInts(r.state.xp)][LevelKey := EncodeInts(r.state.level)]
    ensures var r := AddXpResult(ctx, amount, i);
            var total := ctx.state.xp[i] + amount;
            var req := RequiredXp(ctx.state.level[i]);
            && (total < req ==> r.state.xp[i] == total && r.state.level[i] == ctx.state.level[i])
            && (total >= req ==> r.state.level[i] == ctx.state.level[i] + total / req && r.state.xp[i] == total % req)
  {
  }

  /** With a non-negative gain, XP that was below its level's threshold stays below the
      threshold of the (possibly higher) new level, and the level never drops. */
  lemma AddXpKeepsXpBelowThreshold(ctx: Context, amount: int, i: int)
    requires 0 <= i < |ctx.state.xp| && i < |ctx.state.level|
    requires 0 <= ctx.state.xp[i] < RequiredXp(ctx.state.level[i]) && amount >= 0
    ensures var r := AddXpResult(ctx, amount, i).state;
            && r.level[i] >= ctx.state.level[i]
            && 0 <= r.xp[i] < RequiredXp(r.level[i])
  {
    var st := ctx.state;
    var (x, l) := LevelUp(st.xp[i] + amount, st.level[i], RequiredXp(st.level[i]));
    assert AddXpResult(ctx, amount, i).state.xp[i] == x;
    assert AddXpResult(ctx, amount, i).state.level[i] == l;
    LevelUpStaysBelow(st.xp[i], amount, st.level[i]);
  }

  lemma LevelUpStaysBelow(x: int, amount: int, lv: int)
    requires 0 <= x < RequiredXp(lv) && amount >= 0
    ensures LevelUp(x + amount, lv, RequiredXp(lv)).1 >= lv
    ensures 0 <= LevelUp(x + amount, lv, RequiredXp(lv)).0 < RequiredXp(LevelUp(x + amount, lv, RequiredXp(lv)).1)
  {
    var req := RequiredXp(lv);
    var total := x + amount;
    if total >= req {
      var q := total / req;
      assert q >= 1 by { DivModUnique(total, req, q, total % req); }
      RequiredXpShape(lv, lv + q);
    }
  }

  /** Levels jump by the pre-call threshold: 25 XP at level 0 (threshold 10) gives
      level 2 with 5 XP, where a per-level curve would give level 2 with 3 XP. */
  lemma FixedThresholdExample(store: Store)
    ensures var ctx := Context(State([0, 0, 0, 0], [0, 0, 0, 0], [], "", Finite(0), Finite(0), false, false, false, []), store);
            var r := AddXpResult(ctx, 25, 0).state;
            r.level[0] == 2 && r.xp[0] == 5
  {
  }

  /** `changeLevel(l)`: the levels are replaced, and the stored array reads back as `l`. */
  function ChangeLevel(ctx: Context, l: seq<int>): (r: Context)
    ensures r.state == ctx.state.(level := l)
    ensures WritesOnly(ctx.store, r.store, {LevelKey})
    ensures ReadInts(r.store, LevelKey) == Got(l)
  {
    var store := ctx.store[LevelKey := EncodeInts(l)];
    ReadEncodedInts(store, LevelKey, l);
    Context(ctx.state.(level := l), store)
  }

  /** `changeXp(x)`: the XP array is replaced, and the stored array reads back as `x`. */
  function ChangeXp(ctx: Context, x: seq<int>): (r: Context)
    ensures r.state == ctx.state.(xp := x)
    ensures WritesOnly(ctx.store, r.store, {XpKey})
    ensures ReadInts(r.store, XpKey) == Got(x)
  {
    var store := ctx.store[XpKey := EncodeInts(x)];
    ReadEncodedInts(store, XpKey, x);
    Context(ctx.state.(xp := x), store)
  }

  // ---------------------------------------------------------------------
  // Streak, mode, goals, dungeon
  // ---------------------------------------------------------------------

  /** `changeAction(val)`: also stamps today's key, quoted, as the last active date. */
  function ChangeAction(ctx: Context, val: bool, c: Clock): (r: Context)
    requires ValidClock(c)
    ensures r.state == ctx.state.(action := val)
    ensures WritesOnly(ctx.store, r.store, {ActionKey, LastActiveKey})
    ensures JsBoolean(r.store[ActionKey])
    ensures r.store[LastActiveKey] == Quote(Today(c)) && Number(r.store[LastActiveKey]) == NaN
  {
    StoredBooleanIsTrue(val);
    NumberOfQuoted(Today(c));
    Context(ctx.state.(action := val),
            ctx.store[ActionKey := BoolText(val)][LastActiveKey := Serialize(JStr(Today(c)))])
  }

  /** `changeStreak(amount)`: counts only while no action was recorded yet, then records one. */
  function ChangeStreak(ctx: Context, amount: int, c: Clock): (r: Context)
    requires ValidClock(c)
    ensures ctx.state.action ==> r == ctx
    ensures !ctx.state.action ==>
      && r.state == ctx.state.(streak := AddNum(ctx.state.streak, amount), action := true)
      && StreakKey in r.store && ActionKey in r.store && LastActiveKey in r.store
      && r.store[StreakKey] == NumText(AddNum(ctx.state.streak, amount))
      && r.store[ActionKey] == "true"
      && r.store[LastActiveKey] == Quote(Today(c))
      && WritesOnly(ctx.store, r.store, {StreakKey, ActionKey, LastActiveKey})
  {
    if !ctx.state.action then
      var streak := AddNum(ctx.state.streak, amount);
      ChangeAction(Context(ctx.state.(streak := streak), ctx.store[StreakKey := NumText(streak)]), true, c)
    else ctx
  }

  /** A second `changeStreak` in the same session changes nothing. */
  lemma StreakCountsOncePerSession(ctx: Context, a: int, b: int, c: Clock, c': Clock)
    requires ValidClock(c) && ValidClock(c')
    ensures ChangeStreak(ChangeStreak(ctx, a, c), b, c') == ChangeStreak(ctx, a, c)
  {
  }

  /** `changeTodayMode(val)`: the stored text reads back as true whatever `val` is. */
  function ChangeTodayMode(ctx: Context, val: bool): (r: Context)
    ensures r.state == ctx.state.(todayMode := val)
    ensures WritesOnly(ctx.store, r.store, {TodayModeKey})
    ensures JsBoolean(r.store[TodayModeKey])
  {
    StoredBooleanIsTrue(val);
    Context(ctx.state.(todayMode := val), ctx.store[TodayModeKey := BoolText(val)])
  }

  /** `changeGoals`: stores the list under the context's current date; the in-memory
      snapshot is not touched. */
  function ChangeGoals(ctx: Context, gs: seq<Goal>): (r: Context)
    ensures r.state == ctx.state
    ensures WritesOnly(ctx.store, r.store, {ctx.state.currentDate})
    ensures ReadGoals(r.store, ctx.state.currentDate) == Got(gs)
  {
    var store := ctx.store[ctx.state.currentDate := Encode(gs)];
    ReadEncodedGoals(store, ctx.state.currentDate, gs);
    Context(ctx.state, store)
  }

  /** `changeYesterdayGoals`: stores the list under yesterday's key, which is the
      snapshot the load reads; the in-memory snapshot is not touched. */
  function ChangeYesterdayGoals(ctx: Context, gs: seq<Goal>, c: Clock): (r: Context)
    requires ValidClock(c)
    ensures r.state == ctx.state
    ensures WritesOnly(ctx.store, r.store, {Yesterday(c)})
    ensures ReadGoals(r.store, Yesterday(c)) == Got(gs)
  {
    var store := ctx.store[Yesterday(c) := Encode(gs)];
    ReadEncodedGoals(store, Yesterday(c), gs);
    Context(ctx.state, store)
  }

  /** `changeDungeon(n)`: the stored text reads back as `n` through `Number`. */
  function ChangeDungeon(ctx: Context, n: int): (r: Context)
    ensures r.state == ctx.state.(dungeonLevel := Finite(n))
    ensures WritesOnly(ctx.store, r.store, {DungeonKey})
    ensures Number(r.store[DungeonKey]) == Finite(n)
  {
    NumberOfIntText(n);
    Context(ctx.state.(dungeonLevel := Finite(n)), ctx.store[DungeonKey := IntText(n)])
  }

  /** `changeTomorrowSaved(val)`: the stored text reads back as true whatever `val` is. */
  function ChangeTomorrowSaved(ctx: Context, val: bool): (r: Context)
    ensures r.state == ctx.state.(tomorrowSaved := val)
    ensures WritesOnly(ctx.store, r.store, {TomorrowSavedKey})
    ensures JsBoolean(r.store[TomorrowSavedKey])
  {
    StoredBooleanIsTrue(val);
    Context(ctx.state.(tomorrowSaved := val), ctx.store[TomorrowSavedKey := BoolText(val)])
  }

  /** `changeTomorrowGoals(gs)`: the plan is replaced, and the stored list reads back as `gs`. */
  function ChangeTomorrowGoals(ctx: Context, gs: seq<Goal>): (r: Context)
    ensures r.state == ctx.state.(tomorrowGoals := gs)
    ensures WritesOnly(ctx.store, r.store, {TomorrowGoalsKey})
    ensures ReadGoals(r.store, TomorrowGoalsKey) == Got(gs)
  {
    var store := ctx.store[TomorrowGoalsKey := Encode(gs)];
    ReadEncodedGoals(store, TomorrowGoalsKey, gs);
    Context(ctx.state.(tomorrowGoals := gs), store)
  }

  /** The one-shot timer just after local midnight: the date key moves to the new day,
      the saved-plan flag is cleared, and only that flag is written, as "false". */
  function Midnight(ctx: Context, c: Clock): (r: Context)
    requires ValidClock(c)
    ensures r.state == ctx.state.(currentDate := Today(c), tomorrowSaved := false)
    ensures WritesOnly(ctx.store, r.store, {TomorrowSavedKey})
    ensures r.store[TomorrowSavedKey] == "false"
  {
    StoredBooleanIsTrue(false);
    Context(ctx.state.(currentDate := Today(c), tomorrowSaved := false),
            ctx.store[TomorrowSavedKey := BoolText(false)])
  }

  // ---------------------------------------------------------------------
  // Calls from the screens
  // ---------------------------------------------------------------------

  predicate CallOk(call: Call) {
    call.AddXp? ==> 0 <= call.skill < |Categories|
  }

  function ApplyCall(ctx: Context, call: Call, c: Clock): (r: Context)
    requires WellFormed(ctx.state) && ValidClock(c) && CallOk(call)
    ensures WellFormed(r.state)
  {
    match call
    case AddXp(amount, k) =>
      RequiredXpShape(ctx.state.level[k], ctx.state.level[k]);
      var r := AddXpResult(ctx, amount, k);
      assert r.state.level[k] >= ctx.state.level[k];
      assert forall j :: 0 <= j < |r.state.level| && j != k ==> r.state.level[j] == ctx.state.level[j];
      r
    case ChangeStreak(amount) => ChangeStreak(ctx, amount, c)
    case ChangeGoals(gs) => ChangeGoals(ctx, gs)
    case ChangeTomorrowSaved(v) => ChangeTomorrowSaved(ctx, v)
  }

  /** Calls made one after another, each seeing what the previous one left: calls from
      successive events, or calls of one handler that read nothing an earlier one sets
      (`changeGoals` and `changeTomorrowSaved` read only the date). */
  function ApplyAll(ctx: Context, calls: seq<Call>, c: Clock): (r: Context)
    requires WellFormed(ctx.state) && ValidClock(c)
    requires forall k :: 0 <= k < |calls| ==> CallOk(calls[k])
    ensures WellFormed(r.state)
    decreases |calls|
  {
    if |calls| == 0 then ctx else ApplyAll(ApplyCall(ctx, calls[0], c), calls[1..], c)
  }

  /** No screen call moves the context's date, so a `changeGoals` among them always
      writes under the date the context had before. */
  lemma {:induction false} ApplyAllKeepsDate(ctx: Context, calls: seq<Call>, c: Clock)
    requires WellFormed(ctx.state) && ValidClock(c)
    requires forall k :: 0 <= k < |calls| ==> CallOk(calls[k])
    ensures ApplyAll(ctx, calls, c).state.currentDate == ctx.state.currentDate
    decreases |calls|
  {
    if |calls| > 0 {
      ApplyAllKeepsDate(ApplyCall(ctx, calls[0], c), calls[1..], c);
    }
  }

  /** The amount of the first streak call, if any. */
  function FirstStreak(calls: seq<Call>): Option<int> {
    if |calls| == 0 then None
    else if calls[0].ChangeStreak? then Some(calls[0].amount)
    else FirstStreak(calls[1..])
  }

  /** However many streak calls a session makes, only the first one counts, and only if
      no action was recorded before. */
  lemma {:induction false} StreakOnceAcrossCalls(ctx: Context, calls: seq<Call>, c: Clock)
    requires WellFormed(ctx.state) && ValidClock(c)
    requires forall k :: 0 <= k < |calls| ==> CallOk(calls[k])
    ensures var r := ApplyAll(ctx, calls, c).state;
            && r.action == (ctx.state.action || FirstStreak(calls).Some?)
            && r.streak == (if ctx.state.action || FirstStreak(calls).None? then ctx.state.streak
                            else AddNum(ctx.state.streak, FirstStreak(calls).value))
    decreases |calls|
  {
    if |calls| > 0 {
      var next := ApplyCall(ctx, calls[0], c);
      StreakOnceAcrossCalls(next, calls[1..], c);
      if calls[0].ChangeStreak? && !ctx.state.action {
        StreakStaysAfterAction(next, calls[1..], c);
      }
    }
  }

  lemma {:induction false} StreakStaysAfterAction(ctx: Context, calls: seq<Call>, c: Clock)
    requires WellFormed(ctx.state) && ValidClock(c) && ctx.state.action
    requires forall k :: 0 <= k < |calls| ==> CallOk(calls[k])
    ensures ApplyAll(ctx, calls, c).state.action
    ensures ApplyAll(ctx, calls, c).state.streak == ctx.state.streak
    decreases |calls|
  {
    if |calls| > 0 {
      StreakStaysAfterAction(ApplyCall(ctx, calls[0], c), calls[1..], c);
    }
  }

  // ---------------------------------------------------------------------
  // Loading
  // ---------------------------------------------------------------------

  /** How reading one stored JSON value went: nothing stored, `JSON.parse` or `.map`
      threw, the value was not taken, or the value that was set. */
  datatype Read<T> = Absent | Threw | Skipped | Got(value: T)

  /** A stored goal list: `JSON.parse(text).map(...)` throws on a non-array. */
  function ReadGoals(store: Store, key: string): Read<seq<Goal>> {
    if !Truthy(store, key) then Absent
    else
      match ReadList(store[key])
      case Unparsable => Threw
      case NotAList => Threw
      case NotGoals => Skipped
      case GoalList(gs) => Got(gs)
  }

  /** A stored number array: anything that is not an array is passed over. */
  function ReadInts(store: Store, key: string): Read<seq<int>> {
    if !Truthy(store, key) then Absent
    else
      match Parse(store[key])
      case None => Threw
      case Some(JArr(items)) =>
        (match IntsFromJson(items)
         case Some(xs) => Got(xs)
         case None => Skipped)
      case Some(_) => Skipped
  }

  /** The result of `loadProgress`: the state it built, the store after its writes,
      and whether an exception cut it short (the catch only logs). */
  datatype Loaded = Loaded(state: State, store: Store, aborted: bool)

  /** The test that resets the streak: no last active date, or one that differs from
      yesterday's key or from today's key as a number. */
  predicate Stale(store: Store, c: Clock)
    requires ValidClock(c)
  {
    if Truthy(store, LastActiveKey) then
      var last := Number(store[LastActiveKey]);
      StrictNotEqual(last, Number(Yesterday(c))) || StrictNotEqual(last, Number(Today(c)))
    else true
  }

  /** The streak check of the load. `action` is the value the load's closure captured
      on mount, which is always the initial `false`. */
  function ReconcileStreak(s: State, store: Store, c: Clock, action: bool): (State, Store)
    requires ValidClock(c)
  {
    if Stale(store, c) then
      var s1 := if !action then s.(streak := Finite(0)) else s;
      var store1 := if !action then store[StreakKey := NumText(Finite(0))] else store;
      (s1.(action := false), store1[ActionKey := BoolText(false)])
    else (s, store)
  }

  /** The value a goal-list read leaves: the list read, `[]` when nothing was stored,
      else what was there before. */
  function GoalsOr(r: Read<seq<Goal>>, before: seq<Goal>): seq<Goal> {
    match r
    case Got(gs) => gs
    case Absent => []
    case _ => before
  }

  function IntsOr(r: Read<seq<int>>, before: seq<int>): seq<int> {
    if r.Got? then r.value else before
  }

  /** `loadProgress` on mount: every key is read first, then the fields are set in order;
      a throw leaves the fields set so far. */
  function LoadProgress(store: Store, c: Clock): (r: Loaded)
    requires ValidClock(c)
    ensures r.aborted <==> !LoadsCleanly(store, c)
    ensures r.aborted ==> r.store == store
    ensures r.state.currentDate == Today(c)
  {
    var s0 := Initial(c);
    var s1 := if Truthy(store, TomorrowSavedKey) then s0.(tomorrowSaved := JsBoolean(store[TomorrowSavedKey])) else s0;
    var tg := ReadGoals(store, TomorrowGoalsKey);
    if tg.Threw? then Loaded(s1, store, true)
    else
      var s2 := s1.(tomorrowGoals := GoalsOr(tg, s1.tomorrowGoals));
      var rx := ReadInts(store, XpKey);
      if rx.Threw? then Loaded(s2, store, true)
      else
        var s3 := s2.(xp := IntsOr(rx, s2.xp));
        var rl := ReadInts(store, LevelKey);
        if rl.Threw? then Loaded(s3, store, true)
        else
          var s4 := s3.(level := IntsOr(rl, s3.level));
          var sg := ReadGoals(store, Yesterday(c));
          if sg.Threw? then Loaded(s4, store, true)
          else LoadRest(s4.(savedGoals := GoalsOr(sg, s4.savedGoals)), store, c, s0.action)
  }

  /** The state once the four JSON reads are through. */
  function AfterJsonReads(store: Store, c: Clock): State
    requires ValidClock(c)
  {
    var s0 := Initial(c);
    s0.(tomorrowSaved := if Truthy(store, TomorrowSavedKey) then JsBoolean(store[TomorrowSavedKey]) else false,
        tomorrowGoals := GoalsOr(ReadGoals(store, TomorrowGoalsKey), []),
        xp := IntsOr(ReadInts(store, XpKey), s0.xp),
        level := IntsOr(ReadInts(store, LevelKey), s0.level),
        savedGoals := GoalsOr(ReadGoals(store, Yesterday(c)), []))
  }

  function LoadRest(s: State, store: Store, c: Clock, capturedAction: bool): (r: Loaded)
    requires ValidClock(c)
    ensures !r.aborted && r.state.currentDate == s.currentDate
  {
    var s6 := if Truthy(store, DungeonKey) then s.(dungeonLevel := Number(store[DungeonKey])) else s;
    var s7 := if Truthy(store, ActionKey) then s6.(action := JsBoolean(store[ActionKey])) else s6;
    var (s8, store8) :=
      if Truthy(store, StreakKey) then ReconcileStreak(s7.(streak := Number(store[StreakKey])), store, c, capturedAction)
      else (s7, store);
    var s9 := if Truthy(store, TodayModeKey) then s8.(todayMode := JsBoolean(store[TodayModeKey])) else s8;
    Loaded(s9, store8, false)
  }

  /** The load runs to the end exactly when none of its four JSON reads throws. */
  predicate LoadsCleanly(store: Store, c: Clock)
    requires ValidClock(c)
  {
    !ReadGoals(store, TomorrowGoalsKey).Threw? && !ReadInts(store, XpKey).Threw?
    && !ReadInts(store, LevelKey).Threw? && !ReadGoals(store, Yesterday(c)).Threw?
  }

  lemma LoadAbortsIff(store: Store, c: Clock)
    requires ValidClock(c)
    ensures LoadProgress(store, c).aborted <==> !LoadsCleanly(store, c)
    ensures LoadsCleanly(store, c) ==> LoadProgress(store, c) == LoadRest(AfterJsonReads(store, c), store, c, false)
    ensures !LoadsCleanly(store, c) ==> LoadProgress(store, c).store == store
  {
  }

  /** The streak test is always true: both date keys read as NaN, and NaN differs
      from everything. */
  lemma ReconcileAlwaysResets(s: State, store: Store, c: Clock)
    requires ValidClock(c)
    ensures ReconcileStreak(s, store, c, false)
         == (s.(streak := Finite(0), action := false), store[StreakKey := "0"][ActionKey := "false"])
  {
    NumberOfIsoDate(AddDays(c.utc, -1));
    NumberOfIsoDate(AddDays(c.utc, 0));
    assert NumText(Finite(0)) == "0";
    assert BoolText(false) == "false";
  }

  /** So a stored streak is always reset to 0 and the action flag to false on load, and
      those are the only writes a load makes. */
  lemma LoadAlwaysResetsStreak(store: Store, c: Clock)
    requires ValidClock(c)
    ensures var r := LoadProgress(store, c);
            && (!r.aborted && Truthy(store, StreakKey) ==>
                  r.state.streak == Finite(0) && !r.state.action
                  && r.store == store[StreakKey := "0"][ActionKey := "false"])
            && (!Truthy(store, StreakKey) ==> r.store == store)
  {
    LoadAbortsIff(store, c);
    LoadRestStreak(AfterJsonReads(store, c), store, c);
  }

  lemma LoadRestStreak(s: State, store: Store, c: Clock)
    requires ValidClock(c)
    ensures var r := LoadRest(s, store, c, false);
            && (Truthy(store, StreakKey) ==>
                  r.state.streak == Finite(0) && !r.state.action
                  && r.store == store[StreakKey := "0"][ActionKey := "false"])
            && (!Truthy(store, StreakKey) ==> r.store == store)
  {
    var s6 := if Truthy(store, DungeonKey) then s.(dungeonLevel := Number(store[DungeonKey])) else s;
    var s7 := if Truthy(store, ActionKey) then s6.(action := JsBoolean(store[ActionKey])) else s6;
    if Truthy(store, StreakKey) {
      ReconcileAlwaysResets(s7.(streak := Number(store[StreakKey])), store, c);
    }
  }

  /** Every field the load may set, when it runs to the end. */
  lemma LoadFields(store: Store, c: Clock)
    requires ValidClock(c) && LoadsCleanly(store, c)
    ensures var s := LoadProgress(store, c).state;
            && s.currentDate == Today(c)
            && s.tomorrowSaved == Truthy(store, TomorrowSavedKey)
            && s.todayMode == Truthy(store, TodayModeKey)
            && (ReadGoals(store, TomorrowGoalsKey).Got? ==> s.tomorrowGoals == ReadGoals(store, TomorrowGoalsKey).value)
            && (ReadInts(store, XpKey).Got? ==> s.xp == ReadInts(store, XpKey).value)
            && (ReadInts(store, LevelKey).Got? ==> s.level == ReadInts(store, LevelKey).value)
            && (ReadGoals(store, Yesterday(c)).Got? ==> s.savedGoals == ReadGoals(store, Yesterday(c)).value)
            && (Truthy(store, DungeonKey) ==> s.dungeonLevel == Number(store[DungeonKey]))
    ensures var s := LoadProgress(store, c).state;
            && (!ReadGoals(store, TomorrowGoalsKey).Got? ==> s.tomorrowGoals == [])
            && (!ReadInts(store, XpKey).Got? ==> s.xp == Initial(c).xp)
            && (!ReadInts(store, LevelKey).Got? ==> s.level == Initial(c).level)
            && (!ReadGoals(store, Yesterday(c)).Got? ==> s.savedGoals == [])
            && (!Truthy(store, DungeonKey) ==> s.dungeonLevel == Initial(c).dungeonLevel)
  {
    LoadAbortsIff(store, c);
    var m := AfterJsonReads(store, c);
    LoadRestFields(m, store, c);
  }

  /** The tail of the load changes only the counter, the flags and the streak. */
  lemma LoadRestFields(s: State, store: Store, c: Clock)
    requires ValidClock(c)
    ensures var r := LoadRest(s, store, c, false).state;
            && r.xp == s.xp && r.level == s.level && r.savedGoals == s.savedGoals
            && r.currentDate == s.currentDate && r.tomorrowSaved == s.tomorrowSaved
            && r.tomorrowGoals == s.tomorrowGoals
            && r.dungeonLevel == (if Truthy(store, DungeonKey) then Number(store[DungeonKey]) else s.dungeonLevel)
            && r.todayMode == (if Truthy(store, TodayModeKey) then true else s.todayMode)
  {
    var s6 := if Truthy(store, DungeonKey) then s.(dungeonLevel := Number(store[DungeonKey])) else s;
    var s7 := if Truthy(store, ActionKey) then s6.(action := JsBoolean(store[ActionKey])) else s6;
    if Truthy(store, StreakKey) {
      ReconcileTouchesStreakOnly(s7.(streak := Number(store[StreakKey])), store, c);
    }
  }

  /** The streak check changes nothing in the state but the streak and the action flag. */
  lemma ReconcileTouchesStreakOnly(s: State, store: Store, c: Clock)
    requires ValidClock(c)
    ensures var r := ReconcileStreak(s, store, c, false).0;
            && r.xp == s.xp && r.level == s.level && r.savedGoals == s.savedGoals
            && r.currentDate == s.currentDate && r.tomorrowSaved == s.tomorrowSaved
            && r.tomorrowGoals == s.tomorrowGoals && r.dungeonLevel == s.dungeonLevel
            && r.todayMode == s.todayMode
  {
  }

  // ---------------------------------------------------------------------
  // What survives a restart
  // ---------------------------------------------------------------------

  lemma ReadEncodedInts(store: Store, key: string, xs: seq<int>)
    requires key in store && store[key] == EncodeInts(xs)
    ensures ReadInts(store, key) == Got(xs)
  {
    ParseOfSerialize(IntsJson(xs));
    IntsFromJsonOfIntsJson(xs);
    SerializeHead(IntsJson(xs));
  }

  /** Writing one key does not change what a read of another key sees. */
  lemma ReadsIgnoreOtherKey(store: Store, k: string, v: string, key: string)
    requires key != k
    ensures ReadInts(store[k := v], key) == ReadInts(store, key)
    ensures ReadGoals(store[k := v], key) == ReadGoals(store, key)
  {
    assert Truthy(store[k := v], key) == Truthy(store, key);
    if key in store {
      assert store[k := v][key] == store[key];
    }
  }

  lemma ReadEncodedGoals(store: Store, key: string, gs: seq<Goal>)
    requires key in store && store[key] == Encode(gs)
    ensures ReadGoals(store, key) == Got(gs)
  {
    ReadEncoded(gs);
  }

  /** Writing either flag as false does not survive a restart: the stored text "false"
      is a non-empty string, so the load sets the flag to true. */
  lemma TodayModeFalseReloadsTrue(ctx: Context, c: Clock)
    requires ValidClock(c)
    ensures var r := LoadProgress(ChangeTodayMode(ctx, false).store, c);
            !r.aborted ==> r.state.todayMode
  {
    var a := ChangeTodayMode(ctx, false).store;
    assert Truthy(a, TodayModeKey);
    LoadAbortsIff(a, c);
    if LoadsCleanly(a, c) {
      LoadFields(a, c);
    }
  }

  /** The midnight reset of `tomorrowSaved` is undone by the next load in the same way. */
  lemma MidnightResetReloadsTrue(ctx: Context, c: Clock, c': Clock)
    requires ValidClock(c) && ValidClock(c')
    ensures var r := LoadProgress(Midnight(ctx, c).store, c');
            !r.aborted ==> r.state.tomorrowSaved
  {
    var b := Midnight(ctx, c).store;
    assert Truthy(b, TomorrowSavedKey);
    LoadAbortsIff(b, c');
    if LoadsCleanly(b, c') {
      LoadFields(b, c');
    }
  }

  /** XP, levels, the dungeon counter and tomorrow's plan come back as written. */
  lemma ProgressSurvivesReload(ctx: Context, c: Clock)
    requires ValidClock(c) && WellFormed(ctx.state)
    requires LoadsCleanly(ctx.store, c)
    requires ctx.store[XpKey := EncodeInts(ctx.state.xp)] == ctx.store
    requires ctx.store[LevelKey := EncodeInts(ctx.state.level)] == ctx.store
    ensures var r := LoadProgress(ctx.store, c);
            !r.aborted && r.state.xp == ctx.state.xp && r.state.level == ctx.state.level
  {
    ReadEncodedInts(ctx.store, XpKey, ctx.state.xp);
    ReadEncodedInts(ctx.store, LevelKey, ctx.state.level);
    LoadFields(ctx.store, c);
  }

  /** After `addXp` the arrays it wrote are what the next load reads. */
  lemma AddXpSurvivesReload(ctx: Context, amount: int, i: int, c: Clock)
    requires ValidClock(c) && WellFormed(ctx.state) && 0 <= i < |Categories|
    requires LoadsCleanly(ctx.store, c)
    ensures var after := AddXpResult(ctx, amount, i);
            var r := LoadProgress(after.store, c);
            !r.aborted && r.state.xp == after.state.xp && r.state.level == after.state.level
  {
    RequiredXpShape(ctx.state.level[i], ctx.state.level[i]);
    var after := AddXpResult(ctx, amount, i);
    AddXpResultShape(ctx, amount, i);
    ArraysReads(ctx.store, after.state.xp, after.state.level, c);
    LoadFields(after.store, c);
  }

  /** After both arrays are written, the load reads them back and still runs to the end. */
  lemma ArraysReads(store: Store, xs: seq<int>, ls: seq<int>, c: Clock)
    requires ValidClock(c) && LoadsCleanly(store, c)
    ensures var s2 := store[XpKey := EncodeInts(xs)][LevelKey := EncodeInts(ls)];
            && LoadsCleanly(s2, c) && ReadInts(s2, XpKey) == Got(xs) && ReadInts(s2, LevelKey) == Got(ls)
  {
    var s1 := store[XpKey := EncodeInts(xs)];
    var s2 := s1[LevelKey := EncodeInts(ls)];
    var y := Yesterday(c);
    DateKeyIsNotAppKey(AddDays(c.utc, -1));
    assert y != XpKey && y != LevelKey;
    ReadsIgnoreOtherKey(store, XpKey, EncodeInts(xs), TomorrowGoalsKey);
    ReadsIgnoreOtherKey(store, XpKey, EncodeInts(xs), y);
    ReadsIgnoreOtherKey(s1, LevelKey, EncodeInts(ls), TomorrowGoalsKey);
    ReadsIgnoreOtherKey(s1, LevelKey, EncodeInts(ls), y);
    ReadsIgnoreOtherKey(s1, LevelKey, EncodeInts(ls), XpKey);
    ReadEncodedInts(s1, XpKey, xs);
    ReadEncodedInts(s2, LevelKey, ls);
  }

  /** Tomorrow's plan and the dungeon counter come back as written. */
  lemma PlanAndDungeonSurviveReload(ctx: Context, gs: seq<Goal>, n: int, c: Clock)
    requires ValidClock(c)
    requires LoadsCleanly(ctx.store, c)
    ensures var after := ChangeDungeon(ChangeTomorrowGoals(ctx, gs), n);
            var r := LoadProgress(after.store, c);
            !r.aborted && r.state.tomorrowGoals == gs && r.state.dungeonLevel == Finite(n)
  {
    var s1 := ctx.store[TomorrowGoalsKey := Encode(gs)];
    var s2 := s1[DungeonKey := IntText(n)];
    assert ChangeDungeon(ChangeTomorrowGoals(ctx, gs), n).store == s2;
    PlanAndDungeonReads(ctx.store, gs, n, c);
    NumberOfIntText(n);
    LoadFields(s2, c);
  }

  lemma PlanAndDungeonReads(store: Store, gs: seq<Goal>, n: int, c: Clock)
    requires ValidClock(c) && LoadsCleanly(store, c)
    ensures var s2 := store[TomorrowGoalsKey := Encode(gs)][DungeonKey := IntText(n)];
            && LoadsCleanly(s2, c) && ReadGoals(s2, TomorrowGoalsKey) == Got(gs)
            && Truthy(s2, DungeonKey) && s2[DungeonKey] == IntText(n)
  {
    var s1 := store[TomorrowGoalsKey := Encode(gs)];
    var y := Yesterday(c);
    DateKeyIsNotAppKey(AddDays(c.utc, -1));
    assert y != TomorrowGoalsKey && y != DungeonKey;
    ReadsIgnoreOtherKey(store, TomorrowGoalsKey, Encode(gs), XpKey);
    ReadsIgnoreOtherKey(store, TomorrowGoalsKey, Encode(gs), LevelKey);
    ReadsIgnoreOtherKey(store, TomorrowGoalsKey, Encode(gs), y);
    ReadEncodedGoals(s1, TomorrowGoalsKey, gs);
    ReadsIgnoreOtherKey(s1, DungeonKey, IntText(n), XpKey);
    ReadsIgnoreOtherKey(s1, DungeonKey, IntText(n), LevelKey);
    ReadsIgnoreOtherKey(s1, DungeonKey, IntText(n), y);
    ReadsIgnoreOtherKey(s1, DungeonKey, IntText(n), TomorrowGoalsKey);
  }

  /** The day's list saved with `changeGoals` is the snapshot the next day's load reads,
      because today's key is tomorrow's yesterday key. */
  lemma SavedGoalsReadNextDay(ctx: Context, gs: seq<Goal>, c: Clock, next: Clock)
    requires ValidClock(c) && ValidClock(next) && next.utc == Next(c.utc)
    requires ctx.state.currentDate == Today(c)
    requires LoadsCleanly(ctx.store, next)
    ensures var r := LoadProgress(ChangeGoals(ctx, gs).store, next);
            !r.aborted && r.state.savedGoals == gs
  {
    var after := ChangeGoals(ctx, gs);
    TodayIsNextYesterday(c, next);
    DateKeyIsNotAppKey(AddDays(c.utc, 0));
    ReadEncodedGoals(after.store, Yesterday(next), gs);
    var k := Today(c);
    assert k !in AppKeys;
    ReadsIgnoreOtherKey(ctx.store, k, Encode(gs), TomorrowGoalsKey);
    ReadsIgnoreOtherKey(ctx.store, k, Encode(gs), XpKey);
    ReadsIgnoreOtherKey(ctx.store, k, Encode(gs), LevelKey);
    LoadFields(after.store, next);
  }

  /** A streak does not survive a restart, whatever was counted before it. */
  lemma StreakLostOnReload(ctx: Context, amount: int, c: Clock, c': Clock)
    requires ValidClock(c) && ValidClock(c') && !ctx.state.action
    ensures var r := LoadProgress(ChangeStreak(ctx, amount, c).store, c');
            !r.aborted ==> r.state.streak == Finite(0) && !r.state.action
  {
    var after := ChangeStreak(ctx, amount, c);
    assert after.store[StreakKey] == NumText(AddNum(ctx.state.streak, amount));
    assert Truthy(after.store, StreakKey);
    LoadAlwaysResetsStreak(after.store, c');
  }
}

=== FILE: seqs.dfy ===
/** Sequence operations the app leans on: `Array.prototype.filter`, the
    insertion-ordered de-duplication of `Array.from(new Set(xs))` (and of the
    backend's keyword loop), and `slice`. */
module Seqs {

  /** `s.filter(p)`. */
  function Filter<T(!new)>(p: T -> bool, s: seq<T>): (r: seq<T>)
    ensures |r| <= |s|
    ensures forall x :: x in r <==> x in s && p(x)
    ensures forall i :: 0 <= i < |r| ==> p(r[i])
  {
    if |s| == 0 then [] else (if p(s[0]) then [s[0]] else []) + Filter(p, s[1..])
  }

  /** Filtering a concatenation filters each part. */
  lemma {:induction false} FilterConcat<T(!new)>(p: T -> bool, a: seq<T>, b: seq<T>)
    ensures Filter(p, a + b) == Filter(p, a) + Filter(p, b)
    decreases |a|
  {
    if |a| > 0 {
      assert (a + b)[1..] == a[1..] + b;
      FilterConcat(p, a[1..], b);
    } else {
      assert a + b == b;
    }
  }

  /** A filter that rejects nothing returns its input. */
  lemma {:induction false} FilterKeepsAll<T(!new)>(p: T -> bool, s: seq<T>)
    requires forall i :: 0 <= i < |s| ==> p(s[i])
    ensures Filter(p, s) == s
    decreases |s|
  {
    if |s| > 0 {
      FilterKeepsAll(p, s[1..]);
    }
  }

  /** Filtering twice by the same test is filtering once. */
  lemma FilterIdempotent<T(!new)>(p: T -> bool, s: seq<T>)
    ensures Filter(p, Filter(p, s)) == Filter(p, s)
  {
    FilterKeepsAll(p, Filter(p, s));
  }

  /** Filtering by `p` and then by `q` keeps what both accept. */
  lemma {:induction false} FilterFilter<T(!new)>(p: T -> bool, q: T -> bool, s: seq<T>)
    ensures Filter(q, Filter(p, s)) == Filter(x => p(x) && q(x), s)
    decreases |s|
  {
    if |s| > 0 {
      FilterFilter(p, q, s[1..]);
      var head := if p(s[0]) then [s[0]] else [];
      FilterConcat(q, head, Filter(p, s[1..]));
    }
  }

  predicate NoDuplicates<T(==,!new)>(s: seq<T>) {
    forall i, j :: 0 <= i < j < |s| ==> s[i] != s[j]
  }

  /** Appending an element not yet present keeps a list duplicate-free. */
  lemma AppendFresh<T(!new)>(s: seq<T>, x: T)
    requires x !in s
    ensures NoDuplicates(s) ==> NoDuplicates(s + [x])
  {
    if NoDuplicates(s) {
      forall i, j | 0 <= i < j < |s| + 1
        ensures (s + [x])[i] != (s + [x])[j]
      {
        if j == |s| {
          assert s[i] in s;
        }
      }
    }
  }

  /** `Array.from(new Set(s))`: the distinct elements of `s` in order of first occurrence. */
  function Dedupe<T(==,!new)>(s: seq<T>): (r: seq<T>)
    ensures NoDuplicates(r)
    ensures forall x :: x in r <==> x in s
    ensures |r| <= |s|
  {
    if |s| == 0 then []
    else
      var d := Dedupe(s[..|s| - 1]);
      assert forall x :: x in s[..|s| - 1] ==> x in s;
      assert forall x :: x in s ==> x in s[..|s| - 1] || x == s[|s| - 1];
      if s[|s| - 1] in d then d else d + [s[|s| - 1]]
  }

  /** The de-duplication of a prefix is a prefix of the de-duplication. */
  lemma {:induction false} DedupePrefix<T(!new)>(s: seq<T>, k: nat)
    requires k <= |s|
    ensures |Dedupe(s[..k])| <= |Dedupe(s)|
    ensures Dedupe(s[..k]) == Dedupe(s)[..|Dedupe(s[..k])|]
    decreases |s| - k
  {
    if k < |s| {
      DedupePrefix(s[..|s| - 1], k);
      assert s[..|s| - 1][..k] == s[..k];
    } else {
      assert s[..k] == s;
    }
  }

  /** A list that already has no duplicates is left as it is. */
  lemma {:induction false} DedupeOfDistinct<T(!new)>(s: seq<T>)
    requires NoDuplicates(s)
    ensures Dedupe(s) == s
    decreases |s|
  {
    if |s| > 0 {
      DedupeOfDistinct(s[..|s| - 1]);
      assert s[|s| - 1] !in s[..|s| - 1];
      assert s[..|s| - 1] + [s[|s| - 1]] == s;
    }
  }

  /** Merging `extra` into a duplicate-free `base` keeps `base` first, in order, and
      appends only what is new. */
  lemma DedupeKeepsBase<T(!new)>(base: seq<T>, extra: seq<T>)
    requires NoDuplicates(base)
    ensures |base| <= |Dedupe(base + extra)|
    ensures Dedupe(base + extra)[..|base|] == base
  {
    var s := base + extra;
    DedupePrefix(s, |base|);
    assert s[..|base|] == base;
    DedupeOfDistinct(base);
  }

  /** Merging only elements the duplicate-free `base` already holds gives `base` back. */
  lemma {:induction false} DedupeAbsorbs<T(!new)>(base: seq<T>, extra: seq<T>)
    requires NoDuplicates(base)
    requires forall x :: x in extra ==> x in base
    ensures Dedupe(base + extra) == base
    decreases |extra|
  {
    if |extra| == 0 {
      assert base + extra == base;
      DedupeOfDistinct(base);
    } else {
      var s := base + extra;
      var front := extra[..|extra| - 1];
      assert s[..|s| - 1] == base + front;
      assert forall x :: x in front ==> x in extra;
      DedupeAbsorbs(base, front);
      assert s[|s| - 1] == extra[|extra| - 1];
    }
  }

  /** `s.map(f)`. */
  function Map<A, B>(f: A -> B, s: seq<A>): (r: seq<B>)
    ensures |r| == |s| && forall i :: 0 <= i < |s| ==> r[i] == f(s[i])
  {
    if |s| == 0 then [] else [f(s[0])] + Map(f, s[1..])
  }

  /** Mapping a concatenation maps each part. */
  lemma MapConcat<A, B>(f: A -> B, a: seq<A>, b: seq<A>)
    ensures Map(f, a + b) == Map(f, a) + Map(f, b)
  {
    assert forall i :: 0 <= i < |b| ==> (a + b)[|a| + i] == b[i];
  }

  /** Every element a filter keeps shows up, mapped, in the mapped result. */
  lemma MapFilterKeeps<A(!new), B>(f: A -> B, p: A -> bool, s: seq<A>)
    ensures forall k :: 0 <= k < |s| && p(s[k]) ==> f(s[k]) in Map(f, Filter(p, s))
  {
    var xs := Filter(p, s);
    forall k | 0 <= k < |s| && p(s[k])
      ensures f(s[k]) in Map(f, xs)
    {
      assert s[k] in xs;
      var j :| 0 <= j < |xs| && xs[j] == s[k];
      assert Map(f, xs)[j] == f(s[k]);
    }
  }

  /** `s.slice(0, n)` for a non-negative `n`. */
  function Take<T(!new)>(s: seq<T>, n: nat): (r: seq<T>)
    ensures |r| == if n < |s| then n else |s|
    ensures r == s[..|r|]
  {
    if n < |s| then s[..n] else s
  }

  /** `s.slice(0, n)` for any integer `n`: a negative end counts from the back. */
  function SliceFront<T(!new)>(s: seq<T>, n: int): (r: seq<T>)
    ensures |r| <= |s| && r == s[..|r|]
    ensures n >= 0 ==> r == Take(s, n)
    ensures n < 0 ==> |r| == if |s| + n > 0 then |s| + n else 0
  {
    if n >= 0 then Take(s, n)
    else if |s| + n > 0 then s[..|s| + n]
    else []
  }

  /** `s.slice(-n)`: the last `n` elements. Since `-0` is `0`, `slice(-0)` is the
      whole sequence. */
  function TakeLast<T(!new)>(s: seq<T>, n: nat): (r: seq<T>)
    ensures n > 0 ==> |r| == if n < |s| then n else |s|
    ensures n == 0 ==> r == s
    ensures r == s[|s| - |r|..]
  {
    if n == 0 || n >= |s| then s else s[|s| - n..]
  }
}

=== FILE: storage.dfy ===
/** The key-value store behind every screen (`AsyncStorage`), taken as a
    synchronous map from keys to text, and the JavaScript coercions the app
    applies to the text it reads back: truthiness (`if (stored)`),
    `Boolean(text)` and `Number(text)`. */
module Storage {
  import opened Wrappers
  import opened Numerals
  import opened Json

  type Store = map<string, string>

  /** `AsyncStorage.getItem(key)`: the stored text, or null. */
  function Get(store: Store, key: string): Option<string> {
    if key in store then Some(store[key]) else None
  }

  /** `if (stored)`: a stored value that is not null and not the empty string. */
  predicate Truthy(store: Store, key: string) {
    key in store && store[key] != ""
  }

  /** `after` holds every key in `keys`, and agrees with `before` on every other key. */
  predicate WritesOnly(before: Store, after: Store, keys: set<string>) {
    && keys <= after.Keys
    && after.Keys - keys == before.Keys - keys
    && forall k | k in before && k !in keys :: k in after && after[k] == before[k]
  }

  /** `Boolean(text)`: every non-empty string is true, whatever it says. */
  function JsBoolean(text: string): bool {
    text != ""
  }

  /** A JavaScript number as far as the app's integer values go. */
  datatype Num = NaN | Finite(v: int)

  /** `Number(text)` on the texts the app writes and reads back: the empty string is 0,
      a decimal integer is its value, and quoted text, `true`, `false` and `null` are
      NaN. Surrounding white space, fractions, exponents and hexadecimal, which
      JavaScript also accepts, are read as NaN here. */
  function Number(text: string): Num {
    if text == "" then Finite(0)
    else
      match ParseInt(text)
      case None => NaN
      case Some((v, rest)) => if rest == "" then Finite(v) else NaN
  }

  /** `n + k`: NaN absorbs the addition. */
  function AddNum(n: Num, k: int): Num {
    match n
    case NaN => NaN
    case Finite(v) => Finite(v + k)
  }

  /** `a !== b` on numbers: NaN differs from everything, itself included. */
  predicate StrictNotEqual(a: Num, b: Num) {
    a.NaN? || b.NaN? || a.v != b.v
  }

  /** What `JSON.stringify(b)` stores for a boolean reads back as true. */
  lemma StoredBooleanIsTrue(b: bool)
    ensures JsBoolean(Serialize(JBool(b)))
    ensures !b ==> Serialize(JBool(b)) == "false"
  {
  }

  /** `Number` reads back the text `toString`/`JSON.stringify` writes for an integer. */
  lemma NumberOfIntText(i: int)
    ensures Number(IntText(i)) == Finite(i)
  {
    ParseIntText(i, "");
    assert IntText(i) + "" == IntText(i);
  }

  /** A quoted string (what `JSON.stringify` writes for text) is never a number. */
  lemma NumberOfQuoted(s: string)
    ensures Number(Quote(s)) == NaN
  {
    var t := Quote(s);
    assert t[0] == '"';
    assert DigitRun(t) == 0;
  }

  /** Whatever `a` and `b` are, `x !== a || x !== b` holds unless `a` and `b` are the
      same non-NaN number: a test written this way is always true. */
  lemma EitherDiffers(x: Num, a: Num, b: Num)
    requires StrictNotEqual(a, b)
    ensures StrictNotEqual(x, a) || StrictNotEqual(x, b)
  {
  }
}

=== FILE: text.dfy ===
/** Text helpers shared by the journal card and the backend: lower-casing, the
    substring test, and stripping whitespace at both ends, with the two
    whitespace sets of JavaScript's `trim` and Python's `str.strip`. */
module Text {

  function LowerChar(c: char): char {
    if 'A' <= c <= 'Z' then (c as int - 'A' as int + 'a' as int) as char else c
  }

  /** `toLowerCase()` / `lower()` on the ASCII letters; every other character is kept. */
  function Lower(s: string): (r: string)
    ensures |r| == |s|
    ensures forall i :: 0 <= i < |s| ==> r[i] == LowerChar(s[i])
  {
    seq(|s|, i requires 0 <= i < |s| => LowerChar(s[i]))
  }

  /** Lower-casing twice is lower-casing once. */
  lemma LowerIdempotent(s: string)
    ensures Lower(Lower(s)) == Lower(s)
  {
  }

  /** Lower-casing works character by character, so it distributes over `+`. */
  lemma LowerConcat(a: string, b: string)
    ensures Lower(a + b) == Lower(a) + Lower(b)
  {
  }

  /** A character outside the Basic Multilingual Plane, which UTF-16 stores as a
      surrogate pair. */
  predicate Astral(c: char) {
    c as int >= 0x10000
  }

  /** JavaScript's `.length`: the number of UTF-16 code units, two for each astral
      character and one for every other. */
  function Utf16Length(s: string): (n: nat)
    ensures |s| <= n <= 2 * |s|
    ensures n == |s| <==> forall k :: 0 <= k < |s| ==> !Astral(s[k])
    decreases |s|
  {
    if |s| == 0 then 0
    else
      assert forall k :: 1 <= k < |s| ==> s[k] == s[1..][k - 1];
      (if Astral(s[0]) then 2 else 1) + Utf16Length(s[1..])
  }

  /** `s.includes(w)` / `w in s`: `w` occurs somewhere in `s`. */
  predicate Contains(s: string, w: string) {
    exists i :: 0 <= i <= |s| && OccursAt(s, w, i)
  }

  predicate OccursAt(s: string, w: string, i: nat) {
    i + |w| <= |s| && s[i..i + |w|] == w
  }

  /** Text that contains a word still contains it after more text is added on
      either side. */
  lemma ContainsExtend(a: string, b: string, w: string)
    requires Contains(a, w)
    ensures Contains(a + b, w) && Contains(b + a, w)
  {
    var i :| 0 <= i <= |a| && OccursAt(a, w, i);
    assert (a + b)[i..i + |w|] == w;
    assert OccursAt(a + b, w, i);
    assert (b + a)[|b| + i..|b| + i + |w|] == w;
    assert OccursAt(b + a, w, |b| + i);
  }

  /** The characters JavaScript's `trim` removes: white space and line terminators. */
  predicate JsSpace(c: char) {
    var n := c as int;
    (9 <= n <= 13) || n == 32 || n == 0xA0 || n == 0x1680 || (0x2000 <= n <= 0x200A)
    || n == 0x2028 || n == 0x2029 || n == 0x202F || n == 0x205F || n == 0x3000 || n == 0xFEFF
  }

  /** The characters Python's `str.strip()` removes (`str.isspace`): JavaScript's set
      without the byte-order mark, and with the four separators 0x1C to 0x1F and the
      next-line character 0x85. */
  predicate PySpace(c: char) {
    var n := c as int;
    (9 <= n <= 13) || (0x1C <= n <= 0x1F) || n == 32 || n == 0x85 || n == 0xA0 || n == 0x1680
    || (0x2000 <= n <= 0x200A) || n == 0x2028 || n == 0x2029 || n == 0x202F || n == 0x205F || n == 0x3000
  }

  /** The number of leading characters in the set `space`. */
  function Leading(space: char -> bool, s: string): (n: nat)
    ensures n <= |s|
    ensures forall k :: 0 <= k < n ==> space(s[k])
    ensures n < |s| ==> !space(s[n])
  {
    if |s| == 0 || !space(s[0]) then 0 else 1 + Leading(space, s[1..])
  }

  /** The number of trailing characters in the set `space`. */
  function Trailing(space: char -> bool, s: string): (n: nat)
    ensures n <= |s|
    ensures forall k :: |s| - n <= k < |s| ==> space(s[k])
    ensures n < |s| ==> !space(s[|s| - 1 - n])
  {
    if |s| == 0 || !space(s[|s| - 1]) then 0 else 1 + Trailing(space, s[..|s| - 1])
  }

  /** `trim()` / `strip()`: `s` without its leading and trailing `space` characters. */
  function Strip(space: char -> bool, s: string): (r: string)
    ensures |r| <= |s|
    ensures r == "" <==> forall k :: 0 <= k < |s| ==> space(s[k])
    ensures r != "" ==> !space(r[0]) && !space(r[|r| - 1])
    ensures r != "" ==> r == s[Leading(space, s)..|s| - Trailing(space, s)]
  {
    var a := Leading(space, s);
    if a == |s| then ""
    else
      var b := Trailing(space, s);
      assert b < |s|;
      assert a <= |s| - 1 - b;
      s[a..|s| - b]
  }

  /** Stripping twice is stripping once. */
  lemma StripIdempotent(space: char -> bool, s: string)
    ensures Strip(space, Strip(space, s)) == Strip(space, s)
  {
    var r := Strip(space, s);
    if r != "" {
      assert Leading(space, r) == 0;
      assert Trailing(space, r) == 0;
    }
  }
}

=== FILE: wrappers.dfy ===
/** Optional values, used wherever the app reads something that may be absent
    (a storage key that was never written, a parse that does not succeed). */
module Wrappers {

  datatype Option<+T> = None | Some(value: T) {

    /** The wrapped value, or `default` when there is none. */
    function GetOr(default: T): T {
      match this
      case Some(v) => v
      case None => default
    }
  }
}
